=== FILE: README.md ===
# tweet_stuff in Dafny

A model of the data-cleaning core of tweet_stuff, a Python 2 toolkit that
collects tweets, extracts hashtags, URLs and user statistics from them, repairs
shortened links and writes feature files for clustering hashtags. Nothing
here performs I/O. The network, the Redis cache, the MySQL database and
the file system become scripted traces, maps and parameters. Each module
below covers one source file, or one concept shared by several files.

- `resolver.dfy` (`Resolver`, `ResolverProperties`): `resolve_redirects`.
  It is a function from a cache map and a scripted network trace to an
  outcome and a new cache. The trace holds the primary HEAD result, the
  redirect hops, how the chain ends, and the router probe's answer.
- `domain_pattern.dfy` (`DomainPattern`): the `https?://([\w\d\.\-]+\.\w{2,3})`
  match. It returns the longest prefix of the text after the scheme that is a
  valid host, which is what the regex engine's backtracking produces.
- `fix_urls.dfy` (`FixUrls`): `fix_url`, `fix_urls`, `fix_js` and `fix_all`
  over already-decoded records. The cache is threaded through every call.
- `safe_redis.dfy` (`SafeRedis`): the retry policy of the `SafeRedis` client.
  It runs against a scripted sequence of connection outcomes. Sleeps are
  counted, not performed.
- `unicode.dfy` (`Unicode`): `unicheck`, and the UTF-8 codec (RFC 3629) that
  the `unifilter` variants run it over.
- `char_filters.dfy` (`CharFilters`): the `unifilter` and `curse_out`
  variants of tools.py, twitterizer.py and tools/filter.py.
- `twitterizer.dfy` (`Twitterizer`): the tweet tests, `filter_tweet`, and the
  id window of `Search.search.fil`.
- `to_db.py` → `to_db.dfy` (`ToDb`): primary-key allocation over the cache,
  counter initialisation, the "-1" to NULL mapping and URL quoting.
- `freq_splitter.dfy` (`FreqSplitter`): the memoised best-product hashtag
  split.
- `splitter.dfy` (`Splitter`): the exhaustive split of splitter.py and
  feature_extraction/splitter.py. The two files differ only in where the
  word list comes from, so one definition takes the list as a parameter.
- `vectorizer.dfy` (`Vectorizer`): `to_vector`, `extracted_to_vector` and
  `vector_map`.
- `to_weka.dfy` (`ToWeka`): the ARFF header declarations and data rows, as
  string functions.
- `extract_info.dfy` (`ExtractInfo`): what `Extractor` computes after its
  library calls. This covers time bucketing, the weekday flag, the URL
  fallback chain, domain alignment, and output-file numbering.
- `get_baseline.dfy` (`GetBaseline`): the hashtag filter and the set merging
  of `get_coocurrences`. The sets are shared mutable objects, so the model
  keeps their contents in one sequence and the built list as indices into it.
- `text.dfy` (`Text`) and `wrappers.dfy` (`Wrappers`): string helpers
  (Python 2 `\w`, `in`, `lower`, `rstrip`) and `Option`/`Result`.

Every other non-fatal path of `resolve_redirects` writes its answer under
`url`, but the accepted redirect hop (fix_urls.py:57-59) is returned without
`CONN.set`.
The model follows the code (`Resolver.ResolveRedirects`), and the corrected
resolver is a separate member (see Findings). Where the code has a flaw, the
operations that use it take the reading as a parameter: `FixAllAsWritten`
runs the code as written throughout, and `FixAll` runs it corrected.

## Model

| member | source | states |
|---|---|---|
| Resolver.Yielded | fix_urls.py:57 | The redirect generator yields a prefix of the scripted hops, at most `limit` of them, and all of them when the chain is within the limit. |
| Resolver.FirstAccepted | fix_urls.py:57-61 | The first hop that is a 200 whose URL contains "http" and not "domainnotfound". No earlier hop qualifies. None exactly when no hop qualifies. |
| Resolver.Chain | fix_urls.py:54-81 | The redirect loop and its handlers. The first accepted hop is returned. With no accepted hop, the last URL seen (`tmp_url`) is cached under `url` and returned when the chain ends or exceeds the limit. On a mid-chain transport error with the probe up, the last `location` header (else `tmp_url`) is cached and returned. With the probe down, the error is re-raised and the cache is unchanged. |
| Resolver.ResolveRedirects | fix_urls.py:35-81 | As written. A truthy cached value is returned with no request and no write; an empty one is a miss. A primary failure caches `url` when the probe answers and re-raises with the cache unchanged when it does not. A non-redirect caches and returns `url`. The chain follows `Chain`. The accepted hop is not cached. Only the key `url` is ever written, and a fatal outcome writes nothing. |
| Resolver.ResolveRedirectsCaching | fix_urls.py:35-81 | The same contract, and every non-fatal resolution of an uncached URL leaves `cache[url]` equal to the result. |
| Resolver.ResolveMeetsContract | fix_urls.py:35-81 | The shared resolver body meets the common contract in both readings. In the caching reading it also leaves `cache[url]` equal to the result. |
| ResolverProperties.TruthyEntriesPermanent | fix_urls.py:37-39 | No resolution changes a truthy cache entry, in either reading. |
| ResolverProperties.CachingResolveIdempotent | fix_urls.py:37-79 | Corrected reading: after a non-empty resolution, resolving the same URL again gives the same answer. It makes no request and leaves the cache as it is, whatever the network does. |
| ResolverProperties.ResolveIdempotentOnceCached | fix_urls.py:37-79 | As written: whenever the first call leaves the URL cached, which every non-fatal path but the accepted hop does, a second call returns the same answer with no request and no cache change. |
| ResolverProperties.AcceptedHopNotCached | fix_urls.py:57-59 | As written, an accepted first hop is returned with the cache unchanged, so the next call for the URL uses the network again. |
| ResolverProperties.ChainCollapses | fix_urls.py:54-64 | Corrected reading: for A → B → C with C accepted, the result is C and the only write is `cache[A] := C`. B gets no entry. |
| ResolverProperties.ChainCollapsesAsWritten | fix_urls.py:54-59 | As written: for A → B → C with C accepted, the result is C and the cache is unchanged. |
| ResolverProperties.LongChainFallsBackToLastHop | fix_urls.py:60-68 | A chain one hop over the limit, with no accepted hop among the first `limit`, resolves to the limit-th hop's URL, cached under the original URL. |
| ResolverProperties.ConnectivityDownLeavesNoEntry | fix_urls.py:41-50 | When the primary request and the router probe both fail, the error propagates and no entry exists for the URL. |
| DomainPattern.AfterScheme | fix_urls.py:20 | There is a remainder exactly when the URL starts with "http://" or "https://". The scheme followed by the remainder is the URL. |
| DomainPattern.HostRun | fix_urls.py:20 | The length of the greedy `[\w\d\.\-]+` run. Every character inside it is a host character, and the character after it is not. |
| DomainPattern.Backtrack | fix_urls.py:20 | The engine gives back one character at a time, trying `\.\w{3}` before `\.\w{2}`. The first success is a valid host prefix, and no longer prefix is valid within that run length. None means no prefix within the run is valid. |
| DomainPattern.FirstDotPrefix | fix_urls.py:20 | A valid prefix whose two candidates at length `k` both fail has a class part shorter than `k`. |
| DomainPattern.MatchDomain | fix_urls.py:84-90 | `fix_url`'s domain. None unless the URL has the scheme. Otherwise the longest prefix of the remainder that is a host-class run ending in "." and 2–3 word characters, or None when no prefix is. |
| DomainPattern.ValidPrefixWithinRun | fix_urls.py:20 | Every valid host prefix lies within the greedy run. |
| DomainPattern.NoHostWithoutRun | fix_urls.py:20 | With no host character after the scheme, nothing matches. |
| FixUrls.FixUrl | fix_urls.py:84-90 | `fix_url` returns the resolver's answer: it fails iff the resolver's outcome is fatal, otherwise returns the resolver's URL, and always returns the resolver's cache. The resolver is `resolve_redirects` as written, or the caching reading when `cacheHop` is set. A failure is only the lost connection and leaves the cache unchanged. The domain is `MatchDomain` of the resolved URL. In the caching reading a non-empty result is cached under the URL. Truthy entries survive, and at most the key `url` is added. |
| FixUrls.FixEach | fix_urls.py:98-103 | The resolved URLs and the domains both have the input's length, and domain i is the domain of URL i. The only failure is the lost connection. Truthy entries survive. |
| FixUrls.FixEachInTurn | fix_urls.py:98-103 | When a record succeeds, resolved URL i and domain i are what `fix_url` gives for input URL i under the cache that the URLs before it left. |
| FixUrls.FixEachFailsInTurn | fix_urls.py:98-103 | A failed record failed at some URL i. Every URL before it succeeded, `fix_url` of URL i failed under the cache they left, and that cache is the one returned. |
| FixUrls.FixUrlsLine | fix_urls.py:93-106 | A line that is not JSON fails with NotJson, and a record without `js[1][0]` fails with an IndexError. A record without URLs comes back as its stripped text with no cache change. Otherwise the line fails exactly when the `fix_url` loop fails and returns that loop's cache. On success the new `urls` are exactly the loop's URLs, with aligned `domains`, and nothing else in the record changes. |
| FixUrls.RepairLines | fix_urls.py:109-120 | The `fix_js` loop never writes more lines than it reads. An IndexError never surfaces as a failure, because the handler for the empty list catches it. |
| FixUrls.RepairLinesReverses | fix_urls.py:112-116 | Output line i rewrites input line `len - 1 - i`: lines are popped from the end. |
| FixUrls.RepairLinesStops | fix_urls.py:114-120 | The loop ends early exactly at a line that is not JSON, lacks `js[1][0]`, or lost the connection. Only the short record ends the file without an error. |
| FixUrls.RepairLinesKeepsCache | fix_urls.py:114-117 | Truthy cache entries survive a whole file. |
| FixUrls.RepairLinesPassThrough | fix_urls.py:109-120 | A file of records without URLs is copied in reverse order, stripped, with the cache unchanged. |
| FixUrls.RepairLinesContract | fix_urls.py:109-120 | The three step properties give the whole file contract: reverse order, faithful rewrites, stopping reasons, completeness, and cache preservation. |
| FixUrls.RepairLinesInTurn | fix_urls.py:112-118 | Output line i is the repair step applied to input line `len - 1 - i` under the cache that repairing the lines after it left. |
| FixUrls.FixJs | fix_urls.py:109-121 | `fix_js` meets that file contract. Each written line is `fix_urls` of its input line under the cache that the later lines of the file left. |
| FixUrls.FixJsPassThrough | fix_urls.py:109-121 | A file without URLs is output reversed and stripped, with no failure and no cache change. |
| FixUrls.MatchesJsonName | fix_urls.py:128 | `re.match(r'[\w]+\.json', name)` holds exactly when the name starts with one or more word characters followed by ".json". |
| FixUrls.SelectFiles | fix_urls.py:125-130 | A name is selected iff it is listed, absent from the output directory and matches the pattern. The selection is a subsequence of the listing, so directory order is kept, and no name is repeated. |
| FixUrls.RunFiles | fix_urls.py:124-134 | Files are repaired in order, through the resolver reading that `cacheHop` selects. A complete run adds every selected name to the output directory. A failure names a selected file, and that file is in the directory exactly in the as-written reading. Truthy cache entries survive. |
| FixUrls.RunFilesOutside | fix_urls.py:124-134 | Output files whose names are outside the selection are neither created nor appended to. |
| FixUrls.RunFilesStops | fix_urls.py:124-134 | An aborted run stopped at the k-th selected file. Every earlier file is recorded, and no later file is recorded or written. In the corrected reading the aborted file's output is not written either. |
| FixUrls.RunFilesOutputAt | fix_urls.py:109-134 | A recorded file's output is its prior contents followed by `fix_js` of the file under the cache that the files before it left. For a file aborted in the as-written reading, that is the lines repaired before the abort. |
| FixUrls.RunFilesOutput | fix_urls.py:109-134 | The same holds for every recorded file at once. |
| FixUrls.FixAllAsWritten | fix_urls.py:124-134 | As written, the repair uses `resolve_redirects` as written. An aborted file is already in the output directory, so a later run does not select it again. |
| FixUrls.FixAll | fix_urls.py:124-134 | With both corrections, names are recorded only on completion and accepted hops are cached. An aborted file is selected again by the next run, and only completed selected files are recorded. |
| FixUrls.AbortedFileSkipped | fix_urls.py:109-134 | For a one-line file that is not JSON, the as-written rerun selects nothing and the corrected rerun selects the file again. |
| SafeRedis.New | tools.py:37-45 | A non-int limit raises ValueError. A negative limit sets infinite mode with limit 0; otherwise the limit is stored. The counter starts at 0. |
| SafeRedis.Call | tools.py:57-93 | A first success returns the value with nothing changed. A success after e retries within the allowance returns None after e sleeps. In finite mode, more failures than the allowance re-raise after one extra sleep. Only finite mode moves the counter, by one per retry, and it never passes the limit. |
| SafeRedis.FailFast | tools.py:65-71 | With `max_attempts == 0` in finite mode, the first ConnectionError is re-raised after one sleep. |
| SafeRedis.RetryDiscardsResult | tools.py:86-91 | A value obtained on the retry is lost: the caller gets None. |
| SafeRedis.CallReturning | tools.py:79-93 | With the retry's result returned, a success within the allowance yields the first successful reply. The outcome differs from the as-written one only by that discard, and the counter ends the same. |
| SafeRedis.Session | tools.py:65-71 | The client stays valid across any sequence of calls: the counter never passes the limit, and stays 0 in infinite mode. |
| SafeRedis.SessionRetriesBounded | tools.py:67-69 | The counter is never reset. The retries of all calls together equal the counter's growth and stay within `max_attempts`. |
| Unicode.UniCheckAsWritten | tools.py:115-143 | As written, accepts exactly: ≤ 128, 8192..8303, 8352..8399, 8448..9215, or ≥ 11263. |
| Unicode.UniCheck | tools.py:115-143 | With the fifth test read as the range 9312..11263, nothing outside ASCII, U+FFFD and 8192..128895 is accepted. That range and the emoji blocks are accepted, and values above 11263 outside those blocks are refused. |
| Unicode.UniCheckReadingsDiffer | tools.py:132 | The two readings differ exactly on 9312..11262 and on values above 11263 outside the listed blocks. |
| Unicode.UniCheckAsWrittenCounterexamples | tools.py:132 | 9312 is refused as written but accepted as intended. 70000 is the other way round. |
| Unicode.EncodeChar | tools.py:112 | A character's UTF-8 encoding has 1 to 4 bytes. It is one byte exactly for ASCII, a multi-byte lead byte is at least 0xC2, and the later bytes are continuation bytes. |
| Unicode.DecodeChar | tools/filter.py:3 | A decoded head character re-encodes to exactly the bytes it consumed. |
| Unicode.Decode | tools/filter.py:3 | `decode('utf-8')`: a decoded string re-encodes to the input bytes. |
| Unicode.DecodeEncode | tools/filter.py:3 | Decoding undoes encoding for every string. |
| CharFilters.UnifilterBytes | tools.py:106-112 | As written, run over the encoded bytes, the filter accepts exactly the ASCII strings. |
| CharFilters.Unifilter | tools.py:106-112 | As intended, the filter accepts iff every character passes `unicheck`. |
| CharFilters.EncodedBytesPassIffAscii | tools.py:112 | Every byte of an encoding passes `unicheck` iff the string is ASCII. |
| CharFilters.UnifilterBytesStricter | tools.py:112 | Whatever the byte-wise filter accepts, the character-wise filter accepts. |
| CharFilters.UnifilterBytesRefusesEmoji | tools.py:112 | U+1F600 lies in a listed block yet is refused byte-wise. |
| CharFilters.FilterUnifilter | tools/filter.py:1-28 | As written, with the file's own `unicheck` and its `val >= 9312 and val >= 11263` test. Unicode text passes iff every character passes that test. Bytes that decode are checked as the decoded characters. Bytes that do not decode are checked byte by byte, which means all bytes ≤ 128. |
| CharFilters.FilterChars | tools/filter.py:1-5 | A unicode string is checked as its own characters, and bytes as their UTF-8 decoding when they decode. |
| CharFilters.FilterUnifilterIntended | tools/filter.py:1-28 | With the range test read as intended, text passes iff `Unifilter` accepts it. Bytes that decode pass iff their decoding does. Bytes that do not decode are checked byte by byte. |
| CharFilters.FilterUnifilterEncoded | tools/filter.py:1-6 | A string and its UTF-8 encoding get the same verdict, in both readings. |
| CharFilters.FilterUnifilterReadings | tools/filter.py:18 | The two readings agree on ASCII text. U+2460 is refused as written and accepted as intended. |
| CharFilters.FilterUnifilterEmpty | tools/filter.py:1-6 | The empty input passes, as bytes and as text. |
| CharFilters.FirstCensored | twitterizer.py:82-85 | The first listed word that occurs in the text. No earlier word occurs, and None means no word occurs. |
| CharFilters.CurseOutLower | twitterizer.py:76-85 | True iff no censored word is a substring of the lower-cased text. |
| CharFilters.CurseOutExact | tools/filter.py:31-36 | True iff no censored word is a substring of the text as given. |
| CharFilters.CurseOutLowerStricter | tools/filter.py:31-36 | Passing the lower-casing filter implies passing the case-sensitive one. |
| CharFilters.CurseOutCaseWitness | tools/filter.py:34 | "DAMN" passes the case-sensitive filter and fails the lower-casing one. |
| Twitterizer.RemoveMentions | twitterizer.py:177 | After deleting `@[\w\d]+` tokens no token remains, the text does not grow, and text without "@" is unchanged. |
| Twitterizer.RemoveMentionsIdempotent | twitterizer.py:177 | Deleting usernames twice is the same as deleting them once. |
| Twitterizer.NoMentionFixed | twitterizer.py:177 | Text without username tokens is left as it is. |
| Twitterizer.RunTest | twitterizer.py:50-181 | Only the username test can raise, when the text is missing. The censor test is false without a text. The character test passes exactly the texts that are ASCII, because the class's `unifilter` runs over the UTF-8 bytes. The hashtag and URL tests are true iff the list is present and non-empty. The username test is true iff the query occurs after removing usernames. |
| Twitterizer.RunAll | twitterizer.py:198 | Every test runs, so any KeyError escapes. The result is true iff every test is true. |
| Twitterizer.RunAllAppend | twitterizer.py:196-198 | Running `a + b` fails iff either part fails, and passes iff both pass. |
| Twitterizer.FilterTweet | twitterizer.py:183-200 | A falsy tweet gives False with the list untouched. Otherwise the verdict is all tests, plus the suite when `suite` is set. A non-empty caller list gains the suite in place. |
| Twitterizer.SuiteRepeatHarmless | twitterizer.py:195-198 | Appending the suite again does not change a verdict. |
| Twitterizer.FilterBatch | twitterizer.py:257-268 | The kept tweets are truthy members of the batch, and there are no more of them than tweets in the batch. |
| Twitterizer.FilterBatchKeeps | twitterizer.py:183-268 | A batch keeps exactly the truthy tweets that pass the first tweet's test list, even while a shared list keeps growing. It fails exactly when some truthy tweet raises. |
| Twitterizer.FilterBatchAccumulates | twitterizer.py:195-197 | With a shared non-empty list, the list grows by four tests per truthy tweet. |
| Twitterizer.IdWindow | twitterizer.py:266-267 | Fails exactly on an empty batch. Otherwise every id lies in `(max_id, since_id]`, `max_id + 1` is an id and `since_id` is an id. |
| Twitterizer.Ids | twitterizer.py:266 | The ids in order, failing iff some tweet lacks one. |
| Twitterizer.Fil | twitterizer.py:259-269 | A missing id fails first, with MissingId. An empty batch fails with EmptyBatch. A missing text under the username test fails with MissingText, exactly when the ids are present and some tweet raises. Otherwise the window is `IdWindow` of the ids and every id lies in it. A tweet is kept iff it is truthy and passes the tests. |
| ToDb.Truncate | to_db.py:63 | `val[:355]`: a prefix of at most 355 characters, equal to `val` when it is short enough. |
| ToDb.PkKeyInjective | to_db.py:63 | Two value keys coincide iff the tables agree and the values agree on their first 355 characters. No value key is a counter key. |
| ToDb.Init | to_db.py:44-47 | Every table gets a counter, and cached pks are untouched. A counter whose `get` answered at once is kept. An absent counter, or one whose `get` needed a retry (and so read as None), is reset to 0. |
| ToDb.InitConsistent | to_db.py:44-47 | A consistent cache stays consistent exactly when no table whose read was retried has a cached pk. |
| ToDb.RetriedInitReusesPk | to_db.py:44-47 | After a retried read resets a counter, the next new value of that table gets pk 1, which a stored value already holds, and the cache is no longer consistent. |
| ToDb.GetOrSetPk | to_db.py:50-72 | A hit returns the cached pk and changes nothing. A miss with `get_only` raises and changes nothing. Otherwise the counter is incremented, with an absent counter counting as 0, and the new value becomes the pk. |
| ToDb.GetOrSetPkPreservesConsistency | to_db.py:70-72 | A new pk exceeds every pk its table had, and pks stay distinct within a table and within the counter. |
| ToDb.GetOrSetPkRepeatable | to_db.py:63-72 | Asking again for the same value returns the same pk with no change, even with `get_only`. |
| ToDb.LongValuesShareKey | to_db.py:63 | Values agreeing on their first 355 characters share a pk. |
| ToDb.FirstPkIsOne | to_db.py:44-72 | A fresh table's first pk is 1. |
| ToDb.NullIfMinusOneAsWritten | to_db.py:88-93 | As written, only the string "-1" becomes NULL. |
| ToDb.NullIfMinusOne | to_db.py:88-93 | As intended, the integer -1 and the string "-1" both become NULL, and everything else is unchanged. |
| ToDb.IntegerMarkerNotNulled | to_db.py:88-93 | The extractor's integer -1 passes through as written and becomes NULL as intended. |
| ToDb.TweetRowFields | to_db.py:88-93 | Each field is NULL exactly when it was the string "-1" or NULL, and in the intended reading also when it was the integer -1. Every other value is kept. |
| ToDb.UserRowFields | to_db.py:432-434 | Followers and following are NULL exactly when they were "-1" or NULL, and in the intended reading also the integer -1. Otherwise they are kept. The ratio is NULL whenever the followers are, and is kept otherwise. |
| ToDb.QuoteUrl | to_db.py:266-269 | The URL is wrapped in double quotes iff it contains a single quote, otherwise in single quotes. Unless it holds both kinds, the chosen quote does not occur inside. |
| FreqSplitter.Best | feature_extraction/freq_splitter.py:20-32 | The empty text gives `(1, [])`. Otherwise the product is non-negative, and a zero product comes with the empty split. |
| FreqSplitter.BestFrom | feature_extraction/freq_splitter.py:23-32 | The loop's result is never below the running best. It is at least every truthy candidate from `i` on, and is either the running best or a candidate that beats every earlier one strictly. |
| FreqSplitter.SplitText | feature_extraction/freq_splitter.py:5-34 | With a sound cache, the result is the uncached answer. The cache stays sound and only grows. A non-empty text is cached with its result, and the empty text is not cached. |
| FreqSplitter.Loop | feature_extraction/freq_splitter.py:23-32 | The cached loop computes the same as the uncached one and keeps the cache sound. |
| FreqSplitter.BestSound | feature_extraction/freq_splitter.py:23-32 | With positive frequencies, a positive result is a split into known words whose product is the result. |
| FreqSplitter.BestOptimal | feature_extraction/freq_splitter.py:23-32 | No split into known words has a larger product. |
| FreqSplitter.NoSplitIffZero | feature_extraction/freq_splitter.py:22-33 | The result is 0 exactly when no split into known words exists. |
| FreqSplitter.ShorterFirstWordScoresLess | feature_extraction/freq_splitter.py:30-32 | Every split whose first word is shorter than the reported one scores strictly less, so ties go to the shortest first word. |
| Splitter.AllSplits | splitter.py:6-11 | Everything `rec` finds concatenates to the remainder, using non-empty list words. |
| Splitter.FromPos | splitter.py:9-11 | The loop from `pos` finds only segmentations whose first piece has length at least `pos`. |
| Splitter.Here | splitter.py:10-11 | One iteration finds only segmentations whose first piece is `remainder[:pos]`. |
| Splitter.SplitString | splitter.py:4-13 | Every returned list concatenates to `s.lower()` and consists of non-empty list words. |
| Splitter.SplitEmpty | feature_extraction/splitter.py:10-11 | The empty string yields `[[]]`. |
| Splitter.AllSplitsComplete | splitter.py:9-11 | Every segmentation of the remainder is found. |
| Splitter.SplitStringComplete | feature_extraction/splitter.py:7-16 | Every segmentation of `s.lower()` into list words is returned. |
| Splitter.AllSplitsOrdered | splitter.py:9-11 | The results are strictly increasing in the order of their piece lengths, shortest first piece first. |
| Splitter.SplitStringNoRepeats | feature_extraction/splitter.py:12-14 | No segmentation is returned twice. |
| Vectorizer.FirstIndex | vectorizer.py:63 | `tup.index(x)`: the first position holding `x`. |
| Vectorizer.ToVector | vectorizer.py:45-66 | Each slot is a first position of some item, or the OOV slot `len(tup) + 1`. Every item's first position is present. The OOV slot is present iff some item is missing from the tuple. There are at most as many slots as items. |
| Vectorizer.ToVectorSize | vectorizer.py:59-66 | At most `len(tup) + 1` slots, and none for an empty list. |
| Vectorizer.Chain | vectorizer.py:83 | An item is in the flattened list iff it is an item of some nested list, or a one-character string of some string element. |
| Vectorizer.ChainAppend | vectorizer.py:83 | Chaining a concatenation concatenates the chains, and one element chains to its items, or a string to its characters. Together these fix the result position by position. |
| Vectorizer.Entries | vectorizer.py:25-26 | The tuple as `tup.index` (line 63) compares its byte strings with a unicode item: an ASCII entry matches its own text, and a non-ASCII byte string matches nothing. |
| Vectorizer.ExtractedToVector | vectorizer.py:69-84 | A missing field fails. A list whose first element is a list is flattened one level, and any other list is encoded directly. A non-ASCII tuple entry never gets its slot set. |
| Vectorizer.AsciiEntryCounted | vectorizer.py:59-66 | An item equal to an ASCII entry of the tuple sets that entry's first position. |
| Vectorizer.NonAsciiItemOutOfVocabulary | vectorizer.py:59-84 | A non-ASCII string item sets the OOV slot `len(tup) + 1`, even when the tuple lists the same text. |
| Vectorizer.NestedItemCounted | vectorizer.py:81-84 | A nested item listed in the tuple as an ASCII entry sets that entry's slot. |
| Vectorizer.VectorMap | vectorizer.py:158-172 | Defined iff an operand is empty or the lengths agree. An empty operand gives the other back, and equal lengths give the element-wise OR. |
| Vectorizer.VectorMapCommutes | vectorizer.py:168-172 | Combining is symmetric. |
| Vectorizer.VectorMapIdempotent | vectorizer.py:168-172 | Combining a vector with itself gives it back. |
| Vectorizer.VectorMapAssociates | vectorizer.py:168-172 | Combining equal-length vectors is associative. |
| ToWeka.Basename | to_weka.py:19 | `path.split(p)[1]`: a suffix of the path without "/", preceded by "/" when it is shorter than the path. |
| ToWeka.BeforeUnderscore | to_weka.py:19 | `split('_')[0]`: the prefix up to the first "_". |
| ToWeka.Chomp | to_weka.py:22-23 | Exactly one trailing newline is removed, if there is one. |
| ToWeka.SetToWekaLines | to_weka.py:17-25 | One declaration line per input line. |
| ToWeka.SetToWekaRead | to_weka.py:17-25 | Split on newlines, line k is `@ATTRIBUTE '<prefix>_<token>' NUMERIC` for the k-th input line without its newline, and there are no other lines. |
| ToWeka.ValueAttributesSplit | to_weka.py:28-32 | The k-th statistic's declaration sits between those of the earlier and later names, in order. |
| ToWeka.ValueAttributesLines | to_weka.py:28-32 | One declaration line per statistic name. |
| ToWeka.ValueAttributesRead | to_weka.py:28-32 | Split on newlines, line k declares `value_<name>` for the k-th name, and there are no other lines. |
| ToWeka.NonvectorToWekaRead | to_weka.py:28-32 | For the 18 names of `VALUES`, line k declares `value_<VALUES[k]>` NUMERIC, in order. |
| ToWeka.NonvectorToWekaLines | to_weka.py:28-32 | The header part has one newline per name of `VALUES`. |
| ToWeka.ProcessSet | to_weka.py:55-62 | `len(ref_set)` two-character fields. Field x is "1," iff x is listed and "0," otherwise. |
| ToWeka.ReadProcessSet | to_weka.py:55-62 | Reading the fields back gives exactly the listed indices below the reference length. |
| ToWeka.ProcessSetFields | to_weka.py:55-62 | One comma per reference index. |
| ToWeka.ProcessSetRead | to_weka.py:55-62 | Split on commas, field x is "1" iff x is listed and "0" otherwise, for every x below the reference length, and the text ends in a comma. |
| ToWeka.MasterVectorFields | to_weka.py:64-73 | The vector part has one field per slot of every kind. |
| ToWeka.MasterVectorRead | to_weka.py:64-73 | Split on commas, the vector part reads back as the 0/1 flags of each kind in turn, an absent kind giving all zeros, and it ends in a comma. |
| ToWeka.ReplaceMinusOne | to_weka.py:81 | `replace('-1', '?')` leaves no "-1" and keeps every comma. |
| ToWeka.ReplaceMinusOneIdempotent | to_weka.py:81 | Replacing twice is the same as replacing once. |
| ToWeka.NoMinusOneFixed | to_weka.py:81 | Text without "-1" is unchanged. |
| ToWeka.ValueFields | to_weka.py:79-80 | The statistics fields end with a comma. |
| ToWeka.ValueFieldsCount | to_weka.py:79-80 | With comma-free renderings, there is one field per statistic, with "?" for a missing one. |
| ToWeka.ValueFieldsRead | to_weka.py:79-80 | With comma-free renderings, splitting the fields on commas reads back each statistic's rendering, or "?" for a missing one, position by position. |
| ToWeka.ProcessMasterValueShape | to_weka.py:75-81 | The statistics part holds no "-1", and with comma-free renderings it has one field per statistic. |
| ToWeka.ReplaceValueFields | to_weka.py:79-81 | Replacing "-1" in the joined fields is the same as replacing it in each rendering separately. |
| ToWeka.ProcessMasterValueRead | to_weka.py:75-81 | With comma-free renderings, split on commas, field k is the k-th statistic's rendering (or "?" when missing) with "-1" replaced by "?". |
| ToWeka.Row | to_weka.py:89-91 | A row always ends the line. Before the newline is the input with a trailing comma dropped, or the whole input when it does not end in a comma. |
| ToWeka.RowFields | to_weka.py:89-91 | A row of a comma-terminated input has one comma fewer than the input. |
| ToWeka.ProcessEntry | to_weka.py:84-91 | There is no row exactly when the value file is absent. |
| ToWeka.ProcessEntryFields | to_weka.py:84-91 | A row ends in a newline and has one comma fewer than its vector slots plus statistics. |
| ToWeka.ProcessEntryRead | to_weka.py:84-91 | With comma-free renderings, the row without its newline, read as comma-separated fields, is the flags of every kind followed by the replaced statistics. |
| ExtractInfo.ParseCreated | extract_info.py:39-55 | `(-1, -1)` exactly when parsing failed. Otherwise the weekday, and an hour bucket in 0..24. |
| ExtractInfo.ParseCreatedNearestHour | extract_info.py:48-50 | The bucket is the nearest hour with half past rounding down. Only 23:31 to 23:59 give 24. |
| ExtractInfo.IsWeekdayAsWrittenInverted | extract_info.py:89-94 | As written, Saturday and Sunday get 1 and Monday gets 0. |
| ExtractInfo.IsWeekdayAsWritten | extract_info.py:89-94 | As written, the flag is -1 exactly for the missing day. On a real day it is 1 exactly on Saturday and Sunday, and 0 Monday to Friday. |
| ExtractInfo.IsWeekday | extract_info.py:89-94 | The flag is -1 exactly for the missing day. On a real day it is 1 exactly Monday to Friday. |
| ExtractInfo.IsWeekdayMeansMondayToFriday | extract_info.py:89-94 | The corrected flag is 1 exactly Monday to Friday, the complement of the as-written flag. |
| ExtractInfo.Fallback | extract_info.py:82 | The first present key among expanded_url, display_url and url, else "". |
| ExtractInfo.ResolveUrls | extract_info.py:76-82 | One URL per entity, the fetched one or the fallback. An uncaught TypeError escapes exactly where the handler lacks it. |
| ExtractInfo.Domains | extract_info.py:83-88 | Same length as the URLs, and entry i is the domain of URL i. |
| ExtractInfo.ExtractTweetAsWritten | extract_info.py:57-95 | As written, any hashtag makes the tweet fail with the `split_text` arity error. Without hashtags, the tweet fails exactly when "urls" is missing. The weekday flag is the as-written one. |
| ExtractInfo.HashtagTweetFails | extract_info.py:75 | A tweet with one hashtag fails. |
| ExtractInfo.SplitHashtags | extract_info.py:75 | One split per hashtag: the best split from an empty cache. |
| ExtractInfo.ExtractTweet | extract_info.py:57-95 | Fails exactly when the "urls" key is missing. The split hashtags align with the hashtags and are the best splits. The weekday flag is the corrected one. |
| ExtractInfo.TweetBody | extract_info.py:76-94 | The URLs are recorded with fallback and the domains are aligned. The day and hour come from `parse_created`. The weekday flag is the as-written or the corrected one, as selected. |
| ExtractInfo.Following | extract_info.py:106-108 | A JSON null stays None. Otherwise never 0: a missing or zero count becomes 1, and any other count is kept. |
| ExtractInfo.ExtractUser | extract_info.py:97-125 | Fails with TypeError exactly when a count is JSON null or a fetch raises TypeError. Otherwise `following` is the non-zero count or 1, followers default to 0, the offset defaults to -1 and a null offset gives None, and URLs and domains are aligned. |
| ExtractInfo.NullOffsetIsNotMissing | extract_info.py:124 | A null `utc_offset` does not make the user fail and is recorded as None, while an absent one is recorded as -1. |
| ExtractInfo.Template | extract_info.py:171-174 | A trailing ".json" is removed, and any other name is kept. |
| ExtractInfo.CountersClosedForm | extract_info.py:169-180 | After n records, the counter is n and the file number is `1 + n div 5000`. |
| ExtractInfo.FileOfRange | extract_info.py:175-182 | The n-th record goes to file k iff `5000(k-1) <= n < 5000k`. |
| ExtractInfo.OutputNameInjective | extract_info.py:181 | Different file numbers give different file names. |
| ExtractInfo.SameOutputFile | extract_info.py:169-182 | Records m and n are appended to the same file iff `m div 5000 == n div 5000`. |
| GetBaseline.AsSet | get_baseline.py:18 | `set(hashtags)` holds exactly the listed tags. |
| GetBaseline.GetHashtags | get_baseline.py:10-19 | Fails iff some file lacks the list. Otherwise exactly the sets of the lists longer than 2, none of them empty. |
| GetBaseline.Absorb | get_baseline.py:25-27 | Only `tag_set` changes, and it only grows. It absorbs each `other_set` it is a subset of at that moment, and ends as itself or as a superset taken from a later set. |
| GetBaseline.SelfComparisonNoOp | get_baseline.py:25-27 | Comparing a set with itself changes nothing. |
| GetBaseline.Outer | get_baseline.py:24-28 | Every object only grows, and `tag_sets` gets exactly one index per input set, in order. |
| GetBaseline.GetCoocurrences | get_baseline.py:22-30 | `tag_sets` aliases every input set once, in order, and each merged set contains its input. |
| GetBaseline.KeepAbsentOfSelf | get_baseline.py:29 | Filtering a list by absence from itself keeps nothing. |
| GetBaseline.CoocurrencesAlwaysEmpty | get_baseline.py:29-30 | `get_coocurrences` always returns []. |
| GetBaseline.Distinct | get_baseline.py:29 | Keeps each unseen content once, with no repeats, covering every unseen content and nothing else. |
| GetBaseline.GetCoocurrencesDistinct | get_baseline.py:22-30 | As intended, every merged set appears exactly once and nothing else appears. |
| Text.ContainsIsOccurs | twitterizer.py:83 | The substring scan finds `sub` exactly when it occurs in `s`. |
| Text.Lower | twitterizer.py:83 | `s.lower()` keeps the length and lower-cases each ASCII letter. |
| Text.NatToStringInjective | extract_info.py:181 | `str` of a natural number is injective. |
| Text.RStrip | fix_urls.py:97 | `rstrip()` returns a prefix without trailing whitespace, followed only by whitespace. |

## Findings

| source | as written | input that shows it | evidently intended | confidence | as-written member | corrected member |
|---|---|---|---|---|---|---|
| fix_urls.py:57-59 | An accepted redirect hop is returned without `CONN.set`. | A redirect whose first hop is a 200 on an "http" URL: the next call requests again. | Cache the accepted hop under `url`, as every other non-fatal path does. | medium, not executed | Resolver.ResolveRedirects, ResolverProperties.AcceptedHopNotCached | Resolver.ResolveRedirectsCaching |
| tools.py:65-69 | The retry's result is discarded (`self.get(name)` without `return`). | A ConnectionError then a reply `v`: the caller gets None. | Return the retried call's result. | high, not executed | SafeRedis.Call, SafeRedis.RetryDiscardsResult, ToDb.RetriedInitReusesPk | SafeRedis.CallReturning, ToDb.InitConsistent |
| tools.py:132 | `val >= 9312 and val >= 11263` | 9312 is refused and 70000 accepted. | The range `9312 <= val <= 11263`. | high, not executed | Unicode.UniCheckAsWritten, Unicode.UniCheckAsWrittenCounterexamples | Unicode.UniCheck |
| tools.py:112 | `unicheck` runs over the UTF-8 bytes, so every non-ASCII character fails. | "😀" (U+1F600), in a listed block, is refused. | Run `unicheck` over the characters. | high, not executed | CharFilters.UnifilterBytes, CharFilters.UnifilterBytesRefusesEmoji | CharFilters.Unifilter |
| tools/filter.py:18 | The same `val >= 9312 and val >= 11263` test in the file's own `unicheck`. | "①" (U+2460, CIRCLED DIGIT ONE) is refused. | The range `9312 <= val <= 11263`. | high, not executed | CharFilters.FilterUnifilter, CharFilters.FilterUnifilterReadings | CharFilters.FilterUnifilterIntended |
| fix_urls.py:113 | The output file is opened for appending before the first line, so an aborted file already exists in OUT_DIR. | A file whose one line is not JSON: the rerun skips it. | Record the file only once it is complete. | medium, not executed | FixUrls.FixAllAsWritten, FixUrls.AbortedFileSkipped | FixUrls.FixAll |
| to_db.py:88-93 | Compares with the string "-1". | The extractor's integer -1 is passed on unchanged. | Map the integer -1 to NULL as well. | medium, not executed | ToDb.NullIfMinusOneAsWritten, ToDb.IntegerMarkerNotNulled | ToDb.NullIfMinusOne |
| extract_info.py:89-94 | `day > 4` gives 1. | Saturday (5) is flagged a weekday and Monday (0) is not. | 1 for Monday to Friday. | high, not executed | ExtractInfo.IsWeekdayAsWritten, ExtractInfo.IsWeekdayAsWrittenInverted | ExtractInfo.IsWeekday |
| extract_info.py:75 | `split_text(hashtag)` passes one of three arguments. | Any tweet with a hashtag raises TypeError. | Pass the frequency table and a fresh cache. | high, not executed | ExtractInfo.ExtractTweetAsWritten, ExtractInfo.HashtagTweetFails | ExtractInfo.ExtractTweet |
| get_baseline.py:29 | Keeps the sets of `tag_sets` that are not in `tag_sets`. | Any input returns []. | Keep each distinct merged set once. | medium, not executed | GetBaseline.GetCoocurrences, GetBaseline.CoocurrencesAlwaysEmpty | GetBaseline.GetCoocurrencesDistinct |

## Left out

- Network I/O is a scripted trace or a function parameter. This covers `session.head`, `resolve_redirects`, the router probe, `requests.get` in extract_info.py, and the Twitter API calls. The library's redirect limit is a parameter.
- Redis and MySQL become maps. SQL statements are not built or executed. `sleep` and the verbose prints are left out, and sleeps are only counted.
- File, gzip and directory I/O, and JSON encoding and decoding, are replaced by already-decoded records and file contents. This applies to `eld`, `fix_js` reading and writing, `write_parse` appends, `process_master_vector`'s reads (the reference set lengths are the `refLen` parameter), and `get_hashtags`' reads.
- The word lists and frequency tables are parameters. feature_extraction/freq_splitter.py line 3 passes a string to `json.load`, and feature_extraction/splitter.py line 4 calls `open` with a directory and a file name as mode, so neither module imports as written.
- `dateutil` parsing is replaced by its result (`Option<DateTime>`). The nltk tokenising of words, and the `mentions`/`user` fields of `extract_tweet`, are not modelled.
- `follow_ratio` and the numpy statistics are floating point and are left out. The ratio is opaque in `ToDb.UserRowFields`.
- vectorizer.py's file helpers (`file_to_tuple`, `get_tuple_dicts`, `group_by_tags`, `group_non_vectors`, `write_wrapper`) and to_weka.py's `gen_weka_header`, `process_all` and `combine_header_data` are file I/O.
- `fix_urls` on a record whose JSON is not the `[id, [tweet, user]]` shape is modelled only as the IndexError of `js[1][0]`. Other malformed shapes are not.
- Vectorizer.ExtractedToVector: a record value has no JSON null. The `domains` lists hold None for a URL without a domain (extract_info.py:88 and 123), and `to_vector` sends such an item to the OOV slot, because `tup.index(None)` raises ValueError. A None inside a flattened nested list, where `chain` raises TypeError, is not modelled either.
- ToDb.Init: `retried` holds the tables whose `get` recovered after a retry. A `get` that exhausts its retries raises from `__init__`, which is not modelled.
- Vectorizer.ToVector: returns the set of slots, not `list(vector_list)` in the set's iteration order, which Python does not specify.
- Twitterizer.FilterBatchKeeps: states which tweets are kept by membership. The order of the kept tweets and the count of a repeated tweet are not stated.
- FreqSplitter.Best: soundness, optimality and the zero case (`BestSound`, `BestOptimal`, `NoSplitIffZero`) are stated only for tables whose counts are all positive, as corpus word counts are.
- Unicode.DecodeChar: states that a decoded character re-encodes to its bytes, and `DecodeEncode` that every valid encoding decodes. It does not state which invalid byte sequences are refused.
- SafeRedis.Call: in infinite mode each retry is a nested call, so Python's recursion limit (about 1000 frames) ends an outage of about 1000 failed attempts with RuntimeError. The model retries for as long as the scripted outage lasts and never raises in infinite mode.
- ResolverProperties.TruthyEntriesPermanent: the cache is a map read directly. A `get` that needs a retry returns None through `SafeRedis.Call`, which the resolver reads as a miss, so this holds only for reads that succeed at once.
- ResolverProperties.CachingResolveIdempotent: holds only when the second call's `get` succeeds at once, for the same reason.
- ResolverProperties.ResolveIdempotentOnceCached: holds only when the second call's `get` succeeds at once, for the same reason.
- ToDb.GetOrSetPkRepeatable: holds only when the second call's `get` succeeds at once, for the same reason.
- Text.Lower: folds ASCII letters only. Python 2's `unicode.lower` also folds letters such as 'É' and U+212A KELVIN SIGN.
- CharFilters.CurseOutLower: inherits the ASCII-only folding of `Text.Lower`.
- Splitter.SplitString: inherits the ASCII-only folding of `Text.Lower`.
- Resolver.ResolveRedirects: the opening print formats the URL into a byte string with `str.format`, which raises UnicodeEncodeError on a non-ASCII unicode URL (fix_urls.py:34). The model accepts any URL.
- ToDb.GetOrSetPk: the same UnicodeEncodeError from `str.format` on a non-ASCII value (to_db.py:63) is not modelled.
- Unicode.Decode: Python 2.7 also decodes encoded surrogates such as ED A0 80. A Dafny `char` cannot hold a surrogate, so these are refused here.
- parsed.py, tools/parsed_tweet.py, save.py, clean.py and the other scripts are outside this model.

=== FILE: char_filters.dfy ===
/** The text filters applied to tweets: `unifilter` in its two forms (over
    the UTF-8 bytes in tools.py and twitterizer.py, over decoded characters
    in tools/filter.py) and `curse_out` in its two forms (on the lower-cased
    text in twitterizer.py, on the text as given in tools/filter.py). */
module CharFilters {
  import opened Text
  import opened Wrappers
  import opened Unicode

  // ---------------------------------------------------------------------
  // unifilter

  /** Every byte passes `unicheck`. */
  predicate AllBytesPass(bs: seq<Byte>) {
    forall i :: 0 <= i < |bs| ==> UniCheckAsWritten(bs[i])
  }

  /** Every character passes `unicheck`. */
  predicate AllCharsPass(s: string) {
    forall i :: 0 <= i < |s| ==> UniCheck(s[i] as int)
  }

  /** Every character passes `unicheck` as written. */
  predicate AllCharsPassAsWritten(s: string) {
    forall i :: 0 <= i < |s| ==> UniCheckAsWritten(s[i] as int)
  }

  predicate IsAscii(s: string) {
    forall i :: 0 <= i < |s| ==> (s[i] as int) < 0x80
  }

  /** `unifilter` of tools.py and twitterizer.py as written: `unicheck` over
      `s.encode('utf8')`, which yields bytes, so only values up to 255 are
      ever tested and the Unicode ranges never apply. */
  function UnifilterBytes(s: string): (ok: bool)
    ensures ok <==> IsAscii(s)
  {
    EncodedBytesPassIffAscii(s);
    AllBytesPass(Encode(s))
  }

  /** `unifilter` evidently intended: `unicheck` over the characters. */
  function Unifilter(s: string): (ok: bool)
    ensures ok <==> forall i :: 0 <= i < |s| ==> UniCheck(s[i] as int)
  {
    AllCharsPass(s)
  }

  lemma AllBytesPassAppend(a: seq<Byte>, b: seq<Byte>)
    ensures AllBytesPass(a + b) <==> AllBytesPass(a) && AllBytesPass(b)
  {
    if AllBytesPass(a) && AllBytesPass(b) {
      forall i | 0 <= i < |a + b| ensures UniCheckAsWritten((a + b)[i]) {
        if i >= |a| { assert (a + b)[i] == b[i - |a|]; }
      }
    }
    if AllBytesPass(a + b) {
      forall i | 0 <= i < |a| ensures UniCheckAsWritten(a[i]) {
        assert (a + b)[i] == a[i];
      }
      forall i | 0 <= i < |b| ensures UniCheckAsWritten(b[i]) {
        assert (a + b)[|a| + i] == b[i];
      }
    }
  }

  /** Byte-wise, `unicheck` passes a string's encoding exactly when the
      string is ASCII: the lead byte of every other character is at least 0xC2. */
  lemma {:induction false} EncodedBytesPassIffAscii(s: string)
    ensures AllBytesPass(Encode(s)) <==> IsAscii(s)
  {
    if |s| > 0 {
      EncodedBytesPassIffAscii(s[1..]);
      AllBytesPassAppend(EncodeChar(s[0]), Encode(s[1..]));
      assert IsAscii(s) <==> (s[0] as int) < 0x80 && IsAscii(s[1..]) by {
        if (s[0] as int) < 0x80 && IsAscii(s[1..]) {
          forall i | 0 <= i < |s| ensures (s[i] as int) < 0x80 {
            if i > 0 { assert s[i] == s[1..][i - 1]; }
          }
        }
      }
      assert AllBytesPass(EncodeChar(s[0])) <==> (s[0] as int) < 0x80 by {
        if (s[0] as int) >= 0x80 {
          assert !UniCheckAsWritten(EncodeChar(s[0])[0]);
        }
      }
    }
  }

  /** The byte-wise filter is stricter than the intended one: it refuses
      every non-ASCII character, including those the ranges admit. */
  lemma UnifilterBytesStricter(s: string)
    ensures UnifilterBytes(s) ==> Unifilter(s)
  {
  }

  /** Concrete witness: GRINNING FACE (U+1F600, 128512) lies in a listed emoji
      block, yet its encoding F0 9F 98 80 is refused. */
  lemma UnifilterBytesRefusesEmoji()
    ensures !UnifilterBytes("\U{1F600}") && Unifilter("\U{1F600}")
  {
    assert !IsAscii("\U{1F600}");
  }

  /** What tools/filter.py's `unifilter` is given: a byte string, or a
      unicode string. */
  datatype Input = Bytes(bytes: seq<Byte>) | Text(text: string)

  /** What tools/filter.py's `unifilter` checks character by character:
      `s.decode('utf-8')`, and on an error the error's `args[1]`, the input
      itself. Bytes that decode give their characters; bytes that do not are
      checked one by one (None here). A unicode input decodes to itself when
      ASCII and is otherwise returned through the UnicodeEncodeError, so it is
      always its own characters. */
  function FilterChars(x: Input): (r: Option<string>)
    ensures x.Text? ==> r == Some(x.text)
    ensures x.Bytes? ==> r == Decode(x.bytes)
  {
    match x
    case Text(t) => Some(t)
    case Bytes(bs) => Decode(bs)
  }

  /** tools/filter.py `unifilter` as written, with that file's own `unicheck`,
      which carries the same `val >= 9312 and val >= 11263` test as tools.py. */
  function FilterUnifilter(x: Input): (ok: bool)
    ensures x.Text? ==> (ok <==> AllCharsPassAsWritten(x.text))
    ensures x.Bytes? && Decode(x.bytes).Some? ==>
              (ok <==> AllCharsPassAsWritten(Decode(x.bytes).value))
    ensures x.Bytes? && Decode(x.bytes).None? ==> (ok <==> forall i :: 0 <= i < |x.bytes| ==> x.bytes[i] <= 128)
  {
    match FilterChars(x)
    case Some(t) => AllCharsPassAsWritten(t)
    case None => AllBytesPass(x.bytes)
  }

  /** tools/filter.py `unifilter` with the range test read as intended. */
  function FilterUnifilterIntended(x: Input): (ok: bool)
    ensures x.Text? ==> (ok <==> Unifilter(x.text))
    ensures x.Bytes? && Decode(x.bytes).Some? ==> (ok <==> Unifilter(Decode(x.bytes).value))
    ensures x.Bytes? && Decode(x.bytes).None? ==> (ok <==> forall i :: 0 <= i < |x.bytes| ==> x.bytes[i] <= 128)
  {
    match FilterChars(x)
    case Some(t) => AllCharsPass(t)
    case None => AllBytesPass(x.bytes)
  }

  /** A string and its UTF-8 encoding are judged alike, in both readings. */
  lemma FilterUnifilterEncoded(s: string)
    ensures FilterUnifilter(Bytes(Encode(s))) == FilterUnifilter(Text(s))
    ensures FilterUnifilterIntended(Bytes(Encode(s))) == FilterUnifilterIntended(Text(s))
  {
    DecodeEncode(s);
  }

  /** The two readings agree on ASCII text. CIRCLED DIGIT ONE (U+2460, 9312)
      is refused as written and accepted as intended. */
  lemma FilterUnifilterReadings(s: string)
    ensures IsAscii(s) ==> FilterUnifilter(Text(s)) && FilterUnifilterIntended(Text(s))
    ensures !FilterUnifilter(Text("\U{2460}")) && FilterUnifilterIntended(Text("\U{2460}"))
  {
    assert !UniCheckAsWritten("\U{2460}"[0] as int);
  }

  lemma FilterUnifilterEmpty()
    ensures FilterUnifilter(Bytes([])) && FilterUnifilter(Text(""))
  {
  }

  // ---------------------------------------------------------------------
  // curse_out

  /** The censored words, in the order both sources list them. */
  const Censored: seq<string> := ["nigga", "nigger", "shit", "damn", "fuck", "cock", "twat", "slut", "pussy"]

  predicate IsLowerWord(w: string) {
    forall i :: 0 <= i < |w| ==> 'a' <= w[i] <= 'z'
  }

  /** The first word of `words` that occurs in `s`, scanning in order, as the
      `for` loop with its early `return False` does. */
  function FirstCensored(words: seq<string>, s: string): (r: Option<nat>)
    ensures r.Some? ==> r.value < |words| && Occurs(words[r.value], s)
                        && forall j :: 0 <= j < r.value ==> !Occurs(words[j], s)
    ensures r.None? ==> forall j :: 0 <= j < |words| ==> !Occurs(words[j], s)
  {
    if |words| == 0 then None
    else
      ContainsIsOccurs(s, words[0]);
      if Contains(s, words[0]) then Some(0)
      else
        match FirstCensored(words[1..], s)
        case None => None
        case Some(k) => Some(k + 1)
  }

  /** twitterizer.py `curse_out`: refuses text whose lower-cased form
      contains a censored word. */
  function CurseOutLower(s: string): (ok: bool)
    ensures ok <==> forall j :: 0 <= j < |Censored| ==> !Occurs(Censored[j], Lower(s))
  {
    FirstCensored(Censored, Lower(s)).None?
  }

  /** tools/filter.py `curse_out`: the same test on the text as given. */
  function CurseOutExact(s: string): (ok: bool)
    ensures ok <==> forall j :: 0 <= j < |Censored| ==> !Occurs(Censored[j], s)
  {
    FirstCensored(Censored, s).None?
  }

  /** An occurrence of a lower-case word survives lower-casing. */
  lemma OccursLower(w: string, s: string)
    requires IsLowerWord(w)
    ensures Occurs(w, s) ==> Occurs(w, Lower(s))
  {
    if Occurs(w, s) {
      var i :| 0 <= i <= |s| - |w| && OccursAt(w, s, i);
      var l := Lower(s);
      forall k | 0 <= k < |w| ensures l[i..i + |w|][k] == w[k] {
        assert s[i..i + |w|][k] == s[i + k];
      }
      assert l[i..i + |w|] == w;
      assert OccursAt(w, l, i);
    }
  }

  lemma CensoredAreLower()
    ensures forall j :: 0 <= j < |Censored| ==> IsLowerWord(Censored[j])
  {
  }

  /** Since every censored word is lower-case, the lower-casing filter is
      the stricter one. */
  lemma CurseOutLowerStricter(s: string)
    ensures CurseOutLower(s) ==> CurseOutExact(s)
  {
    CensoredAreLower();
    forall j | 0 <= j < |Censored| ensures Occurs(Censored[j], s) ==> Occurs(Censored[j], Lower(s)) {
      OccursLower(Censored[j], s);
    }
  }

  /** Concrete witness that tools/filter.py is case-sensitive: "DAMN" passes
      it and fails twitterizer.py's. */
  lemma CurseOutCaseWitness()
    ensures CurseOutExact("DAMN") && !CurseOutLower("DAMN")
  {
    CensoredAreLower();
    forall j | 0 <= j < |Censored| ensures !Occurs(Censored[j], "DAMN") {
      NoLowerNoOccurrence(Censored[j], "DAMN");
    }
    assert Lower("DAMN") == "damn" by {
      var l := Lower("DAMN");
      assert l[0] == 'd' && l[1] == 'a' && l[2] == 'm' && l[3] == 'n';
    }
    assert OccursAt(Censored[3], Lower("DAMN"), 0);
  }

  /** A non-empty lower-case word never occurs in text without lower-case letters. */
  lemma NoLowerNoOccurrence(w: string, s: string)
    requires IsLowerWord(w) && |w| > 0
    requires forall i :: 0 <= i < |s| ==> !('a' <= s[i] <= 'z')
    ensures !Occurs(w, s)
  {
    forall i | 0 <= i <= |s| - |w| ensures !OccursAt(w, s, i) {
      assert s[i..i + |w|][0] == s[i] != w[0];
    }
  }
}

=== FILE: domain_pattern.dfy ===
/** The domain pattern `https?://([\w\d\.\-]+\.\w{2,3})` applied with
    `re.match` (anchored at the start only), as used by fix_urls.py and
    extract_info.py to pull a registrable domain out of a URL. */
module DomainPattern {
  import opened Wrappers
  import opened Text

  /** The bracketed class `[\w\d\.\-]`. */
  predicate IsHostChar(c: char) {
    IsWordChar(c) || c == '.' || c == '-'
  }

  predicate AllHostChars(h: string) {
    forall i :: 0 <= i < |h| ==> IsHostChar(h[i])
  }

  /** `h` ends in `.` and two word characters, with at least one character before the dot. */
  predicate EndsDotTwo(h: string) {
    |h| >= 4 && h[|h| - 3] == '.' && IsWordChar(h[|h| - 2]) && IsWordChar(h[|h| - 1])
  }

  /** `h` ends in `.` and three word characters, with at least one character before the dot. */
  predicate EndsDotThree(h: string) {
    |h| >= 5 && h[|h| - 4] == '.' && IsWordChar(h[|h| - 3]) && IsWordChar(h[|h| - 2])
    && IsWordChar(h[|h| - 1])
  }

  /** A string the capture group can match in full. */
  predicate ValidHost(h: string) {
    AllHostChars(h) && (EndsDotTwo(h) || EndsDotThree(h))
  }

  /** What is left after the `https?://` prefix, if the URL has one. */
  function AfterScheme(url: string): (r: Option<string>)
    ensures r.Some? <==> ("http://" <= url || "https://" <= url)
    ensures r.Some? ==> ("http://" + r.value == url || "https://" + r.value == url)
  {
    if "https://" <= url then Some(url[8..])
    else if "http://" <= url then Some(url[7..])
    else None
  }

  /** Length of the longest prefix over the host class: how far the greedy
      `[\w\d\.\-]+` reaches before it starts backtracking. */
  function HostRun(s: string): (n: nat)
    ensures n <= |s|
    ensures AllHostChars(s[..n])
    ensures n < |s| ==> !IsHostChar(s[n])
  {
    if |s| == 0 || !IsHostChar(s[0]) then 0
    else
      var n := 1 + HostRun(s[1..]);
      assert s[..n] == [s[0]] + s[1..][..n - 1];
      n
  }

  /** The dot sits at index `k` and `n` word characters follow it. */
  predicate DotThenWord(s: string, k: nat, n: nat) {
    k + 1 + n <= |s| && s[k] == '.' && forall i :: k + 1 <= i < k + 1 + n ==> IsWordChar(s[i])
  }

  /** A valid prefix of length `m` whose `[\w\d\.\-]+` part is at most `k` long. */
  predicate HostPrefixWithin(s: string, m: nat, k: nat) {
    m <= |s| && AllHostChars(s[..m])
    && ((EndsDotTwo(s[..m]) && m - 3 <= k) || (EndsDotThree(s[..m]) && m - 4 <= k))
  }

  /** The regex engine's backtracking: the greedy class part gives back one
      character at a time (length `k`, from the run length downwards), and for
      each `k` tries `\.\w{3}` before `\.\w{2}`. The first success is returned;
      it is the longest valid prefix among those whose class part is at most `k`. */
  function Backtrack(s: string, k: nat): (r: Option<string>)
    requires 1 <= k <= |s|
    requires AllHostChars(s[..k])
    ensures r.Some? ==> r.value <= s && ValidHost(r.value)
    ensures r.Some? ==> forall m: nat :: |r.value| < m <= |s| ==> !HostPrefixWithin(s, m, k)
    ensures r.None? ==> forall m: nat :: m <= |s| ==> !HostPrefixWithin(s, m, k)
    decreases k
  {
    if DotThenWord(s, k, 3) then
      assert s[..k + 4][..k] == s[..k];
      Some(s[..k + 4])
    else if DotThenWord(s, k, 2) then
      assert s[..k + 3][..k] == s[..k];
      assert forall m: nat :: k + 3 < m <= |s| ==> !HostPrefixWithin(s, m, k) by {
        forall m: nat | k + 3 < m <= |s| && HostPrefixWithin(s, m, k)
          ensures false
        {
        }
      }
      Some(s[..k + 3])
    else if k == 1 then
      forall m: nat | m <= |s| && HostPrefixWithin(s, m, k)
        ensures false
      {
        FirstDotPrefix(s, m, k);
      }
      None
    else
      assert s[..k - 1] == s[..k][..k - 1];
      var r := Backtrack(s, k - 1);
      forall m: nat | m <= |s| && HostPrefixWithin(s, m, k)
        ensures HostPrefixWithin(s, m, k - 1)
      {
        FirstDotPrefix(s, m, k);
      }
      r
  }

  /** A valid prefix whose class part is exactly `k` long is one of the two
      candidates the engine tries at `k`. */
  lemma FirstDotPrefix(s: string, m: nat, k: nat)
    requires HostPrefixWithin(s, m, k)
    requires !DotThenWord(s, k, 3) && !DotThenWord(s, k, 2)
    ensures k >= 1 && HostPrefixWithin(s, m, k - 1)
  {
    EndingAt(s, m, k);
  }

  /** A valid prefix whose class part ends exactly at `k` puts a dot at `k`
      followed by its two or three word characters. */
  lemma EndingAt(s: string, m: nat, k: nat)
    requires m <= |s|
    ensures EndsDotTwo(s[..m]) && m - 3 == k ==> DotThenWord(s, k, 2)
    ensures EndsDotThree(s[..m]) && m - 4 == k ==> DotThenWord(s, k, 3)
  {
    var h := s[..m];
    if EndsDotTwo(h) && m - 3 == k {
      assert h[k] == s[k] && h[k + 1] == s[k + 1] && h[k + 2] == s[k + 2];
    }
    if EndsDotThree(h) && m - 4 == k {
      assert h[k] == s[k] && h[k + 1] == s[k + 1] && h[k + 2] == s[k + 2] && h[k + 3] == s[k + 3];
    }
  }

  /** `re.match(DOMAIN_PAT, url)` followed by `m.group(1)`: the captured host,
      or `None` when there is no match. The capture is the longest prefix of
      the text after the scheme that is a valid host. */
  function MatchDomain(url: string): (d: Option<string>)
    ensures d.Some? ==> exists rest :: AfterScheme(url) == Some(rest) && d.value <= rest
    ensures d.Some? ==> ValidHost(d.value)
    ensures d.Some? ==> forall m: nat :: |d.value| < m <= |AfterScheme(url).value| ==>
                          !ValidHost(AfterScheme(url).value[..m])
    ensures d.None? && AfterScheme(url).Some? ==>
              forall m: nat :: m <= |AfterScheme(url).value| ==> !ValidHost(AfterScheme(url).value[..m])
  {
    match AfterScheme(url)
    case None => None
    case Some(rest) =>
      var n := HostRun(rest);
      if n == 0 then
        NoHostWithoutRun(rest);
        None
      else
        var r := Backtrack(rest, n);
        ValidPrefixWithinRun(rest, n);
        r
  }

  /** Every valid prefix lies inside the host run, so its class part is
      shorter than the run. */
  lemma ValidPrefixWithinRun(s: string, n: nat)
    requires n == HostRun(s)
    ensures forall m: nat :: m <= |s| && ValidHost(s[..m]) ==> HostPrefixWithin(s, m, n)
  {
    forall m: nat | m <= |s| && ValidHost(s[..m])
      ensures HostPrefixWithin(s, m, n)
    {
      PrefixChar(s, m, n);
    }
  }

  lemma PrefixChar(s: string, m: nat, i: nat)
    ensures i < m <= |s| ==> s[..m][i] == s[i]
  {
  }

  lemma NoHostWithoutRun(s: string)
    requires HostRun(s) == 0
    ensures forall m: nat :: m <= |s| ==> !ValidHost(s[..m])
  {
    forall m: nat | m <= |s| && ValidHost(s[..m])
      ensures false
    {
    }
  }
}

=== FILE: extract_info.dfy ===
/** The record extraction of extract_info.py after its library calls: the
    time bucketing of `parse_created`, the weekday flag, the URL fallback
    chain and domain alignment of `extract_tweet` / `extract_user`, and the
    output-file numbering of `write_parse`. Date parsing, URL fetching and
    tokenising are parameters or left out. */
module ExtractInfo {
  import opened Wrappers
  import opened Text
  import DomainPattern
  import FreqSplitter

  // ---------------------------------------------------------------- time

  /** `datetime.weekday()`: Monday is 0, Sunday is 6. */
  type Weekday = d: int | 0 <= d <= 6
  type Hour = h: int | 0 <= h <= 23
  type Minute = m: int | 0 <= m <= 59

  datatype DateTime = DateTime(weekday: Weekday, hour: Hour, minute: Minute)

  /** `parse_created` given what `dateutil.parser.parse` produced (None when
      it raised): the weekday and the hour rounded to the nearest hour, or
      `(-1, -1)`. */
  function ParseCreated(parsed: Option<DateTime>): (r: (int, int))
    ensures parsed.None? <==> r == (-1, -1)
    ensures parsed.Some? ==> r.0 == parsed.value.weekday && 0 <= r.1 <= 24
  {
    match parsed
    case None => (-1, -1)
    case Some(t) => (t.weekday as int, if t.minute > 30 then t.hour as int + 1 else t.hour as int)
  }

  /** The hour bucket is the nearest hour, with half past rounding down, so
      only 23:31 to 23:59 land in bucket 24. */
  lemma ParseCreatedNearestHour(t: DateTime)
    ensures var h := ParseCreated(Some(t)).1;
      -30 <= 60 * h - (60 * t.hour + t.minute) < 30
    ensures ParseCreated(Some(t)).1 == 24 <==> t.hour == 23 && t.minute > 30
  {
  }

  /** The weekday flag as written: 1 for days after Friday, so on a real day
      of the week it is set exactly on Saturday and Sunday; a date that did
      not parse keeps the initial -1. */
  function IsWeekdayAsWritten(day: int): (r: int)
    ensures day == -1 <==> r == -1
    ensures 0 <= day <= 6 ==> (r == 1 <==> day == 5 || day == 6) && (r == 0 <==> day <= 4)
  {
    if day == -1 then -1 else if day > 4 then 1 else 0
  }

  /** As written, the flag is set on Saturday and Sunday and clear on
      Monday. */
  lemma IsWeekdayAsWrittenInverted()
    ensures IsWeekdayAsWritten(5) == 1 && IsWeekdayAsWritten(6) == 1
    ensures IsWeekdayAsWritten(0) == 0
  {
  }

  /** The weekday flag as its name means it: 1 for Monday to Friday. */
  function IsWeekday(day: int): (r: int)
    ensures day == -1 <==> r == -1
    ensures 0 <= day <= 6 ==> (r == 1 <==> day <= 4) && (r == 0 <==> day == 5 || day == 6)
  {
    if day == -1 then -1 else if day <= 4 then 1 else 0
  }

  /** On a real weekday the corrected flag is set exactly Monday to Friday,
      and it is the complement of the flag as written. */
  lemma IsWeekdayMeansMondayToFriday(day: Weekday)
    ensures IsWeekday(day) == 1 <==> day <= 4
    ensures IsWeekday(day) == 1 - IsWeekdayAsWritten(day)
  {
  }

  // ---------------------------------------------------------------- urls

  /** A URL entity of the tweet JSON, as a string-valued map. */
  type UrlEntity = map<string, string>

  /** `url.get("expanded_url", url.get("display_url", url.get("url", "")))`:
      the first of the three keys that is present, whatever its value. */
  function Fallback(u: UrlEntity): (r: string)
    ensures r in u.Values || r == ""
    ensures "expanded_url" in u ==> r == u["expanded_url"]
    ensures "expanded_url" !in u && "display_url" in u ==> r == u["display_url"]
    ensures "expanded_url" !in u && "display_url" !in u ==> r == (if "url" in u then u["url"] else "")
  {
    if "expanded_url" in u then u["expanded_url"]
    else if "display_url" in u then u["display_url"]
    else if "url" in u then u["url"]
    else ""
  }

  /** What `requests.get(url)` did: the URL it ended on, or the kind of
      exception it raised. */
  datatype Fetch = Fetched(url: string) | RequestError | TypeError

  /** The URL recorded for one entity when the fetch's failure is caught:
      the fetched URL, else the entity's fallback. */
  function Recorded(f: Fetch, u: UrlEntity): string {
    if f.Fetched? then f.url else Fallback(u)
  }

  /** The fetch loop: `extract_tweet` also catches TypeError, `extract_user`
      does not, so there the first TypeError escapes (None). */
  function ResolveUrls(es: seq<UrlEntity>, net: UrlEntity -> Fetch, catchType: bool): (r: Option<seq<string>>)
    ensures r.None? <==> !catchType && exists i :: 0 <= i < |es| && net(es[i]).TypeError?
    ensures r.Some? ==> |r.value| == |es|
    ensures r.Some? ==> forall i :: 0 <= i < |es| ==> r.value[i] == Recorded(net(es[i]), es[i])
  {
    if |es| == 0 then Some([])
    else
      var f := net(es[0]);
      if f.TypeError? && !catchType then None
      else
        var head := if f.Fetched? then f.url else Fallback(es[0]);
        assert head == Recorded(f, es[0]);
        match ResolveUrls(es[1..], net, catchType)
        case None => None
        case Some(rest) =>
          assert forall i :: 1 <= i < |es| ==> es[1..][i - 1] == es[i];
          Some([head] + rest)
  }

  /** The domain of each URL, position by position. */
  function Domains(urls: seq<string>): (r: seq<Option<string>>)
    ensures |r| == |urls|
    ensures forall i :: 0 <= i < |urls| ==> r[i] == DomainPattern.MatchDomain(urls[i])
  {
    if |urls| == 0 then [] else [DomainPattern.MatchDomain(urls[0])] + Domains(urls[1..])
  }

  // ---------------------------------------------------------------- tweet

  /** The parts of a tweet the model reads. `urls` is None when the entities
      have no "urls" key, which `entities.get("urls")` turns into None. */
  datatype TweetIn = TweetIn(hashtags: seq<string>, urls: Option<seq<UrlEntity>>, created: Option<DateTime>)

  datatype TweetInfo = TweetInfo(
    hashtags: seq<string>, splitHashtags: seq<seq<string>>,
    urls: seq<string>, domains: seq<Option<string>>,
    day: int, hour: int, isWeekday: int)

  datatype ExtractError =
    | SplitArity      // `split_text(hashtag)` passes one of its three arguments
    | UrlsMissing     // iterating the None that a missing "urls" key gives
    | UncaughtTypeError

  /** `extract_tweet` as written: any hashtag makes the one-argument
      `split_text` call raise before the URLs are looked at. */
  function ExtractTweetAsWritten(t: TweetIn, net: UrlEntity -> Fetch): (r: Result<TweetInfo, ExtractError>)
    ensures |t.hashtags| > 0 ==> r == Err(SplitArity)
    ensures |t.hashtags| == 0 ==> (r.Err? <==> t.urls.None?)
    ensures r.Ok? ==> r.value.isWeekday == IsWeekdayAsWritten(r.value.day)
  {
    if |t.hashtags| > 0 then Err(SplitArity)
    else TweetBody(t, [], net, false)
  }

  /** Every tweet with a hashtag fails as written. */
  lemma HashtagTweetFails(net: UrlEntity -> Fetch)
    ensures ExtractTweetAsWritten(TweetIn(["nofilter"], Some([]), None), net) == Err(SplitArity)
  {
  }

  /** The split of every hashtag, each searched from an empty cache. */
  function SplitHashtags(tags: seq<string>, freqs: FreqSplitter.Freqs): (r: seq<seq<string>>)
    ensures |r| == |tags|
    ensures forall i :: 0 <= i < |tags| ==> r[i] == FreqSplitter.Best(tags[i], freqs).1
  {
    if |tags| == 0 then []
    else [FreqSplitter.SplitText(tags[0], freqs, map[]).0.1] + SplitHashtags(tags[1..], freqs)
  }

  /** `extract_tweet` with `split_text` given its frequency table and a
      fresh cache. */
  function ExtractTweet(t: TweetIn, net: UrlEntity -> Fetch, freqs: FreqSplitter.Freqs): (r: Result<TweetInfo, ExtractError>)
    ensures r.Err? <==> t.urls.None?
    ensures r.Ok? ==> |r.value.splitHashtags| == |t.hashtags|
    ensures r.Ok? ==> forall i :: 0 <= i < |t.hashtags| ==> r.value.splitHashtags[i] == FreqSplitter.Best(t.hashtags[i], freqs).1
    ensures r.Ok? ==> r.value.isWeekday == IsWeekday(r.value.day)
  {
    TweetBody(t, SplitHashtags(t.hashtags, freqs), net, true)
  }

  /** The part of `extract_tweet` after the hashtags are split: a missing
      URL list fails; otherwise every URL is recorded (fetch failures of any
      kind fall back), its domain sits at the same position, and the time
      fields come from `parse_created`, the weekday flag in the reading that
      `intended` selects. */
  function TweetBody(t: TweetIn, split: seq<seq<string>>, net: UrlEntity -> Fetch, intended: bool): (r: Result<TweetInfo, ExtractError>)
    ensures r.Err? <==> t.urls.None?
    ensures r.Err? ==> r.error == UrlsMissing
    ensures r.Ok? ==> r.value.hashtags == t.hashtags && r.value.splitHashtags == split
    ensures r.Ok? ==> |r.value.urls| == |t.urls.value| == |r.value.domains|
    ensures r.Ok? ==> forall i :: 0 <= i < |r.value.urls| ==> r.value.urls[i] == Recorded(net(t.urls.value[i]), t.urls.value[i])
    ensures r.Ok? ==> forall i :: 0 <= i < |r.value.urls| ==> r.value.domains[i] == DomainPattern.MatchDomain(r.value.urls[i])
    ensures r.Ok? ==> (r.value.day, r.value.hour) == ParseCreated(t.created)
    ensures r.Ok? ==> r.value.isWeekday == if intended then IsWeekday(r.value.day) else IsWeekdayAsWritten(r.value.day)
  {
    match t.urls
    case None => Err(UrlsMissing)
    case Some(es) =>
      var urls := ResolveUrls(es, net, true).value;
      var (day, hour) := ParseCreated(t.created);
      Ok(TweetInfo(t.hashtags, split, urls, Domains(urls), day, hour,
                   if intended then IsWeekday(day) else IsWeekdayAsWritten(day)))
  }

  // ---------------------------------------------------------------- user

  /** A count or offset key of the user object: absent, present with JSON
      null (Twitter sends a null `utc_offset` for a user without a time
      zone), or a number. */
  datatype Field = Absent | Null | Num(n: int)

  /** `user.get(key, default)`: the default for an absent key, and Python's
      None for a null. */
  function Get(f: Field, default: int): (r: Option<int>)
    ensures r.None? <==> f.Null?
  {
    match f
    case Absent => Some(default)
    case Null => None
    case Num(n) => Some(n)
  }

  /** The parts of the user object the model reads. */
  datatype UserIn = UserIn(friends: Field, followers: Field, urls: seq<UrlEntity>, utcOffset: Field)

  /** The user's record; an `offset` of None is Python's None. */
  datatype UserInfo = UserInfo(following: int, followers: int, urls: seq<string>, domains: seq<Option<string>>, offset: Option<int>)

  /** `friends_count`, with a missing or zero count replaced by 1; a null
      count stays None, since `None == 0` is false. */
  function Following(friends: Field): (r: Option<int>)
    ensures r.None? <==> friends.Null?
    ensures r.Some? ==> r.value != 0
    ensures friends.Num? && friends.n != 0 ==> r == Some(friends.n)
    ensures friends.Absent? || friends == Num(0) ==> r == Some(1)
  {
    match Get(friends, 1)
    case None => None
    case Some(f) => Some(if f == 0 then 1 else f)
  }

  /** `extract_user`: a null count makes the ratio's `float(..) / ..` raise
      TypeError before any URL is fetched, and a TypeError from a fetch
      escapes too; otherwise the counts with their defaults, the offset as
      `get` gives it, and the aligned URLs and domains. */
  function ExtractUser(u: UserIn, net: UrlEntity -> Fetch): (r: Result<UserInfo, ExtractError>)
    ensures r.Err? <==> u.friends.Null? || u.followers.Null? || exists i :: 0 <= i < |u.urls| && net(u.urls[i]).TypeError?
    ensures r.Err? ==> r.error == UncaughtTypeError
    ensures r.Ok? ==>
      && r.value.following != 0
      && r.value.following == (if u.friends.Num? && u.friends.n != 0 then u.friends.n else 1)
      && r.value.followers == (if u.followers.Num? then u.followers.n else 0)
      && r.value.offset == (match u.utcOffset case Absent => Some(-1) case Null => None case Num(n) => Some(n))
      && |r.value.urls| == |u.urls| == |r.value.domains|
      && (forall i :: 0 <= i < |u.urls| ==> r.value.urls[i] == Recorded(net(u.urls[i]), u.urls[i]))
      && (forall i :: 0 <= i < |u.urls| ==> r.value.domains[i] == DomainPattern.MatchDomain(r.value.urls[i]))
  {
    match (Following(u.friends), Get(u.followers, 0))
    case (Some(following), Some(followers)) =>
      (match ResolveUrls(u.urls, net, false)
       case None => Err(UncaughtTypeError)
       case Some(urls) => Ok(UserInfo(following, followers, urls, Domains(urls), Get(u.utcOffset, -1))))
    case _ => Err(UncaughtTypeError)
  }

  /** A null `utc_offset` does not make the user fail, and it is recorded as
      None, not as the -1 that an absent key gets. */
  lemma NullOffsetIsNotMissing(u: UserIn, net: UrlEntity -> Fetch)
    requires ExtractUser(u, net).Ok?
    ensures ExtractUser(u.(utcOffset := Null), net).Ok?
    ensures ExtractUser(u.(utcOffset := Null), net).value.offset == None
    ensures ExtractUser(u.(utcOffset := Absent), net).value.offset == Some(-1)
  {
  }

  // ---------------------------------------------------------------- output

  const TweetsPerFile := 5000

  /** The output name stem: `dest` without a trailing ".json". */
  function Template(dest: string): (r: string)
    ensures |dest| >= 5 && dest[|dest| - 5..] == ".json" ==> r + ".json" == dest
    ensures !(|dest| >= 5 && dest[|dest| - 5..] == ".json") ==> r == dest
  {
    if |dest| >= 5 && dest[|dest| - 5..] == ".json" then dest[..|dest| - 5] else dest
  }

  /** `"{0}_{1}.json".format(dest_template, file_counter)`. */
  function OutputName(dest: string, file: nat): string {
    Template(dest) + "_" + NatToString(file) + ".json"
  }

  /** `(tweet_counter, file_counter)` after `n` records of the write loop:
      the counter is bumped, then the file moves on when it is a multiple of
      5000. */
  function Counters(n: nat): (nat, nat) {
    if n == 0 then (0, 1)
    else
      var (t, f) := Counters(n - 1);
      var t := t + 1;
      (t, if t % TweetsPerFile == 0 then f + 1 else f)
  }

  /** After `n` records, `n` are counted and the file number is
      `1 + n div 5000`. */
  lemma {:induction false} CountersClosedForm(n: nat)
    ensures Counters(n) == (n, 1 + n / TweetsPerFile)
  {
    if n > 0 {
      CountersClosedForm(n - 1);
      QuotientStep(n - 1);
    }
  }

  /** The quotient by 5000 goes up by one exactly at a multiple of 5000. */
  lemma QuotientStep(m: nat)
    ensures (m + 1) / TweetsPerFile == m / TweetsPerFile + (if (m + 1) % TweetsPerFile == 0 then 1 else 0)
  {
    var q, r := m / TweetsPerFile, m % TweetsPerFile;
    assert m == TweetsPerFile * q + r;
    if r == TweetsPerFile - 1 {
      assert m + 1 == TweetsPerFile * (q + 1) + 0;
    } else {
      assert m + 1 == TweetsPerFile * q + (r + 1);
    }
  }

  /** The file the `n`-th record (from 1) is appended to. */
  function FileOf(n: nat): nat
    requires n >= 1
  {
    Counters(n).1
  }

  /** File `k` receives the records `5000 (k - 1) .. 5000 k - 1`, so the
      first file holds 4999 records and every later one 5000. */
  lemma FileOfRange(n: nat, k: nat)
    requires n >= 1 && k >= 1
    ensures FileOf(n) == k <==> TweetsPerFile * (k - 1) <= n < TweetsPerFile * k
  {
    CountersClosedForm(n);
  }

  /** Different file numbers name different files. */
  lemma OutputNameInjective(dest: string, f: nat, g: nat)
    requires OutputName(dest, f) == OutputName(dest, g)
    ensures f == g
  {
    var t := Template(dest) + "_";
    var a, b := NatToString(f), NatToString(g);
    assert OutputName(dest, f) == t + a + ".json";
    assert OutputName(dest, g) == t + b + ".json";
    assert |a| == |b|;
    assert a == (t + a + ".json")[|t|..|t| + |a|];
    assert b == (t + b + ".json")[|t|..|t| + |b|];
    NatToStringInjective(f, g);
  }

  /** Two records are appended to the same output file exactly when they
      fall in the same run of 5000 counts. */
  lemma SameOutputFile(dest: string, m: nat, n: nat)
    requires m >= 1 && n >= 1
    ensures OutputName(dest, FileOf(m)) == OutputName(dest, FileOf(n)) <==> m / TweetsPerFile == n / TweetsPerFile
  {
    CountersClosedForm(m);
    CountersClosedForm(n);
    if OutputName(dest, FileOf(m)) == OutputName(dest, FileOf(n)) {
      OutputNameInjective(dest, FileOf(m), FileOf(n));
    }
  }
}

=== FILE: fix_urls.dfy ===
/** The batch repair pipeline of fix_urls.py: `fix_url` (resolve, then take
    the domain), `fix_urls` (one record), `fix_js` (one file, lines taken
    from the end) and `fix_all` (file selection). Records are already decoded;
    the network is a scripted trace per URL (`net`), the hop limit a
    parameter, and the cache a map threaded through every call. */
module FixUrls {
  import opened Wrappers
  import opened Text
  import opened Resolver
  import DomainPattern

  /** The tweet half of an extracted record: `urls`, the aligned `domains`,
      and the remaining fields as text that is carried through untouched. */
  datatype TweetFields = TweetFields(urls: Option<seq<string>>, domains: Option<seq<Option<string>>>, rest: string)

  /** `[identifier, [tweetFields, userFields]]`. */
  datatype Record = Record(id: string, tweet: TweetFields, user: string)

  /** What `json.loads` and the indexing `js[1][0]` make of a line: not JSON
      at all, JSON without a `js[1][0]` (IndexError), or a record. Other
      JSON shapes are not modelled. */
  datatype Parsed = Undecodable | ShortRecord | Decoded(record: Record)

  /** One input line: its text and what it parses to. */
  datatype Line = Line(text: string, parsed: Parsed)

  /** A written line: the stripped input text, or a re-serialised record. */
  datatype OutLine = Verbatim(text: string) | Encoded(record: Record)

  /** Why a line could not be repaired: connectivity lost (the resolver
      re-raised), an undecodable line (`json.loads` raised), or an IndexError
      from `js[1][0]`. */
  datatype Abort = ConnectivityLost | NotJson | IndexOutOfRange

  /** `not urls`: absent, null or empty. */
  predicate NoUrls(t: TweetFields) {
    t.urls.None? || |t.urls.value| == 0
  }

  /** The resolver `fix_url` calls: `resolve_redirects` as written, or with
      `cacheHop` set the corrected one that also caches an accepted hop. */
  function ResolveWith(cacheHop: bool, cache: Cache, url: string, net: string -> Trace, limit: nat): Resolution {
    if cacheHop then ResolveRedirectsCaching(cache, url, net(url), limit)
    else ResolveRedirects(cache, url, net(url), limit)
  }

  /** `fix_url`: the URL `resolve_redirects` answers and its domain, or the
      fatal condition, with the resolver's cache. */
  function FixUrl(cacheHop: bool, cache: Cache, url: string, net: string -> Trace, limit: nat)
    : (r: (Result<(string, Option<string>), Abort>, Cache))
    ensures var res := ResolveWith(cacheHop, cache, url, net, limit);
            && (r.0.Err? <==> res.outcome.Fatal?)
            && (r.0.Ok? ==> r.0.value.0 == res.outcome.url)
            && r.1 == res.cache
    ensures r.0.Err? ==> r.0.error == ConnectivityLost && r.1 == cache
    ensures r.0.Ok? ==> r.0.value.1 == DomainPattern.MatchDomain(r.0.value.0)
    ensures cacheHop && r.0.Ok? && r.0.value.0 != "" ==> CachedHit(r.1, url) && r.1[url] == r.0.value.0
    ensures forall k :: CachedHit(cache, k) ==> k in r.1 && r.1[k] == cache[k]
    ensures r.1.Keys == cache.Keys || r.1.Keys == cache.Keys + {url}
  {
    var res := ResolveWith(cacheHop, cache, url, net, limit);
    match res.outcome
    case Fatal(_) => (Err(ConnectivityLost), res.cache)
    case Resolved(u) => (Ok((u, DomainPattern.MatchDomain(u))), res.cache)
  }

  /** The loop of `fix_urls` over the record's URLs, threading the cache. */
  function FixEach(cacheHop: bool, cache: Cache, urls: seq<string>, net: string -> Trace, limit: nat)
    : (r: (Result<(seq<string>, seq<Option<string>>), Abort>, Cache))
    ensures r.0.Err? ==> r.0.error == ConnectivityLost
    ensures r.0.Ok? ==> |r.0.value.0| == |urls| && |r.0.value.1| == |urls|
    ensures r.0.Ok? ==> forall i :: 0 <= i < |urls| ==>
                          r.0.value.1[i] == DomainPattern.MatchDomain(r.0.value.0[i])
    ensures forall k :: CachedHit(cache, k) ==> k in r.1 && r.1[k] == cache[k]
    decreases |urls|
  {
    if |urls| == 0 then
      (Ok(([], [])), cache)
    else
      var first := FixUrl(cacheHop, cache, urls[0], net, limit);
      if first.0.Err? then (Err(first.0.error), first.1)
      else
        var rest := FixEach(cacheHop, first.1, urls[1..], net, limit);
        if rest.0.Err? then (Err(rest.0.error), rest.1)
        else
          (Ok(Prepend(first.0.value, rest.0.value)), rest.1)
  }

  /** One repaired URL and its domain in front of the others'. */
  function Prepend(ud: (string, Option<string>), rest: (seq<string>, seq<Option<string>>))
    : (r: (seq<string>, seq<Option<string>>))
    ensures |r.0| == |rest.0| + 1 && |r.1| == |rest.1| + 1
    ensures r.0[0] == ud.0 && r.1[0] == ud.1
    ensures forall i :: 1 <= i < |r.0| ==> r.0[i] == rest.0[i - 1]
    ensures forall i :: 1 <= i < |r.1| ==> r.1[i] == rest.1[i - 1]
  {
    ([ud.0] + rest.0, [ud.1] + rest.1)
  }

  /** After a first URL that resolves, repairing the URLs is repairing the
      rest under the first URL's cache. */
  lemma FixEachStep(cacheHop: bool, cache: Cache, urls: seq<string>, net: string -> Trace, limit: nat)
    requires |urls| > 0
    requires FixUrl(cacheHop, cache, urls[0], net, limit).0.Ok?
    ensures var c1 := FixUrl(cacheHop, cache, urls[0], net, limit).1;
            && FixEach(cacheHop, cache, urls, net, limit).0.Ok? == FixEach(cacheHop, c1, urls[1..], net, limit).0.Ok?
            && FixEach(cacheHop, cache, urls, net, limit).1 == FixEach(cacheHop, c1, urls[1..], net, limit).1
  {
  }

  /** After a first URL that resolves, repairing a prefix of the URLs is
      repairing the rest of that prefix under the first URL's cache. */
  lemma FixEachPrefix(cacheHop: bool, cache: Cache, urls: seq<string>, net: string -> Trace, limit: nat, i: nat)
    requires 1 <= i <= |urls|
    requires FixUrl(cacheHop, cache, urls[0], net, limit).0.Ok?
    ensures var c1 := FixUrl(cacheHop, cache, urls[0], net, limit).1;
            && FixEach(cacheHop, cache, urls[..i], net, limit).0.Ok? == FixEach(cacheHop, c1, urls[1..][..i - 1], net, limit).0.Ok?
            && FixEach(cacheHop, cache, urls[..i], net, limit).1 == FixEach(cacheHop, c1, urls[1..][..i - 1], net, limit).1
  {
    var pre := urls[..i];
    assert pre[0] == urls[0];
    assert pre[1..] == urls[1..][..i - 1];
    FixEachStep(cacheHop, cache, pre, net, limit);
  }

  /** Each URL of a record is repaired by `fix_url` under the cache the URLs
      before it left. */
  lemma {:induction false} FixEachInTurn(cacheHop: bool, cache: Cache, urls: seq<string>, net: string -> Trace, limit: nat)
    ensures var r := FixEach(cacheHop, cache, urls, net, limit);
            r.0.Ok? ==> forall i :: 0 <= i < |urls| ==>
              && FixEach(cacheHop, cache, urls[..i], net, limit).0.Ok?
              && FixUrl(cacheHop, FixEach(cacheHop, cache, urls[..i], net, limit).1, urls[i], net, limit).0
                   == Ok((r.0.value.0[i], r.0.value.1[i]))
    decreases |urls|
  {
    var r := FixEach(cacheHop, cache, urls, net, limit);
    if |urls| > 0 && r.0.Ok? {
      var first := FixUrl(cacheHop, cache, urls[0], net, limit);
      var tail := urls[1..];
      assert urls[..0] == [];
      FixEachInTurn(cacheHop, first.1, tail, net, limit);
      var rest := FixEach(cacheHop, first.1, tail, net, limit);
      assert r.0.value.0[0] == first.0.value.0 && r.0.value.1[0] == first.0.value.1;
      forall i | 1 <= i < |urls|
        ensures FixEach(cacheHop, cache, urls[..i], net, limit).0.Ok?
        ensures FixUrl(cacheHop, FixEach(cacheHop, cache, urls[..i], net, limit).1, urls[i], net, limit).0
                  == Ok((r.0.value.0[i], r.0.value.1[i]))
      {
        FixEachPrefix(cacheHop, cache, urls, net, limit, i);
        assert tail[i - 1] == urls[i];
        assert r.0.value.0[i] == rest.0.value.0[i - 1] && r.0.value.1[i] == rest.0.value.1[i - 1];
      }
    }
  }

  /** The repair of a record's URLs stopped at the i-th URL with cache `c`:
      the URLs before it were repaired, leaving `c`, and its resolution lost
      the connection under `c`. */
  ghost predicate FailedAt(cacheHop: bool, cache: Cache, urls: seq<string>, net: string -> Trace, limit: nat,
                           c: Cache, i: int) {
    && 0 <= i < |urls|
    && FixEach(cacheHop, cache, urls[..i], net, limit).0.Ok?
    && FixEach(cacheHop, cache, urls[..i], net, limit).1 == c
    && FixUrl(cacheHop, c, urls[i], net, limit).0.Err?
  }

  /** A failed record failed at the first URL whose resolution lost the
      connection, under the cache the URLs before it left, and that cache is
      the one returned. */
  lemma {:induction false} FixEachFailsInTurn(cacheHop: bool, cache: Cache, urls: seq<string>, net: string -> Trace, limit: nat)
    ensures var r := FixEach(cacheHop, cache, urls, net, limit);
            r.0.Err? ==> exists i :: FailedAt(cacheHop, cache, urls, net, limit, r.1, i)
    decreases |urls|
  {
    var r := FixEach(cacheHop, cache, urls, net, limit);
    if |urls| > 0 && r.0.Err? {
      var first := FixUrl(cacheHop, cache, urls[0], net, limit);
      if first.0.Ok? {
        assert exists i :: FailedAt(cacheHop, cache, urls, net, limit, r.1, i) by {
          var tail := urls[1..];
          FixEachStep(cacheHop, cache, urls, net, limit);
          FixEachFailsInTurn(cacheHop, first.1, tail, net, limit);
          var j :| FailedAt(cacheHop, first.1, tail, net, limit, r.1, j);
          FixEachPrefix(cacheHop, cache, urls, net, limit, j + 1);
          assert tail[j] == urls[j + 1];
          assert FailedAt(cacheHop, cache, urls, net, limit, r.1, j + 1);
        }
      } else {
        assert urls[..0] == [];
        assert FailedAt(cacheHop, cache, urls, net, limit, r.1, 0);
      }
    }
  }

  /** `fix_urls`: a record without URLs comes back as its stripped text;
      otherwise its `urls` and `domains` are replaced by the resolved URLs and
      their domains, position by position, and nothing else changes. */
  function FixUrlsLine(cacheHop: bool, cache: Cache, line: Line, net: string -> Trace, limit: nat)
    : (r: (Result<OutLine, Abort>, Cache))
    ensures line.parsed.Undecodable? ==> r == (Err(NotJson), cache)
    ensures line.parsed.ShortRecord? ==> r == (Err(IndexOutOfRange), cache)
    ensures line.parsed.Decoded? && NoUrls(line.parsed.record.tweet) ==>
              r == (Ok(Verbatim(RStrip(line.text))), cache)
    ensures line.parsed.Decoded? && !NoUrls(line.parsed.record.tweet) ==>
              var e := FixEach(cacheHop, cache, line.parsed.record.tweet.urls.value, net, limit);
              && r.1 == e.1 && (r.0.Ok? <==> e.0.Ok?)
              && (r.0.Ok? ==> r.0.value.Encoded? && r.0.value.record.tweet.urls == Some(e.0.value.0))
    ensures line.parsed.Decoded? && r.0.Err? ==> r.0.error == ConnectivityLost
    ensures r.0.Ok? ==> Rewrites(line, r.0.value)
    ensures forall k :: CachedHit(cache, k) ==> k in r.1 && r.1[k] == cache[k]
  {
    match line.parsed
    case Undecodable => (Err(NotJson), cache)
    case ShortRecord => (Err(IndexOutOfRange), cache)
    case Decoded(rec) =>
      if NoUrls(rec.tweet) then
        (Ok(Verbatim(RStrip(line.text))), cache)
      else
        var (res, c) := FixEach(cacheHop, cache, rec.tweet.urls.value, net, limit);
        match res
        case Err(e) => (Err(e), c)
        case Ok((us, ds)) =>
          (Ok(Encoded(rec.(tweet := rec.tweet.(urls := Some(us), domains := Some(ds))))), c)
  }

  /** What a written line says about the input line it came from. */
  predicate Rewrites(line: Line, out: OutLine) {
    && line.parsed.Decoded?
    && var rec := line.parsed.record;
       if NoUrls(rec.tweet) then out == Verbatim(RStrip(line.text))
       else
         && out.Encoded?
         && var t := out.record.tweet;
            && out.record == rec.(tweet := t)
            && t.rest == rec.tweet.rest
            && t.urls.Some? && t.domains.Some?
            && |t.urls.value| == |rec.tweet.urls.value| == |t.domains.value|
            && forall i :: 0 <= i < |t.urls.value| ==>
                 t.domains.value[i] == DomainPattern.MatchDomain(t.urls.value[i])
  }

  /** Result of repairing one file: lines written so far, the cache, and why
      it stopped early, if it did. */
  datatype FileResult = FileResult(written: seq<OutLine>, cache: Cache, aborted: Option<Abort>)

  /** A line repair: from the cache and a line, the written line or why
      there is none, and the cache afterwards. */
  type Step = (Cache, Line) -> (Result<OutLine, Abort>, Cache)

  /** `fix_urls` with the resolver reading, the network and the hop limit fixed. */
  function LineStep(cacheHop: bool, net: string -> Trace, limit: nat): Step {
    (c: Cache, l: Line) => FixUrlsLine(cacheHop, c, l, net, limit)
  }

  /** The loop of `fix_js`: lines are popped from the end and each repaired
      line is appended to the output. A failure other than an IndexError
      ends the file and the run. The IndexError that `js[1][0]` raises on a
      short record is caught by the handler meant for popping an empty list,
      so it ends the file quietly, as if every line had been done. */
  function RepairLines(step: Step, cache: Cache, lines: seq<Line>): (r: FileResult)
    ensures |r.written| <= |lines|
    ensures r.aborted != Some(IndexOutOfRange)
    decreases |lines|
  {
    if |lines| == 0 then
      FileResult([], cache, None)
    else
      var p := step(cache, lines[|lines| - 1]);
      if p.0.Err? then
        FileResult([], p.1, if p.0.error == IndexOutOfRange then None else Some(p.0.error))
      else
        var rest := RepairLines(step, p.1, lines[..|lines| - 1]);
        FileResult([p.0.value] + rest.written, rest.cache, rest.aborted)
  }

  /** Every line decodes to a record with a `js[1][0]`. */
  predicate WellShaped(lines: seq<Line>) {
    forall i :: 0 <= i < |lines| ==> lines[i].parsed.Decoded?
  }

  /** How a file ends when it stops at a line that could not be repaired. */
  function StopReason(p: Parsed): Option<Abort> {
    match p
    case Undecodable => Some(NotJson)
    case ShortRecord => None
    case Decoded(_) => Some(ConnectivityLost)
  }

  /** The outcome of `fix_js` as seen by `fix_all`: an IndexError is not one. */
  function Reported(e: Abort): Option<Abort> {
    if e == IndexOutOfRange then None else Some(e)
  }

  /** A repaired line always rewrites its input faithfully. */
  ghost predicate StepRewrites(step: Step) {
    forall c: Cache, l: Line :: step(c, l).0.Ok? ==> Rewrites(l, step(c, l).0.value)
  }

  /** A failed line fails for the reason its shape dictates. */
  ghost predicate StepClassifies(step: Step) {
    forall c: Cache, l: Line :: step(c, l).0.Err? ==> Reported(step(c, l).0.error) == StopReason(l.parsed)
  }

  /** Non-empty cache entries survive a line repair. */
  ghost predicate StepKeepsCache(step: Step) {
    forall c: Cache, l: Line :: forall k :: CachedHit(c, k) ==> k in step(c, l).1 && step(c, l).1[k] == c[k]
  }

  /** A record without URLs is written back stripped, touching nothing. */
  ghost predicate StepPassesThrough(step: Step) {
    forall c: Cache, l: Line :: l.parsed.Decoded? && NoUrls(l.parsed.record.tweet) ==>
      step(c, l) == (Ok(Verbatim(RStrip(l.text))), c)
  }

  lemma LineStepRewrites(cacheHop: bool, net: string -> Trace, limit: nat)
    ensures StepRewrites(LineStep(cacheHop, net, limit))
  {
  }

  lemma LineStepClassifies(cacheHop: bool, net: string -> Trace, limit: nat)
    ensures StepClassifies(LineStep(cacheHop, net, limit))
  {
  }

  lemma LineStepKeepsCache(cacheHop: bool, net: string -> Trace, limit: nat)
    ensures StepKeepsCache(LineStep(cacheHop, net, limit))
  {
  }

  lemma LineStepPassesThrough(cacheHop: bool, net: string -> Trace, limit: nat)
    ensures StepPassesThrough(LineStep(cacheHop, net, limit))
  {
  }

  /** Output line i rewrites input line |lines| - 1 - i. */
  lemma {:induction false} RepairLinesReverses(step: Step, cache: Cache, lines: seq<Line>)
    requires StepRewrites(step)
    ensures forall i :: 0 <= i < |RepairLines(step, cache, lines).written| ==>
              Rewrites(lines[|lines| - 1 - i], RepairLines(step, cache, lines).written[i])
    decreases |lines|
  {
    if |lines| > 0 {
      var p := step(cache, lines[|lines| - 1]);
      if p.0.Ok? {
        var init := lines[..|lines| - 1];
        RepairLinesReverses(step, p.1, init);
        assert Rewrites(lines[|lines| - 1], p.0.value);
        var rest := RepairLines(step, p.1, init);
        var r := RepairLines(step, cache, lines);
        forall i | 0 <= i < |r.written|
          ensures Rewrites(lines[|lines| - 1 - i], r.written[i])
        {
          if i == 0 {
            assert r.written[0] == p.0.value;
          } else {
            assert r.written[i] == rest.written[i - 1];
            assert lines[|lines| - 1 - i] == init[|init| - 1 - (i - 1)];
            assert Rewrites(init[|init| - 1 - (i - 1)], rest.written[i - 1]);
          }
        }
      }
    }
  }

  /** Where a file stops: an early end happens exactly at a line that is not
      JSON, a short record, or a URL whose resolution lost the connection,
      and only the short record ends the file without an error. */
  lemma {:induction false} RepairLinesStops(step: Step, cache: Cache, lines: seq<Line>)
    requires StepClassifies(step)
    ensures var r := RepairLines(step, cache, lines);
            && (r.aborted.Some? ==> |r.written| < |lines|)
            && (|r.written| < |lines| ==> r.aborted == StopReason(lines[|lines| - 1 - |r.written|].parsed))
    decreases |lines|
  {
    if |lines| > 0 {
      var p := step(cache, lines[|lines| - 1]);
      if p.0.Ok? {
        var init := lines[..|lines| - 1];
        RepairLinesStops(step, p.1, init);
        var rest := RepairLines(step, p.1, init);
        var r := RepairLines(step, cache, lines);
        if |r.written| < |lines| {
          assert lines[|lines| - 1 - |r.written|] == init[|init| - 1 - |rest.written|];
        }
      }
    }
  }

  lemma {:induction false} RepairLinesKeepsCache(step: Step, cache: Cache, lines: seq<Line>)
    requires StepKeepsCache(step)
    ensures var r := RepairLines(step, cache, lines);
            forall k :: CachedHit(cache, k) ==> k in r.cache && r.cache[k] == cache[k]
    decreases |lines|
  {
    if |lines| > 0 {
      var p := step(cache, lines[|lines| - 1]);
      if p.0.Ok? {
        RepairLinesKeepsCache(step, p.1, lines[..|lines| - 1]);
      }
    }
  }

  /** A file whose lines carry no URLs is copied in reverse order, stripped,
      with no cache change. */
  lemma {:induction false} RepairLinesPassThrough(step: Step, cache: Cache, lines: seq<Line>)
    requires StepPassesThrough(step)
    requires forall i :: 0 <= i < |lines| ==> lines[i].parsed.Decoded? && NoUrls(lines[i].parsed.record.tweet)
    ensures var r := RepairLines(step, cache, lines);
            && r.aborted.None? && r.cache == cache && |r.written| == |lines|
            && forall i :: 0 <= i < |lines| ==> r.written[i] == Verbatim(RStrip(lines[|lines| - 1 - i].text))
    decreases |lines|
  {
    if |lines| > 0 {
      var last, init := lines[|lines| - 1], lines[..|lines| - 1];
      assert step(cache, last) == (Ok(Verbatim(RStrip(last.text))), cache);
      assert forall i :: 0 <= i < |init| ==> init[i] == lines[i];
      RepairLinesPassThrough(step, cache, init);
      var rest := RepairLines(step, cache, init);
      var r := RepairLines(step, cache, lines);
      assert r.written == [Verbatim(RStrip(last.text))] + rest.written;
      forall i | 0 <= i < |lines|
        ensures r.written[i] == Verbatim(RStrip(lines[|lines| - 1 - i].text))
      {
        if i > 0 {
          assert r.written[i] == rest.written[i - 1];
          assert lines[|lines| - 1 - i] == init[|init| - 1 - (i - 1)];
        }
      }
    }
  }

  /** What repairing a file guarantees: the output holds the repaired lines
      in reverse input order; it ends early only at a line that could not be
      repaired, and then for the reason that line dictates; a file of
      well-shaped lines that is not aborted is done in full; non-empty cache
      entries are kept. */
  ghost predicate FileRepaired(cache: Cache, lines: seq<Line>, r: FileResult) {
    && |r.written| <= |lines|
    && (forall i :: 0 <= i < |r.written| ==> Rewrites(lines[|lines| - 1 - i], r.written[i]))
    && (r.aborted.Some? ==> |r.written| < |lines|)
    && (|r.written| < |lines| ==> r.aborted == StopReason(lines[|lines| - 1 - |r.written|].parsed))
    && (WellShaped(lines) && r.aborted.None? ==> |r.written| == |lines|)
    && (forall k :: CachedHit(cache, k) ==> k in r.cache && r.cache[k] == cache[k])
  }

  /** Each written line is what the step makes of its input line under the
      cache that repairing the later lines of the file left. */
  ghost predicate RepairedInTurn(step: Step, cache: Cache, lines: seq<Line>, r: FileResult) {
    forall i :: 0 <= i < |r.written| && i < |lines| ==>
      step(RepairLines(step, cache, lines[|lines| - i..]).cache, lines[|lines| - 1 - i]).0 == Ok(r.written[i])
  }

  /** Output line i is the step applied to input line |lines| - 1 - i under
      the cache that repairing the lines after it left. */
  lemma {:induction false} RepairLinesInTurn(step: Step, cache: Cache, lines: seq<Line>)
    ensures RepairedInTurn(step, cache, lines, RepairLines(step, cache, lines))
  {
    var r := RepairLines(step, cache, lines);
    forall i | 0 <= i < |r.written| && i < |lines|
      ensures step(RepairLines(step, cache, lines[|lines| - i..]).cache, lines[|lines| - 1 - i]).0 == Ok(r.written[i])
    {
      RepairLinesAt(step, cache, lines, i);
    }
  }

  lemma {:induction false} RepairLinesAt(step: Step, cache: Cache, lines: seq<Line>, i: nat)
    requires i < |RepairLines(step, cache, lines).written|
    ensures step(RepairLines(step, cache, lines[|lines| - i..]).cache, lines[|lines| - 1 - i]).0
            == Ok(RepairLines(step, cache, lines).written[i])
    decreases |lines|
  {
    var p := step(cache, lines[|lines| - 1]);
    var init := lines[..|lines| - 1];
    var rest := RepairLines(step, p.1, init);
    if i == 0 {
      assert lines[|lines| - 0..] == [];
    } else {
      var j := i - 1;
      RepairLinesAt(step, p.1, init, j);
      var suf := lines[|lines| - i..];
      assert suf[|suf| - 1] == lines[|lines| - 1];
      assert suf[..|suf| - 1] == init[|init| - j..];
      assert lines[|lines| - 1 - i] == init[|init| - 1 - j];
    }
  }

  /** `fix_js`: the lines are taken from the end of the file and repaired
      one by one until one of them aborts the file. */
  function FixJs(cacheHop: bool, cache: Cache, lines: seq<Line>, net: string -> Trace, limit: nat): (r: FileResult)
    ensures FileRepaired(cache, lines, r)
    ensures RepairedInTurn(LineStep(cacheHop, net, limit), cache, lines, r)
  {
    LineStepRepairs(cacheHop, net, limit);
    RepairLinesContract(LineStep(cacheHop, net, limit), cache, lines);
    RepairLinesInTurn(LineStep(cacheHop, net, limit), cache, lines);
    RepairLines(LineStep(cacheHop, net, limit), cache, lines)
  }

  lemma LineStepRepairs(cacheHop: bool, net: string -> Trace, limit: nat)
    ensures StepRewrites(LineStep(cacheHop, net, limit))
    ensures StepClassifies(LineStep(cacheHop, net, limit))
    ensures StepKeepsCache(LineStep(cacheHop, net, limit))
  {
    LineStepRewrites(cacheHop, net, limit);
    LineStepClassifies(cacheHop, net, limit);
    LineStepKeepsCache(cacheHop, net, limit);
  }

  /** The three properties of a repair step together give the whole contract
      of a file repaired with it. */
  lemma RepairLinesContract(step: Step, cache: Cache, lines: seq<Line>)
    requires StepRewrites(step) && StepClassifies(step) && StepKeepsCache(step)
    ensures FileRepaired(cache, lines, RepairLines(step, cache, lines))
  {
    RepairLinesReverses(step, cache, lines);
    RepairLinesStops(step, cache, lines);
    RepairLinesKeepsCache(step, cache, lines);
  }

  /** A file whose records carry no URLs is copied in reverse order with
      trailing whitespace stripped, and the cache is untouched. */
  lemma FixJsPassThrough(cacheHop: bool, cache: Cache, lines: seq<Line>, net: string -> Trace, limit: nat)
    requires forall i :: 0 <= i < |lines| ==> lines[i].parsed.Decoded? && NoUrls(lines[i].parsed.record.tweet)
    ensures var r := FixJs(cacheHop, cache, lines, net, limit);
            && r.aborted.None? && r.cache == cache && |r.written| == |lines|
            && forall i :: 0 <= i < |lines| ==> r.written[i] == Verbatim(RStrip(lines[|lines| - 1 - i].text))
  {
    LineStepPassesThrough(cacheHop, net, limit);
    RepairLinesPassThrough(LineStep(cacheHop, net, limit), cache, lines);
  }

  // ---------------------------------------------------------------------
  // fix_all: which files are repaired

  /** `re.match(r'[\w]+\.json', name)`: word characters then `.json`, with
      anything after. Since `.` is not a word character the greedy run cannot
      usefully give characters back, so only the full run is tried. */
  function MatchesJsonName(name: string): (b: bool)
    ensures b <==> exists k :: 1 <= k <= |name| && (forall i :: 0 <= i < k ==> IsWordChar(name[i]))
                                && ".json" <= name[k..]
  {
    var k := WordRun(name);
    if k >= 1 && ".json" <= name[k..] then true
    else
      assert forall j :: (1 <= j <= |name| && (forall i :: 0 <= i < j ==> IsWordChar(name[i]))
                         && ".json" <= name[j..]) ==> j == k by {
        forall j | 1 <= j <= |name| && (forall i :: 0 <= i < j ==> IsWordChar(name[i]))
                   && ".json" <= name[j..]
          ensures j == k
        {
          JsonDotStopsRun(name, j, k);
        }
      }
      false
  }

  lemma JsonDotStopsRun(name: string, j: nat, k: nat)
    requires k == WordRun(name)
    requires 1 <= j <= |name| && (forall i :: 0 <= i < j ==> IsWordChar(name[i])) && ".json" <= name[j..]
    ensures j == k
  {
    assert name[j..][0] == '.';
    assert !IsWordChar(name[j]);
  }

  /** `fil_is_valid`: not already present in the output directory, and named like a record file. */
  predicate FilIsValid(name: string, done: set<string>) {
    name !in done && MatchesJsonName(name)
  }

  /** `a` is `b` with some elements left out, the rest in the same order. */
  predicate IsSubsequence(a: seq<string>, b: seq<string>)
    decreases |b|
  {
    if |a| == 0 then true
    else if |b| == 0 then false
    else if a[0] == b[0] then IsSubsequence(a[1..], b[1..])
    else IsSubsequence(a, b[1..])
  }

  /** `filter(fil_is_valid, eld(directory))`, in directory order. */
  function SelectFiles(names: seq<string>, done: set<string>): (sel: seq<string>)
    ensures forall n :: n in sel <==> n in names && FilIsValid(n, done)
    ensures IsSubsequence(sel, names)
    ensures |sel| <= |names|
    ensures Distinct(names) ==> Distinct(sel)
  {
    if |names| == 0 then []
    else
      var rest := SelectFiles(names[1..], done);
      if FilIsValid(names[0], done) then [names[0]] + rest
      else
        assert |rest| > 0 ==> rest[0] != names[0];
        rest
  }

  /** No name listed twice, as in a directory listing. */
  predicate Distinct(names: seq<string>) {
    forall i, j :: 0 <= i < j < |names| ==> names[i] != names[j]
  }

  /** The file whose processing stopped, and why. */
  datatype Failure = Failure(file: string, why: Abort)

  /** State of a `fix_all` run: names present in the output directory, the
      lines appended to each output file, the cache, and where it stopped. */
  datatype Batch = Batch(done: set<string>, output: map<string, seq<OutLine>>, cache: Cache, failed: Option<Failure>)

  /** What an output file held before the run: nothing if it did not exist. */
  function Prior(output: map<string, seq<OutLine>>, name: string): seq<OutLine> {
    if name in output then output[name] else []
  }

  /** Appends lines to an output file, creating it if needed. */
  function Append(output: map<string, seq<OutLine>>, name: string, lines: seq<OutLine>): map<string, seq<OutLine>> {
    output[name := Prior(output, name) + lines]
  }

  /** The output file `name` is as it was: neither created nor appended to. */
  predicate Untouched(before: map<string, seq<OutLine>>, after: map<string, seq<OutLine>>, name: string) {
    (name in after <==> name in before) && (name in before ==> after[name] == before[name])
  }

  /** The batch after a file repaired in full: its name is recorded and its
      lines appended to its output file. */
  function Completed(b: Batch, name: string, fr: FileResult): Batch {
    Batch(b.done + {name}, Append(b.output, name, fr.written), fr.cache, None)
  }

  /** Repairs the selected files in order. `markFirst` is the as-written
      behaviour: `fix_js` opens the output file for appending before its first
      line, so the name is present in the output directory even if the file
      is then aborted. Otherwise a name appears only once its file is complete.
      `cacheHop` chooses the resolver reading, as in `FixUrl`. */
  function RunFiles(markFirst: bool, cacheHop: bool, b: Batch, sel: seq<string>, files: string -> seq<Line>,
                    net: string -> Trace, limit: nat): (r: Batch)
    requires b.failed.None?
    requires forall n :: n in sel ==> n !in b.done
    requires Distinct(sel)
    ensures b.done <= r.done
    ensures r.failed.None? ==> r.done == b.done + set n | n in sel
    ensures r.failed.Some? ==> r.failed.value.file in sel
    ensures r.failed.Some? ==> (r.failed.value.file in r.done <==> markFirst)
    ensures forall n :: n in r.done - b.done ==> n in sel
    ensures forall k :: CachedHit(b.cache, k) ==> k in r.cache && r.cache[k] == b.cache[k]
    decreases |sel|
  {
    if |sel| == 0 then b
    else
      var name := sel[0];
      var fr := FixJs(cacheHop, b.cache, files(name), net, limit);
      if fr.aborted.Some? then
        var done := if markFirst then b.done + {name} else b.done;
        var output := if markFirst then Append(b.output, name, fr.written) else b.output;
        Batch(done, output, fr.cache, Some(Failure(name, fr.aborted.value)))
      else
        var r := RunFiles(markFirst, cacheHop, Completed(b, name, fr), sel[1..], files, net, limit);
        assert (set n | n in sel) == {name} + set n | n in sel[1..];
        r
  }

  /** After a first file repaired in full, the run goes on with the rest. */
  lemma RunFilesNext(markFirst: bool, cacheHop: bool, b: Batch, sel: seq<string>, files: string -> seq<Line>,
                     net: string -> Trace, limit: nat)
    requires b.failed.None?
    requires forall n :: n in sel ==> n !in b.done
    requires Distinct(sel)
    requires |sel| > 0 && FixJs(cacheHop, b.cache, files(sel[0]), net, limit).aborted.None?
    ensures var b1 := Completed(b, sel[0], FixJs(cacheHop, b.cache, files(sel[0]), net, limit));
            && b1.failed.None? && (forall n :: n in sel[1..] ==> n !in b1.done) && Distinct(sel[1..])
            && sel[0] !in sel[1..]
            && RunFiles(markFirst, cacheHop, b, sel, files, net, limit) == RunFiles(markFirst, cacheHop, b1, sel[1..], files, net, limit)
  {
    forall n | n in sel[1..]
      ensures n != sel[0]
    {
      var j :| 0 <= j < |sel[1..]| && sel[1..][j] == n;
      assert sel[j + 1] == n;
    }
  }

  /** Output files outside the selection are left as they were. */
  lemma {:induction false} RunFilesOutside(markFirst: bool, cacheHop: bool, b: Batch, sel: seq<string>,
                                           files: string -> seq<Line>, net: string -> Trace, limit: nat)
    requires b.failed.None?
    requires forall n :: n in sel ==> n !in b.done
    requires Distinct(sel)
    ensures var r := RunFiles(markFirst, cacheHop, b, sel, files, net, limit);
            forall n :: n !in sel ==> Untouched(b.output, r.output, n)
    decreases |sel|
  {
    if |sel| > 0 {
      var fr := FixJs(cacheHop, b.cache, files(sel[0]), net, limit);
      if fr.aborted.None? {
        RunFilesNext(markFirst, cacheHop, b, sel, files, net, limit);
        var b1 := Completed(b, sel[0], fr);
        RunFilesOutside(markFirst, cacheHop, b1, sel[1..], files, net, limit);
        var r := RunFiles(markFirst, cacheHop, b1, sel[1..], files, net, limit);
        forall n | n !in sel
          ensures Untouched(b.output, r.output, n)
        {
          assert n != sel[0] && n !in sel[1..];
        }
      }
    }
  }

  /** Where an aborted run stopped: at the k-th selected file; every file
      before it is recorded, no later file is recorded or written, and in
      the corrected reading the aborted file's output is not written either. */
  ghost predicate StoppedAt(markFirst: bool, before: map<string, seq<OutLine>>, sel: seq<string>, r: Batch, k: int) {
    && 0 <= k < |sel| && r.failed.Some? && sel[k] == r.failed.value.file
    && (forall j :: 0 <= j < k ==> sel[j] in r.done)
    && (forall j :: k < j < |sel| ==> sel[j] !in r.done && Untouched(before, r.output, sel[j]))
    && (!markFirst ==> Untouched(before, r.output, sel[k]))
  }

  /** Files are taken in order and the run stops at the first aborted one. */
  lemma {:induction false} RunFilesStops(markFirst: bool, cacheHop: bool, b: Batch, sel: seq<string>,
                                         files: string -> seq<Line>, net: string -> Trace, limit: nat)
    requires b.failed.None?
    requires forall n :: n in sel ==> n !in b.done
    requires Distinct(sel)
    ensures var r := RunFiles(markFirst, cacheHop, b, sel, files, net, limit);
            r.failed.Some? ==> exists k :: StoppedAt(markFirst, b.output, sel, r, k)
    decreases |sel|, 1
  {
    var r := RunFiles(markFirst, cacheHop, b, sel, files, net, limit);
    if |sel| > 0 && r.failed.Some? {
      var fr := FixJs(cacheHop, b.cache, files(sel[0]), net, limit);
      if fr.aborted.Some? {
        assert StoppedAt(markFirst, b.output, sel, r, 0);
      } else {
        RunFilesStopsLater(markFirst, cacheHop, b, sel, files, net, limit);
      }
    }
  }

  /** An aborted run whose first file completed stopped one place later than
      the run over the rest of the selection. */
  lemma {:induction false} RunFilesStopsLater(markFirst: bool, cacheHop: bool, b: Batch, sel: seq<string>,
                                              files: string -> seq<Line>, net: string -> Trace, limit: nat)
    requires b.failed.None?
    requires forall n :: n in sel ==> n !in b.done
    requires Distinct(sel)
    requires |sel| > 0 && FixJs(cacheHop, b.cache, files(sel[0]), net, limit).aborted.None?
    ensures var r := RunFiles(markFirst, cacheHop, b, sel, files, net, limit);
            r.failed.Some? ==> exists k :: StoppedAt(markFirst, b.output, sel, r, k)
    decreases |sel|, 0
  {
    var r := RunFiles(markFirst, cacheHop, b, sel, files, net, limit);
    var fr := FixJs(cacheHop, b.cache, files(sel[0]), net, limit);
    RunFilesNext(markFirst, cacheHop, b, sel, files, net, limit);
    var b1 := Completed(b, sel[0], fr);
    var tail := sel[1..];
    RunFilesStops(markFirst, cacheHop, b1, tail, files, net, limit);
    if r.failed.Some? {
      var k :| StoppedAt(markFirst, b1.output, tail, r, k);
      forall j | k + 1 < j < |sel|
        ensures sel[j] !in r.done && Untouched(b.output, r.output, sel[j])
      {
        assert sel[j] == tail[j - 1];
      }
      forall j | 0 <= j < k + 1
        ensures sel[j] in r.done
      {
        if j > 0 { assert sel[j] == tail[j - 1]; }
      }
      assert sel[k + 1] == tail[k];
      assert StoppedAt(markFirst, b.output, sel, r, k + 1);
    }
  }

  /** What a recorded file's output holds: its prior contents followed by
      `fix_js` of the file under the cache that the files before it left. An
      aborted file recorded by the as-written run holds the lines repaired
      before it stopped. */
  lemma {:induction false} RunFilesOutputAt(markFirst: bool, cacheHop: bool, b: Batch, sel: seq<string>,
                                            files: string -> seq<Line>, net: string -> Trace, limit: nat, k: nat)
    requires b.failed.None?
    requires forall n :: n in sel ==> n !in b.done
    requires Distinct(sel)
    requires k < |sel|
    ensures var r := RunFiles(markFirst, cacheHop, b, sel, files, net, limit);
            sel[k] in r.done ==>
              var before := RunFiles(markFirst, cacheHop, b, sel[..k], files, net, limit);
              && before.failed.None?
              && sel[k] in r.output
              && r.output[sel[k]] == Prior(b.output, sel[k]) + FixJs(cacheHop, before.cache, files(sel[k]), net, limit).written
    decreases |sel|
  {
    if k == 0 {
      assert sel[..0] == [];
      RunFilesOutputFirst(markFirst, cacheHop, b, sel, files, net, limit);
    } else {
      var r := RunFiles(markFirst, cacheHop, b, sel, files, net, limit);
      var fr := FixJs(cacheHop, b.cache, files(sel[0]), net, limit);
      if fr.aborted.None? && sel[k] in r.done {
        RunFilesNext(markFirst, cacheHop, b, sel, files, net, limit);
        var b1 := Completed(b, sel[0], fr);
        var tail := sel[1..];
        RunFilesOutputAt(markFirst, cacheHop, b1, tail, files, net, limit, k - 1);
        assert sel[k] == tail[k - 1] && sel[k] != sel[0];
        RunFilesPrefixNext(markFirst, cacheHop, b, sel, files, net, limit, k);
      }
    }
  }

  /** After a first file repaired in full, a run over a prefix of the
      selection goes on with the rest of that prefix. */
  lemma RunFilesPrefixNext(markFirst: bool, cacheHop: bool, b: Batch, sel: seq<string>, files: string -> seq<Line>,
                           net: string -> Trace, limit: nat, k: nat)
    requires b.failed.None?
    requires forall n :: n in sel ==> n !in b.done
    requires Distinct(sel)
    requires 1 <= k <= |sel| && FixJs(cacheHop, b.cache, files(sel[0]), net, limit).aborted.None?
    ensures var b1 := Completed(b, sel[0], FixJs(cacheHop, b.cache, files(sel[0]), net, limit));
            && Distinct(sel[..k]) && Distinct(sel[1..][..k - 1])
            && (forall n :: n in sel[1..][..k - 1] ==> n !in b1.done)
            && RunFiles(markFirst, cacheHop, b, sel[..k], files, net, limit)
               == RunFiles(markFirst, cacheHop, b1, sel[1..][..k - 1], files, net, limit)
  {
    var pre := sel[..k];
    assert pre[0] == sel[0];
    assert pre[1..] == sel[1..][..k - 1];
    RunFilesNext(markFirst, cacheHop, b, pre, files, net, limit);
  }

  /** The first selected file's output, when recorded. */
  lemma RunFilesOutputFirst(markFirst: bool, cacheHop: bool, b: Batch, sel: seq<string>,
                            files: string -> seq<Line>, net: string -> Trace, limit: nat)
    requires b.failed.None?
    requires forall n :: n in sel ==> n !in b.done
    requires Distinct(sel)
    requires |sel| > 0
    ensures var r := RunFiles(markFirst, cacheHop, b, sel, files, net, limit);
            sel[0] in r.done ==>
              && sel[0] in r.output
              && r.output[sel[0]] == Prior(b.output, sel[0]) + FixJs(cacheHop, b.cache, files(sel[0]), net, limit).written
  {
    var fr := FixJs(cacheHop, b.cache, files(sel[0]), net, limit);
    if fr.aborted.None? {
      RunFilesNext(markFirst, cacheHop, b, sel, files, net, limit);
      RunFilesOutside(markFirst, cacheHop, Completed(b, sel[0], fr), sel[1..], files, net, limit);
    }
  }

  lemma RunFilesOutput(markFirst: bool, cacheHop: bool, b: Batch, sel: seq<string>,
                       files: string -> seq<Line>, net: string -> Trace, limit: nat)
    requires b.failed.None?
    requires forall n :: n in sel ==> n !in b.done
    requires Distinct(sel)
    ensures var r := RunFiles(markFirst, cacheHop, b, sel, files, net, limit);
            forall k :: 0 <= k < |sel| && sel[k] in r.done ==>
              var before := RunFiles(markFirst, cacheHop, b, sel[..k], files, net, limit);
              && before.failed.None?
              && sel[k] in r.output
              && r.output[sel[k]] == Prior(b.output, sel[k]) + FixJs(cacheHop, before.cache, files(sel[k]), net, limit).written
  {
    forall k | 0 <= k < |sel|
      ensures var r := RunFiles(markFirst, cacheHop, b, sel, files, net, limit);
              sel[k] in r.done ==>
                var before := RunFiles(markFirst, cacheHop, b, sel[..k], files, net, limit);
                && before.failed.None?
                && sel[k] in r.output
                && r.output[sel[k]] == Prior(b.output, sel[k]) + FixJs(cacheHop, before.cache, files(sel[k]), net, limit).written
    {
      RunFilesOutputAt(markFirst, cacheHop, b, sel, files, net, limit, k);
    }
  }

  /** `fix_all` as written: files of the input directory that match the name
      pattern and are not yet in the output directory are repaired in
      order, through `resolve_redirects` as written. Because the output file
      is opened before its first line, a file aborted by a lost connection or
      an undecodable line is already present, so a later run skips it with
      its output incomplete. */
  function FixAllAsWritten(names: seq<string>, done: set<string>, files: string -> seq<Line>,
                           cache: Cache, net: string -> Trace, limit: nat): (r: Batch)
    requires Distinct(names)
    ensures r.failed.None? ==> r.done == done + set n | n in names && FilIsValid(n, done)
    ensures r.failed.Some? ==> r.failed.value.file in names && FilIsValid(r.failed.value.file, done)
    ensures r.failed.Some? ==> r.failed.value.file !in SelectFiles(names, r.done)
    ensures r == RunFiles(true, false, Batch(done, map[], cache, None), SelectFiles(names, done), files, net, limit)
  {
    var sel := SelectFiles(names, done);
    RunFiles(true, false, Batch(done, map[], cache, None), sel, files, net, limit)
  }

  /** `fix_all` with both corrections: the output name is recorded only once
      its file is complete, so an aborted file is selected again by the next
      run, and an accepted redirect hop is cached. */
  function FixAll(names: seq<string>, done: set<string>, files: string -> seq<Line>,
                  cache: Cache, net: string -> Trace, limit: nat): (r: Batch)
    requires Distinct(names)
    ensures r.failed.None? ==> r.done == done + set n | n in names && FilIsValid(n, done)
    ensures r.failed.Some? ==> r.failed.value.file in SelectFiles(names, r.done)
    ensures forall n :: n in r.done - done ==> n in names && FilIsValid(n, done)
  {
    var sel := SelectFiles(names, done);
    RunFiles(false, true, Batch(done, map[], cache, None), sel, files, net, limit)
  }

  /** A single file holding one line that is not JSON: the as-written run
      records it as done, so the rerun selects nothing, while the corrected
      run selects it again. */
  lemma AbortedFileSkipped(files: string -> seq<Line>, cache: Cache, net: string -> Trace, limit: nat)
    requires files("a.json") == [Line("{", Undecodable)]
    ensures var r := FixAllAsWritten(["a.json"], {}, files, cache, net, limit);
            r.failed == Some(Failure("a.json", NotJson)) && SelectFiles(["a.json"], r.done) == []
    ensures var r := FixAll(["a.json"], {}, files, cache, net, limit);
            r.failed == Some(Failure("a.json", NotJson)) && SelectFiles(["a.json"], r.done) == ["a.json"]
  {
    assert MatchesJsonName("a.json") by {
      assert IsWordChar('a');
      assert ".json" <= "a.json"[1..];
    }
  }
}

=== FILE: freq_splitter.dfy ===
/** `split_text` of feature_extraction/freq_splitter.py: the split of a
    hashtag into known words whose product of frequencies is largest,
    memoised in a cache shared across the recursion. `Best` is the same
    search without the cache, the reference the memoised version is proved
    to agree with. */
module FreqSplitter {
  import opened Text

  /** Word frequencies; a word that is absent counts as 0, as
      `word_frequencies.get(word, None)` is false either way. */
  type Freqs = map<string, int>

  function Freq(freqs: Freqs, w: string): int {
    if w in freqs then freqs[w] else 0
  }

  /** A result: the best frequency product and the split achieving it. */
  type Split = (int, seq<string>)

  /** The cache of results, keyed by text. */
  type Cache = map<string, Split>

  /** The candidate whose first word is `text[..i]`: its frequency times the
      best product of the remainder, and the split. */
  function Cand(text: string, freqs: Freqs, i: nat): Split
    requires 1 <= i <= |text|
    decreases |text|, 0
  {
    var sub := Best(text[i..], freqs);
    (Freq(freqs, text[..i]) * sub.0, [text[..i]] + sub.1)
  }

  /** `split_text` without the cache: `(1, [])` for the empty text, else the
      first candidate, by increasing first-word length, whose product beats
      every earlier one, starting from `(0, [])`. */
  function Best(text: string, freqs: Freqs): (r: Split)
    ensures |text| == 0 ==> r == (1, [])
    ensures |text| > 0 ==> r.0 >= 0
    ensures |text| > 0 && r.0 == 0 ==> r == (0, [])
    decreases |text|, 5
  {
    if |text| == 0 then (1, []) else BestFrom(text, freqs, 1, (0, []))
  }

  /** Iterations `i .. len(text)` of the loop, with `best` the pair so far. */
  function BestFrom(text: string, freqs: Freqs, i: nat, best: Split): (r: Split)
    requires 1 <= i
    ensures r.0 >= best.0
    ensures forall j :: i <= j <= |text| && Freq(freqs, text[..j]) != 0 ==> Cand(text, freqs, j).0 <= r.0
    ensures r == best || (r.0 > best.0 && Chosen(text, freqs, i, r))
    decreases |text|, 4, |text| + 1 - i
  {
    if i > |text| then best
    else
      var f := Freq(freqs, text[..i]);
      var next := if f != 0 && Cand(text, freqs, i).0 > best.0 then Cand(text, freqs, i) else best;
      var r := BestFrom(text, freqs, i + 1, next);
      if r != next then ChosenExtend(text, freqs, i, r); r
      else if r != best then ChosenHere(text, freqs, i); r
      else r
  }

  lemma ChosenHere(text: string, freqs: Freqs, i: nat)
    requires 1 <= i <= |text| && Freq(freqs, text[..i]) != 0
    ensures Chosen(text, freqs, i, Cand(text, freqs, i))
    decreases |text|, 3
  {
    assert ChosenAt(text, freqs, i, i, Cand(text, freqs, i));
  }

  lemma ChosenExtend(text: string, freqs: Freqs, i: nat, r: Split)
    requires 1 <= i <= |text|
    requires Chosen(text, freqs, i + 1, r)
    requires Freq(freqs, text[..i]) != 0 ==> Cand(text, freqs, i).0 < r.0
    ensures Chosen(text, freqs, i, r)
    decreases |text|, 3
  {
    var j :| i + 1 <= j <= |text| && ChosenAt(text, freqs, i + 1, j, r);
    assert ChosenAt(text, freqs, i, j, r);
  }

  /** `r` is the candidate of some first-word length `j >= i`, and every
      shorter candidate from `i` on is strictly worse. */
  ghost predicate Chosen(text: string, freqs: Freqs, i: nat, r: Split)
    requires 1 <= i
    decreases |text|, 2
  {
    exists j :: i <= j <= |text| && ChosenAt(text, freqs, i, j, r)
  }

  /** `r` is the candidate of first-word length `j`, and every candidate
      from `i` up to `j` is strictly worse. */
  ghost predicate ChosenAt(text: string, freqs: Freqs, i: nat, j: nat, r: Split)
    requires 1 <= i <= j <= |text|
    decreases |text|, 1
  {
    && Freq(freqs, text[..j]) != 0
    && r == Cand(text, freqs, j)
    && forall k :: i <= k < j && Freq(freqs, text[..k]) != 0 ==> Cand(text, freqs, k).0 < r.0
  }

  /** Every cached entry is the uncached answer for its text. */
  ghost predicate Sound(cache: Cache, freqs: Freqs) {
    forall k :: k in cache ==> cache[k] == Best(k, freqs)
  }

  /** `split_text`, threading the cache: a cached text is answered from the
      cache, the empty text gives `(1, [])` without being cached, and any
      other text is searched and its answer cached. */
  function SplitText(text: string, freqs: Freqs, cache: Cache): (r: (Split, Cache))
    requires Sound(cache, freqs)
    ensures r.0 == Best(text, freqs)
    ensures Sound(r.1, freqs)
    ensures cache.Keys <= r.1.Keys
    ensures |text| > 0 ==> text in r.1 && r.1[text] == r.0
    ensures |text| == 0 && text !in cache ==> r.1 == cache
    decreases |text|, 1
  {
    if text in cache then (cache[text], cache)
    else if |text| == 0 then ((1, []), cache)
    else
      var res := Loop(text, freqs, cache, 1, (0, []));
      (res.0, res.1[text := res.0])
  }

  /** Iterations `i .. len(text)` of the loop in `split_text`. */
  function Loop(text: string, freqs: Freqs, cache: Cache, i: nat, best: Split): (r: (Split, Cache))
    requires 1 <= i
    requires Sound(cache, freqs)
    ensures r.0 == BestFrom(text, freqs, i, best)
    ensures Sound(r.1, freqs)
    ensures cache.Keys <= r.1.Keys
    decreases |text|, 0, |text| + 1 - i
  {
    if i > |text| then (best, cache)
    else if Freq(freqs, text[..i]) != 0 then
      var sub := SplitText(text[i..], freqs, cache);
      var cand := (Freq(freqs, text[..i]) * sub.0.0, [text[..i]] + sub.0.1);
      Loop(text, freqs, sub.1, i + 1, if cand.0 > best.0 then cand else best)
    else
      Loop(text, freqs, cache, i + 1, best)
  }

  /** The product of the frequencies of the pieces. */
  function Product(pieces: seq<string>, freqs: Freqs): int {
    if |pieces| == 0 then 1 else Freq(freqs, pieces[0]) * Product(pieces[1..], freqs)
  }

  /** `pieces` concatenate to `text`, and each is a non-empty word with a
      non-zero frequency. */
  predicate KnownSplit(pieces: seq<string>, text: string, freqs: Freqs) {
    && Concat(pieces) == text
    && forall k :: 0 <= k < |pieces| ==> |pieces[k]| > 0 && Freq(freqs, pieces[k]) != 0
  }

  /** Every listed frequency is positive, as counts of a corpus are. */
  predicate Positive(freqs: Freqs) {
    forall w :: w in freqs ==> freqs[w] > 0
  }

  lemma {:induction false} ProductPositive(pieces: seq<string>, freqs: Freqs)
    requires Positive(freqs)
    requires forall k :: 0 <= k < |pieces| ==> Freq(freqs, pieces[k]) != 0
    ensures Product(pieces, freqs) > 0
  {
    if |pieces| > 0 {
      ProductPositive(pieces[1..], freqs);
    }
  }

  /** The reported split is a split into known words whose product is the
      reported frequency. */
  lemma {:induction false} BestSound(text: string, freqs: Freqs)
    requires Positive(freqs)
    ensures Best(text, freqs).0 > 0 ==>
              KnownSplit(Best(text, freqs).1, text, freqs) && Product(Best(text, freqs).1, freqs) == Best(text, freqs).0
    decreases |text|
  {
    var r := Best(text, freqs);
    if |text| > 0 && r.0 > 0 {
      assert r == BestFrom(text, freqs, 1, (0, []));
      assert Chosen(text, freqs, 1, r);
      var j :| 1 <= j <= |text| && ChosenAt(text, freqs, 1, j, r);
      var sub := Best(text[j..], freqs);
      var w := text[..j];
      assert r == (Freq(freqs, w) * sub.0, [w] + sub.1);
      assert Freq(freqs, w) > 0;
      assert sub.0 > 0;
      BestSound(text[j..], freqs);
      assert ([w] + sub.1)[1..] == sub.1;
      assert w + text[j..] == text;
    }
  }

  /** A split starting with the word `text[..j]` scores at most the candidate
      for `j`. */
  lemma {:induction false} ProductBelowCand(text: string, freqs: Freqs, pieces: seq<string>)
    requires Positive(freqs)
    requires KnownSplit(pieces, text, freqs) && |pieces| > 0
    ensures 1 <= |pieces[0]| <= |text| && pieces[0] == text[..|pieces[0]|]
    ensures Product(pieces, freqs) <= Cand(text, freqs, |pieces[0]|).0
    decreases |text|, 0
  {
    var j := |pieces[0]|;
    assert text == pieces[0] + Concat(pieces[1..]);
    assert text[..j] == pieces[0] && text[j..] == Concat(pieces[1..]);
    assert KnownSplit(pieces[1..], text[j..], freqs) by {
      forall k | 0 <= k < |pieces[1..]|
        ensures |pieces[1..][k]| > 0 && Freq(freqs, pieces[1..][k]) != 0
      {
        assert pieces[1..][k] == pieces[k + 1];
      }
    }
    BestOptimal(text[j..], freqs, pieces[1..]);
    var f := Freq(freqs, pieces[0]);
    assert f > 0;
    MulMono(f, Product(pieces[1..], freqs), Best(text[j..], freqs).0);
  }

  lemma MulMono(a: int, x: int, y: int)
    requires a > 0 && x <= y
    ensures a * x <= a * y
  {
    assert a * y - a * x == a * (y - x);
  }

  /** No split into known words scores more than the reported one. */
  lemma {:induction false} BestOptimal(text: string, freqs: Freqs, pieces: seq<string>)
    requires Positive(freqs)
    requires KnownSplit(pieces, text, freqs)
    ensures Product(pieces, freqs) <= Best(text, freqs).0
    decreases |text|, 1
  {
    if |pieces| > 0 {
      ProductBelowCand(text, freqs, pieces);
    }
  }

  /** The search reports a zero frequency exactly when the text has no split
      into known words. */
  lemma NoSplitIffZero(text: string, freqs: Freqs)
    requires Positive(freqs)
    ensures Best(text, freqs).0 == 0 <==> !exists pieces :: KnownSplit(pieces, text, freqs)
  {
    if pieces :| KnownSplit(pieces, text, freqs) {
      BestOptimal(text, freqs, pieces);
      ProductPositive(pieces, freqs);
    }
    BestSound(text, freqs);
  }

  /** Ties go to the shortest first word: every split whose first word is
      shorter than the reported one scores strictly less. */
  lemma {:induction false} ShorterFirstWordScoresLess(text: string, freqs: Freqs, pieces: seq<string>)
    requires Positive(freqs)
    requires KnownSplit(pieces, text, freqs) && |text| > 0
    ensures |pieces| > 0 && |Best(text, freqs).1| > 0
    ensures |pieces[0]| < |Best(text, freqs).1[0]| ==> Product(pieces, freqs) < Best(text, freqs).0
  {
    var r := Best(text, freqs);
    assert |pieces| > 0;
    BestOptimal(text, freqs, pieces);
    ProductPositive(pieces, freqs);
    assert r == BestFrom(text, freqs, 1, (0, []));
    assert Chosen(text, freqs, 1, r);
    var j :| 1 <= j <= |text| && ChosenAt(text, freqs, 1, j, r);
    assert r.1 == [text[..j]] + Best(text[j..], freqs).1;
    ProductBelowCand(text, freqs, pieces);
  }
}

=== FILE: get_baseline.dfy ===
/** `get_coocurrences` and the hashtag filter of get_baseline.py. The input
    sets are mutable objects shared between the input list and the list
    being built, so the model keeps the objects' contents in one sequence
    and the built list as indices into it. */
module GetBaseline {
  import opened Wrappers

  type TagSet = set<string>

  /** `set(hashtags)`. */
  function AsSet(tags: seq<string>): (r: TagSet)
    ensures forall t :: t in r <==> t in tags
  {
    set t | t in tags
  }

  /** `len(None)` in the filter. */
  datatype HashtagError = NoHashtagList

  /** `get_hashtags` over the master vectors' "hashtags" lists (None when the
      key is missing): the set of every list with more than two entries, in
      order. */
  function GetHashtags(lists: seq<Option<seq<string>>>): (r: Result<seq<TagSet>, HashtagError>)
    ensures r.Err? <==> exists i :: 0 <= i < |lists| && lists[i].None?
    ensures r.Ok? ==> forall i :: 0 <= i < |lists| && |lists[i].value| > 2 ==> AsSet(lists[i].value) in r.value
    ensures r.Ok? ==> forall s :: s in r.value ==> exists i :: 0 <= i < |lists| && |lists[i].value| > 2 && s == AsSet(lists[i].value)
    ensures r.Ok? ==> forall s :: s in r.value ==> |s| > 0
  {
    if |lists| == 0 then Ok([])
    else
      match lists[0]
      case None => Err(NoHashtagList)
      case Some(tags) =>
        var rest := GetHashtags(lists[1..]);
        if rest.Err? then rest
        else
          assert forall i :: 1 <= i < |lists| ==> lists[1..][i - 1] == lists[i];
          if |tags| > 2 then
            assert tags[0] in AsSet(tags);
            Ok([AsSet(tags)] + rest.value)
          else rest
  }

  /** The inner loop for object `i` from position `j` on: whenever object
      `i` is a subset of object `j` at that moment, it takes in its
      elements. */
  function Absorb(objs: seq<TagSet>, i: nat, j: nat): (r: seq<TagSet>)
    requires i < |objs| && j <= |objs|
    ensures |r| == |objs|
    ensures forall k :: 0 <= k < |objs| && k != i ==> r[k] == objs[k]
    ensures objs[i] <= r[i]
    ensures j < |objs| && objs[i] <= objs[j] ==> objs[j] <= r[i]
    ensures r[i] == objs[i] || exists k :: j <= k < |objs| && k != i && r[i] == objs[k] && objs[i] <= objs[k]
    decreases |objs| - j
  {
    if j == |objs| then objs
    else
      var next := if objs[i] <= objs[j] then objs[i := objs[i] + objs[j]] else objs;
      assert objs[i] <= objs[j] ==> next[i] == objs[j];
      Absorb(next, i, j + 1)
  }

  /** Comparing an object with itself changes nothing. */
  lemma SelfComparisonNoOp(objs: seq<TagSet>, i: nat)
    requires i < |objs|
    ensures Absorb(objs, i, i) == Absorb(objs, i, i + 1)
  {
    assert objs[i] + objs[i] == objs[i];
    assert objs[i := objs[i]] == objs;
  }

  /** The outer loop from object `i` on; `built` is `tag_sets`, as object
      indices. */
  function Outer(objs: seq<TagSet>, i: nat, built: seq<nat>): (r: (seq<TagSet>, seq<nat>))
    requires i <= |objs|
    ensures |r.0| == |objs|
    ensures forall k :: 0 <= k < |objs| ==> objs[k] <= r.0[k]
    ensures forall k :: 0 <= k < i ==> r.0[k] == objs[k]
    ensures r.1 == built + Range(i, |objs|)
    decreases |objs| - i
  {
    if i == |objs| then
      assert Range(i, |objs|) == [];
      (objs, built)
    else
      var objs' := Absorb(objs, i, 0);
      var r := Outer(objs', i + 1, built + [i]);
      assert Range(i, |objs|) == [i] + Range(i + 1, |objs|);
      r
  }

  /** `[lo, lo + 1, .., hi - 1]`. */
  function Range(lo: nat, hi: nat): (r: seq<nat>)
    ensures |r| == if lo <= hi then hi - lo else 0
    ensures forall k :: 0 <= k < |r| ==> r[k] == lo + k
    decreases hi - lo
  {
    if lo >= hi then [] else [lo] + Range(lo + 1, hi)
  }

  /** The final comprehension: the objects of `built` whose contents are not
      those of any object of `built`. */
  function KeepAbsent(objs: seq<TagSet>, built: seq<nat>, from: seq<nat>): (r: seq<TagSet>)
    requires forall k :: 0 <= k < |built| ==> built[k] < |objs|
    requires forall k :: 0 <= k < |from| ==> from[k] < |objs|
  {
    if |from| == 0 then []
    else
      var s := objs[from[0]];
      var rest := KeepAbsent(objs, built, from[1..]);
      if exists k :: 0 <= k < |built| && objs[built[k]] == s then rest else [s] + rest
  }

  /** What `get_coocurrences` leaves behind: its result, the merged contents
      of the input objects, and `tag_sets` before the filter. */
  datatype Run = Run(result: seq<TagSet>, objects: seq<TagSet>, tagSets: seq<nat>)

  function GetCoocurrences(lists: seq<TagSet>): (r: Run)
    ensures |r.objects| == |lists| && |r.tagSets| == |lists|
    ensures forall k :: 0 <= k < |lists| ==> r.tagSets[k] == k
    ensures forall k :: 0 <= k < |lists| ==> lists[k] <= r.objects[k]
  {
    var (objs, built) := Outer(lists, 0, []);
    Run(KeepAbsent(objs, built, built), objs, built)
  }

  /** Every object the comprehension looks at is in the list it looks in,
      so nothing is kept. */
  lemma {:induction false} KeepAbsentOfSelf(objs: seq<TagSet>, built: seq<nat>, from: seq<nat>)
    requires forall k :: 0 <= k < |built| ==> built[k] < |objs|
    requires forall k :: 0 <= k < |from| ==> from[k] in built
    ensures KeepAbsent(objs, built, from) == []
  {
    if |from| > 0 {
      var k :| 0 <= k < |built| && built[k] == from[0];
      assert objs[built[k]] == objs[from[0]];
      KeepAbsentOfSelf(objs, built, from[1..]);
    }
  }

  /** `get_coocurrences` always returns the empty list. */
  lemma CoocurrencesAlwaysEmpty(lists: seq<TagSet>)
    ensures GetCoocurrences(lists).result == []
  {
    var r := GetCoocurrences(lists);
    KeepAbsentOfSelf(r.objects, r.tagSets, r.tagSets);
  }

  /** The merged sets with each distinct content kept once, at its first
      position. */
  function Distinct(objs: seq<TagSet>, from: seq<nat>, seen: seq<TagSet>): (r: seq<TagSet>)
    requires forall k :: 0 <= k < |from| ==> from[k] < |objs|
    ensures forall a, b :: 0 <= a < b < |r| ==> r[a] != r[b]
    ensures forall a :: 0 <= a < |r| ==> r[a] !in seen
    ensures forall k :: 0 <= k < |from| && objs[from[k]] !in seen ==> objs[from[k]] in r
    ensures forall s :: s in r ==> exists k :: 0 <= k < |from| && objs[from[k]] == s
  {
    if |from| == 0 then []
    else
      var s := objs[from[0]];
      if s in seen then
        var r := Distinct(objs, from[1..], seen);
        assert forall k :: 1 <= k < |from| ==> from[1..][k - 1] == from[k];
        r
      else
        var rest := Distinct(objs, from[1..], seen + [s]);
        assert forall k :: 1 <= k < |from| ==> from[1..][k - 1] == from[k];
        [s] + rest
  }

  /** `get_coocurrences` with the filter keeping each distinct merged set
      once. */
  function GetCoocurrencesDistinct(lists: seq<TagSet>): (r: seq<TagSet>)
    ensures forall a, b :: 0 <= a < b < |r| ==> r[a] != r[b]
    ensures forall k :: 0 <= k < |lists| ==> GetCoocurrences(lists).objects[k] in r
    ensures forall s :: s in r ==> exists k :: 0 <= k < |lists| && GetCoocurrences(lists).objects[k] == s
  {
    var run := GetCoocurrences(lists);
    RunCovered(lists);
    Distinct(run.objects, run.tagSets, [])
  }

  lemma RunCovered(lists: seq<TagSet>)
    ensures var run := GetCoocurrences(lists);
      forall k :: 0 <= k < |lists| ==> run.objects[k] in Distinct(run.objects, run.tagSets, [])
  {
    var run := GetCoocurrences(lists);
    DistinctCovers(run.objects, run.tagSets);
    forall k | 0 <= k < |lists| ensures run.objects[k] in Distinct(run.objects, run.tagSets, []) {
      assert run.objects[run.tagSets[k]] == run.objects[k];
    }
  }

  lemma DistinctCovers(objs: seq<TagSet>, from: seq<nat>)
    requires forall k :: 0 <= k < |from| ==> from[k] < |objs|
    ensures forall k :: 0 <= k < |from| ==> objs[from[k]] in Distinct(objs, from, [])
  {
    forall k | 0 <= k < |from| ensures objs[from[k]] in Distinct(objs, from, []) {
      assert objs[from[k]] !in [];
    }
  }
}

=== FILE: resolver.dfy ===
/** `resolve_redirects` (fix_urls.py): the cache-first redirect resolver.
    The network is a scripted trace: the outcome of the primary HEAD request,
    the responses the redirect generator would yield, how the generator ends,
    and whether the router probe answers. The hop limit of the HTTP library
    is a parameter. The cache is a map; an empty cached value is a miss. */
module Resolver {
  import opened Wrappers
  import opened Text

  type Cache = map<string, string>

  /** One HTTP response: status code, final URL and the `location` header. */
  datatype Response = Response(status: int, url: string, location: Option<string>)

  /** How the redirect generator stops once the scripted hops run out below
      the limit: the chain simply ends, or the next request fails in transport. */
  datatype ChainEnd = ChainEnds | ChainTransportError

  /** The network's behaviour for one resolution. `primary == None` is a
      transport failure (DNS, refused connection, timeout) of the HEAD request. */
  datatype Trace = Trace(primary: Option<Response>, hops: seq<Response>, chainEnd: ChainEnd, routerUp: bool)

  /** Where the re-raised transport error came from. */
  datatype Stage = AtPrimary | InChain

  /** The URL returned, or the transport error re-raised when the router probe
      also failed. */
  datatype Outcome = Resolved(url: string) | Fatal(stage: Stage)

  datatype Resolution = Resolution(outcome: Outcome, cache: Cache, usedNetwork: bool)

  /** Python truthiness of `CONN.get(url)`: present and non-empty. */
  predicate CachedHit(cache: Cache, url: string) {
    url in cache && cache[url] != ""
  }

  /** A hop is taken as the destination when it is a 200 whose URL contains
      "http" and not "domainnotfound". */
  predicate Accepted(h: Response) {
    h.status == 200 && !Contains(h.url, "domainnotfound") && Contains(h.url, "http")
  }

  /** The primary response carries a truthy `location` header. */
  predicate IsRedirect(r: Response) {
    r.location.Some? && r.location.value != ""
  }

  /** The responses the redirect generator yields under a hop limit. */
  function Yielded(hops: seq<Response>, limit: nat): (ys: seq<Response>)
    ensures ys <= hops && |ys| <= limit
    ensures |hops| <= limit ==> ys == hops
  {
    if |hops| <= limit then hops else hops[..limit]
  }

  /** The generator raises TooManyRedirects: more hops than the limit allows. */
  predicate OverLimit(hops: seq<Response>, limit: nat) {
    |hops| > limit
  }

  /** Index of the first accepted hop, if any. */
  function FirstAccepted(hops: seq<Response>): (i: Option<nat>)
    ensures i.Some? ==> i.value < |hops| && Accepted(hops[i.value])
                        && forall j :: 0 <= j < i.value ==> !Accepted(hops[j])
    ensures i.None? ==> forall j :: 0 <= j < |hops| ==> !Accepted(hops[j])
  {
    if |hops| == 0 then None
    else if Accepted(hops[0]) then Some(0)
    else match FirstAccepted(hops[1..])
      case None => None
      case Some(k) => Some(k + 1)
  }

  /** The URL of the last yielded hop, or `url` when none was yielded (`tmp_url`). */
  function LastUrl(ys: seq<Response>, url: string): string {
    if |ys| == 0 then url else ys[|ys| - 1].url
  }

  /** The `location` header of the last response seen (`redir`), which is the
      primary response when no hop was yielded. */
  function LastLocation(ys: seq<Response>, primary: Response): Option<string> {
    if |ys| == 0 then primary.location else ys[|ys| - 1].location
  }

  /** The `for redir in session.resolve_redirects(...)` loop and its handlers,
      over the hops still to be yielded; `tmp` is `tmp_url` and `redirLoc` the
      `location` header of the last response seen. `writeOnAccept` selects
      whether an accepted hop is also cached. */
  function Chain(writeOnAccept: bool, cache: Cache, url: string, hops: seq<Response>,
                 overLimit: bool, end: ChainEnd, routerUp: bool,
                 tmp: string, redirLoc: Option<string>): (r: (Outcome, Cache))
    ensures FirstAccepted(hops).Some? ==>
              var h := hops[FirstAccepted(hops).value];
              r == (Resolved(h.url), if writeOnAccept then cache[url := h.url] else cache)
    ensures FirstAccepted(hops).None? && (overLimit || end == ChainEnds) ==>
              var last := if |hops| == 0 then tmp else hops[|hops| - 1].url;
              r == (Resolved(last), cache[url := last])
    ensures FirstAccepted(hops).None? && !overLimit && end == ChainTransportError ==>
              var last := if |hops| == 0 then tmp else hops[|hops| - 1].url;
              var loc := if |hops| == 0 then redirLoc else hops[|hops| - 1].location;
              r == if routerUp then (Resolved(loc.GetOr(last)), cache[url := loc.GetOr(last)])
                   else (Fatal(InChain), cache)
    decreases |hops|
  {
    if |hops| == 0 then
      if overLimit then (Resolved(tmp), cache[url := tmp])
      else match end
        case ChainEnds => (Resolved(tmp), cache[url := tmp])
        case ChainTransportError =>
          if routerUp then
            var endUrl := redirLoc.GetOr(tmp);
            (Resolved(endUrl), cache[url := endUrl])
          else
            (Fatal(InChain), cache)
    else
      var h := hops[0];
      if Accepted(h) then
        (Resolved(h.url), if writeOnAccept then cache[url := h.url] else cache)
      else
        Chain(writeOnAccept, cache, url, hops[1..], overLimit, end, routerUp, h.url, h.location)
  }

  /** The resolver body shared by the as-written and the caching reading. */
  function Resolve(writeOnAccept: bool, cache: Cache, url: string, net: Trace, limit: nat): Resolution {
    if CachedHit(cache, url) then
      Resolution(Resolved(cache[url]), cache, false)
    else match net.primary
      case None =>
        if net.routerUp then Resolution(Resolved(url), cache[url := url], true)
        else Resolution(Fatal(AtPrimary), cache, true)
      case Some(r) =>
        if !IsRedirect(r) then
          Resolution(Resolved(url), cache[url := url], true)
        else
          var ys := Yielded(net.hops, limit);
          var (o, c) := Chain(writeOnAccept, cache, url, ys, OverLimit(net.hops, limit),
                              net.chainEnd, net.routerUp, url, r.location);
          Resolution(o, c, true)
  }

  /** The outcome every reading agrees on, stated from the trace alone. */
  predicate CommonContract(writeOnAccept: bool, cache: Cache, url: string, net: Trace, limit: nat, r: Resolution) {
    // a truthy cached value is returned as is, with no request and no write
    && (CachedHit(cache, url) ==> r == Resolution(Resolved(cache[url]), cache, false))
    && (!CachedHit(cache, url) ==> r.usedNetwork)
    // primary transport failure: probe up caches url -> url, probe down re-raises
    && (!CachedHit(cache, url) && net.primary.None? ==>
          r == if net.routerUp then Resolution(Resolved(url), cache[url := url], true)
               else Resolution(Fatal(AtPrimary), cache, true))
    // no redirect: url is canonical
    && (!CachedHit(cache, url) && net.primary.Some? && !IsRedirect(net.primary.value) ==>
          r == Resolution(Resolved(url), cache[url := url], true))
    && (!CachedHit(cache, url) && net.primary.Some? && IsRedirect(net.primary.value) ==>
          var ys := Yielded(net.hops, limit);
          // the first accepted hop is the answer
          && (FirstAccepted(ys).Some? ==>
                var h := ys[FirstAccepted(ys).value];
                r == Resolution(Resolved(h.url), if writeOnAccept then cache[url := h.url] else cache, true))
          // no accepted hop, chain ended or TooManyRedirects: last URL seen
          && (FirstAccepted(ys).None? && (OverLimit(net.hops, limit) || net.chainEnd == ChainEnds) ==>
                r == Resolution(Resolved(LastUrl(ys, url)), cache[url := LastUrl(ys, url)], true))
          // transport failure mid-chain: probe decides between fallback and re-raise
          && (FirstAccepted(ys).None? && !OverLimit(net.hops, limit) && net.chainEnd == ChainTransportError ==>
                var fallback := LastLocation(ys, net.primary.value).GetOr(LastUrl(ys, url));
                r == if net.routerUp then Resolution(Resolved(fallback), cache[url := fallback], true)
                     else Resolution(Fatal(InChain), cache, true)))
    // only the key `url` is ever written, and nothing on the fatal path
    && (r.outcome.Fatal? ==> r.cache == cache)
    && (r.outcome.Resolved? ==> r.cache == cache || r.cache == cache[url := r.outcome.url])
  }

  /** `resolve_redirects` as written: an accepted hop is returned without
      being cached. */
  function ResolveRedirects(cache: Cache, url: string, net: Trace, limit: nat): (r: Resolution)
    ensures CommonContract(false, cache, url, net, limit, r)
  {
    ResolveMeetsContract(false, cache, url, net, limit);
    Resolve(false, cache, url, net, limit)
  }

  /** `resolve_redirects` with the accepted hop cached under `url`, as every
      other non-fatal path is: each non-fatal resolution leaves
      `cache[url] == result`. */
  function ResolveRedirectsCaching(cache: Cache, url: string, net: Trace, limit: nat): (r: Resolution)
    ensures CommonContract(true, cache, url, net, limit, r)
    ensures r.outcome.Resolved? && !CachedHit(cache, url) ==>
              r.cache == cache[url := r.outcome.url]
  {
    ResolveMeetsContract(true, cache, url, net, limit);
    Resolve(true, cache, url, net, limit)
  }

  lemma ResolveMeetsContract(writeOnAccept: bool, cache: Cache, url: string, net: Trace, limit: nat)
    ensures CommonContract(writeOnAccept, cache, url, net, limit, Resolve(writeOnAccept, cache, url, net, limit))
    ensures writeOnAccept ==>
              var r := Resolve(writeOnAccept, cache, url, net, limit);
              r.outcome.Resolved? && !CachedHit(cache, url) ==> r.cache == cache[url := r.outcome.url]
  {
  }
}

module ResolverProperties {
  import opened Wrappers
  import opened Resolver

  /** A truthy entry, once present, is never changed by a resolution: the
      cache is write-once for non-empty values. */
  lemma {:induction false} TruthyEntriesPermanent(cache: Cache, url: string, net: Trace, limit: nat, k: string)
    requires CachedHit(cache, k)
    ensures ResolveRedirectsCaching(cache, url, net, limit).cache[k] == cache[k]
    ensures ResolveRedirects(cache, url, net, limit).cache[k] == cache[k]
  {
    var r := ResolveRedirectsCaching(cache, url, net, limit);
    var w := ResolveRedirects(cache, url, net, limit);
    if k == url {
      assert r.cache == cache && w.cache == cache;
    }
  }

  /** Resolving the same URL twice gives the same answer, and the second call
      is a pure cache hit with no request, whatever the network does then —
      unless the answer is the empty string, which the cache treats as a miss. */
  lemma {:induction false} CachingResolveIdempotent(cache: Cache, url: string, net1: Trace, net2: Trace, limit: nat)
    requires ResolveRedirectsCaching(cache, url, net1, limit).outcome.Resolved?
    requires ResolveRedirectsCaching(cache, url, net1, limit).outcome.url != ""
    ensures var first := ResolveRedirectsCaching(cache, url, net1, limit);
            ResolveRedirectsCaching(first.cache, url, net2, limit)
              == Resolution(first.outcome, first.cache, false)
  {
    var first := ResolveRedirectsCaching(cache, url, net1, limit);
    if CachedHit(cache, url) {
      assert first.cache == cache;
    } else {
      assert first.cache == cache[url := first.outcome.url];
    }
    assert CachedHit(first.cache, url) && first.cache[url] == first.outcome.url;
  }

  /** As written, a second call is answered from the cache with no request
      whenever the first call left the URL cached, which every non-fatal path
      but the accepted hop does. */
  lemma {:induction false} ResolveIdempotentOnceCached(cache: Cache, url: string, net1: Trace, net2: Trace, limit: nat)
    requires ResolveRedirects(cache, url, net1, limit).outcome.Resolved?
    requires CachedHit(ResolveRedirects(cache, url, net1, limit).cache, url)
    ensures var first := ResolveRedirects(cache, url, net1, limit);
            ResolveRedirects(first.cache, url, net2, limit) == Resolution(first.outcome, first.cache, false)
  {
    var first := ResolveRedirects(cache, url, net1, limit);
    if CachedHit(cache, url) {
      assert first.cache == cache;
    }
    assert first.cache[url] == first.outcome.url;
  }

  /** As written, the accepted-hop path writes nothing, so the same URL sends
      requests again on the next call. */
  lemma {:induction false} AcceptedHopNotCached(cache: Cache, url: string, net: Trace, net2: Trace, limit: nat)
    requires !CachedHit(cache, url)
    requires net.primary.Some? && IsRedirect(net.primary.value)
    requires limit >= 1 && |net.hops| >= 1 && Accepted(net.hops[0])
    ensures ResolveRedirects(cache, url, net, limit) == Resolution(Resolved(net.hops[0].url), cache, true)
    ensures ResolveRedirects(ResolveRedirects(cache, url, net, limit).cache, url, net2, limit).usedNetwork
  {
    var ys := Yielded(net.hops, limit);
    assert ys[0] == net.hops[0];
    assert FirstAccepted(ys) == Some(0);
  }

  /** Chain collapsing: A -> B -> C with C a definitive success resolves A to C
      and writes only `cache[A] := C`; B gets no entry of its own. */
  lemma {:induction false} ChainCollapses(cache: Cache, a: string, r: Response, b: Response, c: Response,
                                          end: ChainEnd, up: bool, limit: nat)
    requires !CachedHit(cache, a) && IsRedirect(r)
    requires !Accepted(b) && Accepted(c) && limit >= 2
    ensures ResolveRedirectsCaching(cache, a, Trace(Some(r), [b, c], end, up), limit)
              == Resolution(Resolved(c.url), cache[a := c.url], true)
  {
    var ys := Yielded([b, c], limit);
    assert ys == [b, c];
    assert ys[1..] == [c];
    assert FirstAccepted(ys) == Some(1);
  }

  /** The same chain as written: the end URL is returned but not cached. */
  lemma {:induction false} ChainCollapsesAsWritten(cache: Cache, a: string, r: Response, b: Response, c: Response,
                                                   end: ChainEnd, up: bool, limit: nat)
    requires !CachedHit(cache, a) && IsRedirect(r)
    requires !Accepted(b) && Accepted(c) && limit >= 2
    ensures ResolveRedirects(cache, a, Trace(Some(r), [b, c], end, up), limit)
              == Resolution(Resolved(c.url), cache, true)
  {
    var ys := Yielded([b, c], limit);
    assert ys == [b, c];
    assert ys[1..] == [c];
    assert FirstAccepted(ys) == Some(1);
  }

  /** Bounded chains: a chain one hop longer than the limit with no accepted
      hop yields the limit-th hop's URL, cached against the original URL. */
  lemma {:induction false} LongChainFallsBackToLastHop(cache: Cache, url: string, r: Response,
                                                       hops: seq<Response>, end: ChainEnd, up: bool, limit: nat)
    requires !CachedHit(cache, url) && IsRedirect(r)
    requires limit >= 1 && |hops| == limit + 1
    requires forall i :: 0 <= i < limit ==> !Accepted(hops[i])
    ensures var last := hops[limit - 1].url;
            ResolveRedirectsCaching(cache, url, Trace(Some(r), hops, end, up), limit)
              == Resolution(Resolved(last), cache[url := last], true)
  {
    var ys := Yielded(hops, limit);
    assert |ys| == limit;
    assert forall i :: 0 <= i < |ys| ==> ys[i] == hops[i];
  }

  /** Connectivity lost: when the target and the router probe both fail, the
      error propagates and no entry exists for the URL afterwards. */
  lemma {:induction false} ConnectivityDownLeavesNoEntry(cache: Cache, url: string, hops: seq<Response>,
                                                         end: ChainEnd, limit: nat)
    requires url !in cache
    ensures var r := ResolveRedirectsCaching(cache, url, Trace(None, hops, end, false), limit);
            r.outcome == Fatal(AtPrimary) && url !in r.cache
  {
  }
}

=== FILE: safe_redis.dfy ===
/** The reconnect-and-retry policy of the `SafeRedis` cache client
    (tools.py): a client record holding the retry mode and the attempt
    counter, and the `get`/`set` wrapper run against a scripted sequence of
    outcomes of the underlying Redis call. Sleeping is counted, not performed. */
module SafeRedis {
  import opened Wrappers

  /** Retry settings and the attempt counter shared by `get` and `set`. */
  datatype Client = Client(recurInfinitely: bool, maxAttempts: nat, attempts: nat)

  /** The counter never passes the limit, and infinite mode never touches it. */
  predicate Valid(c: Client) {
    c.attempts <= c.maxAttempts && (c.recurInfinitely ==> c.maxAttempts == 0 && c.attempts == 0)
  }

  /** The `max_attempts` argument: an `int` (a `bool` also is one in Python) or anything else. */
  datatype MaxAttemptsArg = IntArg(n: int) | NotAnInt

  datatype InitError = ValueError

  /** `SafeRedis.__init__`: rejects a non-integer limit, maps a negative one
      to infinite mode with limit 0, and starts the counter at 0. */
  function New(maxAttempts: MaxAttemptsArg): (r: Result<Client, InitError>)
    ensures r.Err? <==> maxAttempts.NotAnInt?
    ensures r.Ok? ==> Valid(r.value) && r.value.attempts == 0
    ensures r.Ok? ==> (r.value.recurInfinitely <==> maxAttempts.n < 0)
    ensures r.Ok? && !r.value.recurInfinitely ==> r.value.maxAttempts == maxAttempts.n
  {
    match maxAttempts
    case NotAnInt => Err(ValueError)
    case IntArg(n) =>
      if n < 0 then Ok(Client(true, 0, 0)) else Ok(Client(false, n, 0))
  }

  /** What one call of the underlying `StrictRedis.get`/`set` does. */
  datatype Attempt<T> = Reply(value: T) | ConnectionError

  /** How a wrapped call ends: it returns (Python `None` when the value is
      `None`), re-raises the ConnectionError, or has not finished within the
      scripted outcomes. */
  datatype Outcome<T> = Returned(value: Option<T>) | Raised | Unfinished

  datatype CallResult<T> = CallResult(outcome: Outcome<T>, client: Client, sleeps: nat, retries: nat)

  /** Number of leading failed attempts. */
  function LeadingErrors<T>(trace: seq<Attempt<T>>): (e: nat)
    ensures e <= |trace|
    ensures forall i :: 0 <= i < e ==> trace[i].ConnectionError?
    ensures e < |trace| ==> trace[e].Reply?
  {
    if |trace| == 0 || trace[0].Reply? then 0 else 1 + LeadingErrors(trace[1..])
  }

  /** A successful retry's value is dropped: the recursive call's result is not returned. */
  function Discard<T>(o: Outcome<T>): Outcome<T> {
    match o
    case Returned(_) => Returned(None)
    case Raised => Raised
    case Unfinished => Unfinished
  }

  /** `SafeRedis.get` / `SafeRedis.set` as written: on a ConnectionError,
      sleep, then retry forever in infinite mode, retry while the shared
      counter is below the limit (bumping it) in finite mode, and re-raise
      otherwise. */
  function Call<T>(c: Client, trace: seq<Attempt<T>>): (r: CallResult<T>)
    requires Valid(c)
    ensures Valid(r.client)
    ensures r.client.recurInfinitely == c.recurInfinitely && r.client.maxAttempts == c.maxAttempts
    // first attempt succeeds: the underlying value, nothing else changes
    ensures |trace| > 0 && trace[0].Reply? ==>
              r == CallResult(Returned(Some(trace[0].value)), c, 0, 0)
    // succeeds after e > 0 failures, within the allowance: Python `None`
    ensures 0 < LeadingErrors(trace) < |trace|
            && (c.recurInfinitely || LeadingErrors(trace) <= c.maxAttempts - c.attempts) ==>
              r.outcome == Returned(None) && r.sleeps == LeadingErrors(trace)
              && r.retries == LeadingErrors(trace)
    // finite mode, more failures than the allowance: re-raised after one extra sleep
    ensures !c.recurInfinitely && LeadingErrors(trace) > c.maxAttempts - c.attempts ==>
              r.outcome == Raised && r.retries == c.maxAttempts - c.attempts && r.sleeps == r.retries + 1
    ensures r.outcome.Raised? ==> !c.recurInfinitely
    // the counter only moves in finite mode, by one per retry
    ensures c.recurInfinitely ==> r.client == c
    ensures !c.recurInfinitely ==> r.client.attempts == c.attempts + r.retries
    decreases |trace|
  {
    if |trace| == 0 then
      CallResult(Unfinished, c, 0, 0)
    else
      match trace[0]
      case Reply(v) => CallResult(Returned(Some(v)), c, 0, 0)
      case ConnectionError =>
        if c.recurInfinitely then
          var inner := Call(c, trace[1..]);
          CallResult(Discard(inner.outcome), inner.client, inner.sleeps + 1, inner.retries + 1)
        else if c.attempts < c.maxAttempts then
          var inner := Call(c.(attempts := c.attempts + 1), trace[1..]);
          CallResult(Discard(inner.outcome), inner.client, inner.sleeps + 1, inner.retries + 1)
        else
          CallResult(Raised, c, 1, 0)
  }

  /** With `max_attempts == 0` in finite mode the first ConnectionError is
      re-raised after a single sleep. */
  lemma FailFast<T>(c: Client, trace: seq<Attempt<T>>)
    requires Valid(c) && !c.recurInfinitely && c.maxAttempts == 0
    requires |trace| > 0 && trace[0].ConnectionError?
    ensures Call(c, trace) == CallResult(Raised, c, 1, 0)
  {
  }

  /** A value fetched on the second attempt is lost: the caller sees `None`. */
  lemma RetryDiscardsResult<T>(c: Client, v: T)
    requires Valid(c) && (c.recurInfinitely || c.attempts < c.maxAttempts)
    ensures Call(c, [ConnectionError, Reply(v)]).outcome == Returned(None)
  {
    assert LeadingErrors([ConnectionError, Reply(v)]) == 1;
  }

  /** The wrapper with the retry's result passed back (`return self.get(name)`). */
  function CallReturning<T>(c: Client, trace: seq<Attempt<T>>): (r: CallResult<T>)
    requires Valid(c)
    ensures Valid(r.client)
    ensures LeadingErrors(trace) < |trace|
            && (c.recurInfinitely || LeadingErrors(trace) <= c.maxAttempts - c.attempts) ==>
              r.outcome == Returned(Some(trace[LeadingErrors(trace)].value))
    ensures Call(c, trace).outcome == (if LeadingErrors(trace) == 0 then r.outcome else Discard(r.outcome))
    ensures r.client == Call(c, trace).client
    decreases |trace|
  {
    if |trace| == 0 then
      CallResult(Unfinished, c, 0, 0)
    else
      match trace[0]
      case Reply(v) => CallResult(Returned(Some(v)), c, 0, 0)
      case ConnectionError =>
        if c.recurInfinitely then
          var inner := CallReturning(c, trace[1..]);
          CallResult(inner.outcome, inner.client, inner.sleeps + 1, inner.retries + 1)
        else if c.attempts < c.maxAttempts then
          var inner := CallReturning(c.(attempts := c.attempts + 1), trace[1..]);
          CallResult(inner.outcome, inner.client, inner.sleeps + 1, inner.retries + 1)
        else
          CallResult(Raised, c, 1, 0)
  }

  /** A client used for a sequence of `get`/`set` calls; returns the final
      client and the total number of retries. */
  function Session<T>(c: Client, traces: seq<seq<Attempt<T>>>): (r: (Client, nat))
    requires Valid(c)
    ensures Valid(r.0)
    decreases |traces|
  {
    if |traces| == 0 then (c, 0)
    else
      var first := Call(c, traces[0]);
      var rest := Session(first.client, traces[1..]);
      (rest.0, first.retries + rest.1)
  }

  /** The counter is never reset: in finite mode the retries of all calls
      together stay within `max_attempts` minus the attempts already used. */
  lemma {:induction false} SessionRetriesBounded<T>(c: Client, traces: seq<seq<Attempt<T>>>)
    requires Valid(c) && !c.recurInfinitely
    ensures Session(c, traces).1 == Session(c, traces).0.attempts - c.attempts
    ensures Session(c, traces).1 <= c.maxAttempts - c.attempts
    decreases |traces|
  {
    if |traces| > 0 {
      var first := Call(c, traces[0]);
      SessionRetriesBounded(first.client, traces[1..]);
    }
  }
}

=== FILE: splitter.dfy ===
/** `split_string` of splitter.py and feature_extraction/splitter.py: every
    way of cutting the lower-cased string into words of a word list, found by
    a depth-first search that tries the shortest first piece first. The two
    files differ only in where the word list comes from (a module-level list
    or the `resource` parameter), so one definition with the list as a
    parameter models both. */
module Splitter {
  import opened Text

  /** `pieces` cut `text` into non-empty members of `words`. */
  predicate IsSegmentation(pieces: seq<string>, text: string, words: seq<string>) {
    && Concat(pieces) == text
    && forall i :: 0 <= i < |pieces| ==> |pieces[i]| > 0 && pieces[i] in words
  }

  /** `[p] + x` for every `x` in `xs`, in order. */
  function Prepend(p: string, xs: seq<seq<string>>): (r: seq<seq<string>>)
    ensures |r| == |xs|
    ensures forall i :: 0 <= i < |xs| ==> r[i] == [p] + xs[i]
  {
    seq(|xs|, i requires 0 <= i < |xs| => [p] + xs[i])
  }

  lemma ConcatCons(p: string, rest: seq<string>)
    ensures Concat([p] + rest) == p + Concat(rest)
  {
    assert ([p] + rest)[1..] == rest;
  }

  /** The segmentations `rec(remainder, so_far)` contributes after `so_far`:
      the empty one when nothing remains, then those of each first piece,
      shortest first. */
  function AllSplits(rem: string, words: seq<string>): (r: seq<seq<string>>)
    ensures forall k :: 0 <= k < |r| ==> IsSegmentation(r[k], rem, words)
    decreases |rem|, |rem| + 1
  {
    (if |rem| == 0 then [[]] else []) + FromPos(rem, words, 1)
  }

  /** The iterations `pos, pos + 1, ..., len(remainder)` of the `for` loop. */
  function FromPos(rem: string, words: seq<string>, pos: nat): (r: seq<seq<string>>)
    requires 1 <= pos
    ensures forall k :: 0 <= k < |r| ==> IsSegmentation(r[k], rem, words) && |r[k]| > 0 && pos <= |r[k][0]|
    decreases |rem|, |rem| + 1 - pos
  {
    if pos > |rem| then [] else Here(rem, words, pos) + FromPos(rem, words, pos + 1)
  }

  /** One iteration: when `remainder[:pos]` is a word, the segmentations of
      the rest with that word in front. */
  function Here(rem: string, words: seq<string>, pos: nat): (r: seq<seq<string>>)
    requires 1 <= pos <= |rem|
    ensures forall k :: 0 <= k < |r| ==> IsSegmentation(r[k], rem, words) && |r[k]| > 0 && r[k][0] == rem[..pos]
    decreases |rem|, 0
  {
    if rem[..pos] !in words then []
    else
      var tails := AllSplits(rem[pos..], words);
      var here := Prepend(rem[..pos], tails);
      forall k | 0 <= k < |here|
        ensures IsSegmentation(here[k], rem, words) && |here[k]| > 0 && here[k][0] == rem[..pos]
      {
        ConcatCons(rem[..pos], tails[k]);
        assert rem[..pos] + rem[pos..] == rem;
        assert forall i :: 1 <= i < |here[k]| ==> here[k][i] == tails[k][i - 1];
      }
      here
  }

  /** `split_string(s, words)`. */
  function SplitString(s: string, words: seq<string>): (r: seq<seq<string>>)
    ensures forall k :: 0 <= k < |r| ==> IsSegmentation(r[k], Lower(s), words)
  {
    AllSplits(Lower(s), words)
  }

  /** The empty string has exactly the empty segmentation. */
  lemma SplitEmpty(words: seq<string>)
    ensures SplitString("", words) == [[]]
  {
    assert Lower("") == "";
  }

  // ---------------------------------------------------------------------
  // Completeness

  /** Pieces that are all non-empty and concatenate to nothing are no pieces. */
  lemma NonEmptyPiecesLength(pieces: seq<string>)
    requires forall i :: 0 <= i < |pieces| ==> |pieces[i]| > 0
    ensures |pieces| > 0 ==> |Concat(pieces)| >= |pieces[0]| > 0
  {
    if |pieces| > 0 {
      ConcatCons(pieces[0], pieces[1..]);
      assert [pieces[0]] + pieces[1..] == pieces;
    }
  }

  /** Everything found at position `pos` is also found by the loop started
      at any earlier position. */
  lemma {:induction false} FromPosIncludes(rem: string, words: seq<string>, q: nat, pos: nat, seg: seq<string>)
    requires 1 <= q <= pos <= |rem|
    requires seg in Here(rem, words, pos)
    ensures seg in FromPos(rem, words, q)
    decreases pos - q
  {
    assert FromPos(rem, words, q) == Here(rem, words, q) + FromPos(rem, words, q + 1);
    if q < pos {
      FromPosIncludes(rem, words, q + 1, pos, seg);
    }
  }

  /** Every segmentation of the lower-cased string is found. */
  lemma {:induction false} AllSplitsComplete(rem: string, words: seq<string>, seg: seq<string>)
    requires IsSegmentation(seg, rem, words)
    ensures seg in AllSplits(rem, words)
    decreases |rem|
  {
    NonEmptyPiecesLength(seg);
    if |rem| == 0 {
      assert seg == [];
      assert AllSplits(rem, words)[0] == [];
    } else {
      var p := seg[0];
      var pos := |p|;
      ConcatCons(p, seg[1..]);
      assert [p] + seg[1..] == seg;
      assert rem[..pos] == p;
      assert IsSegmentation(seg[1..], rem[pos..], words) by {
        assert forall i :: 0 <= i < |seg[1..]| ==> seg[1..][i] == seg[i + 1];
      }
      AllSplitsComplete(rem[pos..], words, seg[1..]);
      var tails := AllSplits(rem[pos..], words);
      var k :| 0 <= k < |tails| && tails[k] == seg[1..];
      assert Prepend(p, tails)[k] == seg;
      assert Here(rem, words, pos) == Prepend(p, tails);
      FromPosIncludes(rem, words, 1, pos, seg);
    }
  }

  lemma SplitStringComplete(s: string, words: seq<string>, seg: seq<string>)
    requires IsSegmentation(seg, Lower(s), words)
    ensures seg in SplitString(s, words)
  {
    AllSplitsComplete(Lower(s), words, seg);
  }

  // ---------------------------------------------------------------------
  // Order, and hence no repeats

  /** The piece lengths of a segmentation. */
  function Lengths(pieces: seq<string>): (r: seq<int>)
    ensures |r| == |pieces| && forall i :: 0 <= i < |pieces| ==> r[i] == |pieces[i]|
  {
    seq(|pieces|, i requires 0 <= i < |pieces| => |pieces[i]|)
  }

  /** Strict lexicographic order on length sequences, a proper prefix first. */
  predicate LexLess(a: seq<int>, b: seq<int>) {
    if |a| == 0 then |b| > 0
    else if |b| == 0 then false
    else a[0] < b[0] || (a[0] == b[0] && LexLess(a[1..], b[1..]))
  }

  lemma {:induction false} LexLessIrreflexive(a: seq<int>)
    ensures !LexLess(a, a)
  {
    if |a| > 0 {
      LexLessIrreflexive(a[1..]);
    }
  }

  /** Each found segmentation comes strictly after the ones before it. */
  predicate Ordered(xs: seq<seq<string>>) {
    forall i, j :: 0 <= i < j < |xs| ==> LexLess(Lengths(xs[i]), Lengths(xs[j]))
  }

  lemma PrependOrdered(p: string, xs: seq<seq<string>>)
    requires Ordered(xs)
    ensures Ordered(Prepend(p, xs))
  {
    var r := Prepend(p, xs);
    forall i, j | 0 <= i < j < |r| ensures LexLess(Lengths(r[i]), Lengths(r[j])) {
      var a, b := Lengths(r[i]), Lengths(r[j]);
      assert a[1..] == Lengths(xs[i]) && b[1..] == Lengths(xs[j]);
    }
  }

  /** The results of `rec` are in strictly increasing order of piece lengths:
      first-piece length ascending, then recursively. */
  lemma {:induction false} AllSplitsOrdered(rem: string, words: seq<string>)
    ensures Ordered(AllSplits(rem, words))
    decreases |rem|, |rem| + 1
  {
    FromPosOrdered(rem, words, 1);
    if |rem| == 0 {
      assert FromPos(rem, words, 1) == [];
      assert AllSplits(rem, words) == [[]];
    }
  }

  lemma {:induction false} FromPosOrdered(rem: string, words: seq<string>, pos: nat)
    requires 1 <= pos
    ensures Ordered(FromPos(rem, words, pos))
    decreases |rem|, |rem| + 1 - pos
  {
    if pos <= |rem| {
      var later := FromPos(rem, words, pos + 1);
      FromPosOrdered(rem, words, pos + 1);
      if rem[..pos] !in words {
        assert FromPos(rem, words, pos) == [] + later;
      } else {
        var here := Prepend(rem[..pos], AllSplits(rem[pos..], words));
        assert here == Here(rem, words, pos);
        AllSplitsOrdered(rem[pos..], words);
        PrependOrdered(rem[..pos], AllSplits(rem[pos..], words));
        var all := here + later;
        assert all == FromPos(rem, words, pos);
        forall i, j | 0 <= i < j < |all| ensures LexLess(Lengths(all[i]), Lengths(all[j])) {
          if j < |here| {
            assert all[i] == here[i] && all[j] == here[j];
          } else if i >= |here| {
            assert all[i] == later[i - |here|] && all[j] == later[j - |here|];
          } else {
            assert all[i] == here[i] && all[j] == later[j - |here|];
            assert Lengths(all[i])[0] == pos < Lengths(all[j])[0];
          }
        }
      }
    }
  }

  /** No segmentation is listed twice. */
  lemma SplitStringNoRepeats(s: string, words: seq<string>)
    ensures var r := SplitString(s, words);
            forall i, j :: 0 <= i < j < |r| ==> r[i] != r[j]
  {
    var r := SplitString(s, words);
    AllSplitsOrdered(Lower(s), words);
    forall i, j | 0 <= i < j < |r| ensures r[i] != r[j] {
      LexLessIrreflexive(Lengths(r[i]));
    }
  }
}

=== FILE: text.dfy ===
/** String helpers shared by the models: Python 2 `str` operations on ASCII
    text (`\w`, `lower`, `rstrip`, substring `in`) and sequence flattening. */
module Text {

  /** Python 2's `\w` without the UNICODE flag: `[A-Za-z0-9_]`. */
  predicate IsWordChar(c: char) {
    ('a' <= c <= 'z') || ('A' <= c <= 'Z') || ('0' <= c <= '9') || c == '_'
  }

  /** Length of the leading run of word characters. */
  function WordRun(s: string): (n: nat)
    ensures n <= |s|
    ensures forall i :: 0 <= i < n ==> IsWordChar(s[i])
    ensures n < |s| ==> !IsWordChar(s[n])
  {
    if |s| == 0 || !IsWordChar(s[0]) then 0 else 1 + WordRun(s[1..])
  }

  /** The ASCII whitespace `str.rstrip()` removes. */
  predicate IsSpace(c: char) {
    c == ' ' || c == '\t' || c == '\n' || c == '\r' || c == '\U{B}' || c == '\U{C}'
  }

  /** `sub` occurs in `s` starting at offset `i`. */
  predicate OccursAt(sub: string, s: string, i: int) {
    0 <= i <= |s| - |sub| && s[i..i + |sub|] == sub
  }

  /** Python's `sub in s` for strings: `sub` occurs at some offset of `s`. */
  predicate Occurs(sub: string, s: string) {
    exists i | 0 <= i <= |s| - |sub| :: OccursAt(sub, s, i)
  }

  /** Executable substring search, scanning offsets left to right. */
  function Contains(s: string, sub: string): bool
    decreases |s|
  {
    if sub <= s then true
    else if |s| == 0 then false
    else Contains(s[1..], sub)
  }

  /** The scan finds `sub` exactly when it occurs somewhere in `s`. */
  lemma ContainsIsOccurs(s: string, sub: string)
    ensures Contains(s, sub) <==> Occurs(sub, s)
  {
    if Contains(s, sub) {
      ContainsSound(s, sub);
    }
    if Occurs(sub, s) {
      var i :| 0 <= i <= |s| - |sub| && OccursAt(sub, s, i);
      ContainsComplete(s, sub, i);
    }
  }

  lemma {:induction false} ContainsSound(s: string, sub: string)
    requires Contains(s, sub)
    ensures Occurs(sub, s)
    decreases |s|
  {
    if sub <= s {
      assert OccursAt(sub, s, 0);
    } else {
      ContainsSound(s[1..], sub);
      var i :| 0 <= i <= |s[1..]| - |sub| && OccursAt(sub, s[1..], i);
      assert s[i + 1..i + 1 + |sub|] == s[1..][i..i + |sub|];
      assert OccursAt(sub, s, i + 1);
    }
  }

  lemma {:induction false} ContainsComplete(s: string, sub: string, i: nat)
    requires OccursAt(sub, s, i)
    ensures Contains(s, sub)
    decreases i
  {
    if i == 0 {
      assert s[..|sub|] == sub;
    } else if !(sub <= s) {
      assert s[1..][i - 1..i - 1 + |sub|] == s[i..i + |sub|];
      ContainsComplete(s[1..], sub, i - 1);
    }
  }

  /** ASCII lower-casing of one character (Python 2 `str.lower` in the C locale). */
  function LowerChar(c: char): (d: char)
    ensures 'A' <= c <= 'Z' ==> d as int == c as int + 32
    ensures !('A' <= c <= 'Z') ==> d == c
  {
    if 'A' <= c <= 'Z' then (c as int + 32) as char else c
  }

  /** `s.lower()`: every character lower-cased, length kept. */
  function Lower(s: string): (r: string)
    ensures |r| == |s|
    ensures forall i :: 0 <= i < |s| ==> r[i] == LowerChar(s[i])
  {
    if |s| == 0 then [] else [LowerChar(s[0])] + Lower(s[1..])
  }

  /** `s.rstrip()`: the longest prefix of `s` that does not end in whitespace. */
  function RStrip(s: string): (r: string)
    ensures r <= s
    ensures |r| == 0 || !IsSpace(r[|r| - 1])
    ensures forall i :: |r| <= i < |s| ==> IsSpace(s[i])
  {
    if |s| == 0 || !IsSpace(s[|s| - 1]) then s else RStrip(s[..|s| - 1])
  }

  /** Concatenation of a list of strings (`"".join(pieces)`). */
  function Concat(pieces: seq<string>): string {
    if |pieces| == 0 then "" else pieces[0] + Concat(pieces[1..])
  }

  lemma ConcatAppend(a: seq<string>, b: seq<string>)
    ensures Concat(a + b) == Concat(a) + Concat(b)
  {
    if |a| == 0 {
      assert a + b == b;
    } else {
      assert (a + b)[1..] == a[1..] + b;
      ConcatAppend(a[1..], b);
    }
  }

  /** Number of occurrences of `c` in `s`. */
  function CountChar(s: string, c: char): nat {
    if |s| == 0 then 0 else (if s[0] == c then 1 else 0) + CountChar(s[1..], c)
  }

  lemma CountCharAppend(a: string, b: string, c: char)
    ensures CountChar(a + b, c) == CountChar(a, c) + CountChar(b, c)
  {
    if |a| == 0 {
      assert a + b == b;
    } else {
      assert (a + b)[1..] == a[1..] + b;
      CountCharAppend(a[1..], b, c);
    }
  }

  /** Decimal digits of a natural number (`str(n)`). */
  function NatToString(n: nat): (r: string)
    ensures |r| > 0
    ensures forall i :: 0 <= i < |r| ==> '0' <= r[i] <= '9'
    decreases n
  {
    if n < 10 then [Digit(n)] else NatToString(n / 10) + [Digit(n % 10)]
  }

  function Digit(d: nat): (c: char)
    requires d < 10
    ensures '0' <= c <= '9'
  {
    ('0' as int + d) as char
  }

  /** Different numbers have different decimal renderings. */
  lemma {:induction false} NatToStringInjective(m: nat, n: nat)
    requires NatToString(m) == NatToString(n)
    ensures m == n
    decreases m
  {
    if m >= 10 && n >= 10 {
      var a, b := NatToString(m / 10), NatToString(n / 10);
      assert a + [Digit(m % 10)] == b + [Digit(n % 10)];
      assert |a| == |b|;
      assert a == (a + [Digit(m % 10)])[..|a|];
      assert b == (b + [Digit(n % 10)])[..|b|];
      NatToStringInjective(m / 10, n / 10);
      assert Digit(m % 10) == Digit(n % 10);
    } else if m >= 10 || n >= 10 {
      assert false;
    } else {
      assert Digit(m) == NatToString(m)[0];
    }
  }
}

=== FILE: to_db.dfy ===
/** The bookkeeping of to_db.py's `Inserter`: primary keys handed out from
    per-table counters kept in the key-value cache, the counter
    initialisation, the "-1" to NULL mapping and the quoting of URLs. SQL
    execution is not modelled. */
module ToDb {
  import opened Wrappers
  import opened Text

  /** The tables whose rows get cached primary keys. */
  datatype Table = Cluster | Hashtag | TagWord | Url | Word

  const Tables: seq<Table> := [Cluster, Hashtag, TagWord, Url, Word]

  function TableName(t: Table): string {
    match t
    case Cluster => "cluster"
    case Hashtag => "hashtag"
    case TagWord => "tag_word"
    case Url => "url"
    case Word => "word"
  }

  /** Values are keyed on their first 355 characters. */
  const KeyLength := 355

  function Truncate(val: string): (v: string)
    ensures |v| <= KeyLength && v <= val
    ensures |val| <= KeyLength ==> v == val
  {
    if |val| <= KeyLength then val else val[..KeyLength]
  }

  /** `'{table}_{val}'` with `val[:355]`. */
  function PkKey(t: Table, val: string): string {
    TableName(t) + "_" + Truncate(val)
  }

  /** `'pk_{table}'`. */
  function CounterKey(t: Table): string {
    "pk_" + TableName(t)
  }

  /** The cache keys of two values coincide exactly when the tables agree
      and the values agree on their first 355 characters; no value key is a
      counter key. This is what lets the single cache key space be modelled
      as separate counters and per-table value maps. */
  lemma PkKeyInjective(t1: Table, v1: string, t2: Table, v2: string)
    ensures PkKey(t1, v1) == PkKey(t2, v2) <==> t1 == t2 && Truncate(v1) == Truncate(v2)
    ensures PkKey(t1, v1) != CounterKey(t2)
  {
    var k1, k2 := PkKey(t1, v1), PkKey(t2, v2);
    var n1, n2 := TableName(t1), TableName(t2);
    // The five table names start with five different letters.
    assert k1[0] == n1[0] && k2[0] == n2[0];
    assert t1 != t2 ==> n1[0] != n2[0];
    if t1 == t2 && k1 == k2 {
      assert Truncate(v1) == k1[|n1| + 1..] == k2[|n2| + 1..] == Truncate(v2);
    }
    assert CounterKey(t2)[0] == 'p';
  }

  /** The cache as far as primary keys go: each table's counter (absent
      until initialised) and the pk cached for each truncated value. */
  datatype PkCache = PkCache(counters: map<Table, int>, pks: map<(Table, string), int>)

  /** `__init__`: every counter that reads as None is set to 0; others are
      kept. A counter reads as None when it is absent, and also when its
      `get` needed a retry, because `SafeRedis.get` drops the retried result
      (`SafeRedis.RetryDiscardsResult`). `retried` is the set of tables whose
      read needed a retry and then succeeded. */
  function Init(c: PkCache, retried: set<Table>): (r: PkCache)
    ensures r.pks == c.pks
    ensures forall t :: t in r.counters
    ensures forall t :: t in c.counters && t !in retried ==> r.counters[t] == c.counters[t]
    ensures forall t :: t !in c.counters || t in retried ==> r.counters[t] == 0
  {
    AllTablesListed();
    PkCache(map t: Table | t in Tables :: if t in c.counters && t !in retried then c.counters[t] else 0, c.pks)
  }

  lemma AllTablesListed()
    ensures forall t: Table :: t in Tables
  {
    forall t: Table ensures t in Tables {
      match t
      case Cluster => assert Tables[0] == t;
      case Hashtag => assert Tables[1] == t;
      case TagWord => assert Tables[2] == t;
      case Url => assert Tables[3] == t;
      case Word => assert Tables[4] == t;
    }
  }

  /** Consistency of the cache: counters are not negative, every cached pk
      is between 1 and its table's counter, and no two values of a table
      share a pk. */
  ghost predicate Consistent(c: PkCache) {
    && (forall t :: t in c.counters ==> c.counters[t] >= 0)
    && (forall k :: k in c.pks ==> k.0 in c.counters && 1 <= c.pks[k] <= c.counters[k.0])
    && (forall k1, k2 :: k1 in c.pks && k2 in c.pks && k1 != k2 && k1.0 == k2.0 ==> c.pks[k1] != c.pks[k2])
  }

  /** Initialisation keeps a consistent cache consistent exactly when no
      table whose read was retried has a cached pk: a reset counter lies
      below that table's pks. */
  lemma InitConsistent(c: PkCache, retried: set<Table>)
    requires Consistent(c)
    ensures Consistent(Init(c, retried)) <==> forall k :: k in c.pks ==> k.0 !in retried
  {
    if exists k :: k in c.pks && k.0 in retried {
      var k :| k in c.pks && k.0 in retried;
      assert Init(c, retried).counters[k.0] == 0 < c.pks[k];
    }
  }

  /** After a retried read resets a table's counter, the next new value of
      that table is handed the pk 1 that a stored value already holds. */
  lemma RetriedInitReusesPk(c: PkCache, t: Table, v: string, w: string)
    requires Consistent(c)
    requires (t, Truncate(v)) in c.pks && c.pks[(t, Truncate(v))] == 1
    requires (t, Truncate(w)) !in c.pks
    ensures GetOrSetPk(Init(c, {t}), t, w, false).value.0 == c.pks[(t, Truncate(v))]
    ensures !Consistent(GetOrSetPk(Init(c, {t}), t, w, false).value.1)
  {
    var c' := GetOrSetPk(Init(c, {t}), t, w, false).value.1;
    assert c'.pks[(t, Truncate(v))] == c'.pks[(t, Truncate(w))];
    assert (t, Truncate(v)) != (t, Truncate(w));
  }

  /** The ValueError of `get_only` on a miss. */
  datatype PkError = NoPrimaryKey(t: Table, val: string)

  /** `get_or_set_pk`: a hit returns the cached pk and changes nothing; a
      miss with `get_only` fails and changes nothing; otherwise the table's
      counter is incremented (`incr` counts an absent counter as 0) and the
      new value becomes the pk of `val`. */
  function GetOrSetPk(c: PkCache, t: Table, val: string, getOnly: bool): (r: Result<(int, PkCache), PkError>)
    ensures (t, Truncate(val)) in c.pks ==> r == Ok((c.pks[(t, Truncate(val))], c))
    ensures (t, Truncate(val)) !in c.pks && getOnly ==> r == Err(NoPrimaryKey(t, val))
    ensures (t, Truncate(val)) !in c.pks && !getOnly ==>
              r.Ok? && r.value.1.pks == c.pks[(t, Truncate(val)) := r.value.0]
              && r.value.0 == (if t in c.counters then c.counters[t] else 0) + 1
              && r.value.1.counters == c.counters[t := r.value.0]
  {
    var key := (t, Truncate(val));
    if key in c.pks then Ok((c.pks[key], c))
    else if getOnly then Err(NoPrimaryKey(t, val))
    else
      var newPk := (if t in c.counters then c.counters[t] else 0) + 1;
      Ok((newPk, PkCache(c.counters[t := newPk], c.pks[key := newPk])))
  }

  /** A new pk is larger than every pk its table had, and the cache stays
      consistent. */
  lemma GetOrSetPkPreservesConsistency(c: PkCache, t: Table, val: string, getOnly: bool)
    requires Consistent(c)
    ensures var r := GetOrSetPk(c, t, val, getOnly);
            r.Ok? ==> (&& Consistent(r.value.1)
                       && ((t, Truncate(val)) !in c.pks ==>
                             forall k :: k in c.pks && k.0 == t ==> c.pks[k] < r.value.0))
  {
    var key := (t, Truncate(val));
    if key !in c.pks && !getOnly {
      var r := GetOrSetPk(c, t, val, getOnly);
      var newPk := r.value.0;
      var c' := r.value.1;
      assert forall k :: k in c.pks && k.0 == t ==> c.pks[k] <= c.counters[t] < newPk;
      forall k | k in c'.pks
        ensures k.0 in c'.counters && 1 <= c'.pks[k] <= c'.counters[k.0]
      {
        if k != key {
          assert c'.pks[k] == c.pks[k] <= c.counters[k.0];
          assert c.counters[k.0] <= c'.counters[k.0];
        }
      }
      forall k1, k2 | k1 in c'.pks && k2 in c'.pks && k1 != k2 && k1.0 == k2.0
        ensures c'.pks[k1] != c'.pks[k2]
      {
        if k1 != key && k2 != key {
          assert c'.pks[k1] == c.pks[k1] && c'.pks[k2] == c.pks[k2];
        }
      }
    }
  }

  /** Asking again for the same value gives the same pk and no change, even
      with `get_only`. */
  lemma GetOrSetPkRepeatable(c: PkCache, t: Table, val: string, getOnly: bool, again: bool)
    ensures var r := GetOrSetPk(c, t, val, getOnly);
            r.Ok? ==> GetOrSetPk(r.value.1, t, val, again) == Ok((r.value.0, r.value.1))
  {
  }

  /** Values that agree on their first 355 characters share a pk. */
  lemma LongValuesShareKey(c: PkCache, t: Table, v1: string, v2: string)
    requires |v1| >= KeyLength && |v2| >= KeyLength && v1[..KeyLength] == v2[..KeyLength]
    ensures var r := GetOrSetPk(c, t, v1, false);
            GetOrSetPk(r.value.1, t, v2, true) == Ok((r.value.0, r.value.1))
  {
    assert Truncate(v1) == Truncate(v2);
  }

  /** On a freshly initialised table the first pk is 1. */
  lemma FirstPkIsOne(c: PkCache, t: Table, val: string, retried: set<Table>)
    requires t !in c.counters && (t, Truncate(val)) !in c.pks
    ensures GetOrSetPk(Init(c, retried), t, val, false).value.0 == 1
  {
  }

  // ---------------------------------------------------------------------
  // NULL mapping

  /** A scalar field of a decoded record: JSON numbers and strings stay
      distinct, and Python's `==` between them is always false. */
  datatype Scalar = Int(i: int) | Str(s: string)

  const Null := Str("NULL")

  /** `insert_tweet_data` as written: `x == "-1"` compares with the string,
      so only a string "-1" becomes NULL. */
  function NullIfMinusOneAsWritten(x: Scalar): (r: Scalar)
    ensures x == Str("-1") ==> r == Null
    ensures x != Str("-1") ==> r == x
  {
    if x == Str("-1") then Null else x
  }

  /** The mapping evidently intended: the extractor's marker for a missing
      value, the integer -1, becomes NULL as well. */
  function NullIfMinusOne(x: Scalar): (r: Scalar)
    ensures x == Int(-1) || x == Str("-1") ==> r == Null
    ensures x != Int(-1) && x != Str("-1") ==> r == x
  {
    if x == Int(-1) || x == Str("-1") then Null else x
  }

  /** What extract_info.py writes for a tweet whose date did not parse is
      the integer -1, which the as-written test passes on to SQL unchanged. */
  lemma IntegerMarkerNotNulled()
    ensures NullIfMinusOneAsWritten(Int(-1)) == Int(-1)
    ensures NullIfMinusOne(Int(-1)) == Null
  {
  }

  /** The NULL mapping of the code (`intended` unset) or the intended one. */
  function Nulled(intended: bool, x: Scalar): Scalar {
    if intended then NullIfMinusOne(x) else NullIfMinusOneAsWritten(x)
  }

  /** The three fields `insert_tweet_data` maps: hour, day, is_weekday. */
  datatype TweetRow = TweetRow(hour: Scalar, day: Scalar, isWeekday: Scalar)

  /** `insert_tweet_data`: each field is NULL when it was the string "-1"
      (or already NULL); the integer -1 the extractor writes for a date that
      did not parse is NULLed only in the intended reading. Any other value
      is kept. */
  function TweetRowFields(intended: bool, hour: Scalar, day: Scalar, isWeekday: Scalar): (r: TweetRow)
    ensures r.hour == Null <==> hour == Str("-1") || hour == Null || (intended && hour == Int(-1))
    ensures r.day == Null <==> day == Str("-1") || day == Null || (intended && day == Int(-1))
    ensures r.isWeekday == Null <==> isWeekday == Str("-1") || isWeekday == Null || (intended && isWeekday == Int(-1))
    ensures r.hour != Null ==> r.hour == hour
    ensures r.day != Null ==> r.day == day
    ensures r.isWeekday != Null ==> r.isWeekday == isWeekday
  {
    TweetRow(Nulled(intended, hour), Nulled(intended, day), Nulled(intended, isWeekday))
  }

  /** The user fields of `process_user`. */
  datatype UserRow = UserRow(ratio: Scalar, followers: Scalar, following: Scalar)

  /** `process_user`: followers and following map "-1" to NULL (and, in the
      intended reading, the integer -1 too), and the ratio is NULL whenever
      the followers are. The integer -1 does not arise here in practice: the
      counts come from `followers_count` and `friends_count`, defaulting to 0
      and 1 (extract_info.py:106-109), and `insert_twitter_user` already
      stores NULL for a count that is negative or not an integer
      (to_db.py:238-240); the flag only keeps users and tweets under one
      reading. */
  function UserRowFields(intended: bool, followers: Scalar, following: Scalar, ratio: Scalar): (r: UserRow)
    ensures r.followers == Null <==> followers == Str("-1") || followers == Null || (intended && followers == Int(-1))
    ensures r.following == Null <==> following == Str("-1") || following == Null || (intended && following == Int(-1))
    ensures r.followers != Null ==> r.followers == followers && r.ratio == ratio
    ensures r.following != Null ==> r.following == following
    ensures r.followers == Null ==> r.ratio == Null
  {
    var fs := Nulled(intended, followers);
    UserRow(if fs != Null then ratio else Null, fs, Nulled(intended, following))
  }

  // ---------------------------------------------------------------------
  // `insert_url` quoting

  /** Double quotes when the URL holds a single quote, single quotes otherwise. */
  function QuoteUrl(url: string): (q: string)
    ensures |q| == |url| + 2 && q[1..|q| - 1] == url && q[0] == q[|q| - 1]
    ensures q[0] == '"' <==> Occurs("'", url)
    ensures !(Occurs("'", url) && Occurs("\"", url)) ==>
              forall i :: 0 <= i < |url| ==> url[i] != q[0]
  {
    ContainsIsOccurs(url, "'");
    var quote := if Contains(url, "'") then '"' else '\'';
    forall i | 0 <= i < |url| && url[i] == quote
      ensures Occurs([quote], url)
    {
      assert OccursAt([quote], url, i);
    }
    [quote] + url + [quote]
  }
}

=== FILE: to_weka.dfy ===
/** The ARFF text of to_weka.py: attribute declarations for the header and
    the comma-separated data row of one hashtag, as string functions. File
    reading is replaced by its contents: the lines of a set file, the
    length of each reference set, and the decoded master files. */
module ToWeka {
  import opened Wrappers
  import opened Text

  const Vectors: seq<string> := ["domains", "hashtags", "mentions", "split_hashtags", "urls", "words"]

  const Values: seq<string> := [
    "day_mean", "day_median", "day_std_dev", "follow_ratio_mean", "follow_ratio_median", "follow_ratio_std_dev",
    "followers_mean", "followers_median", "followers_std_dev", "following_mean", "following_median",
    "following_std_dev", "is_weekday_mean", "is_weekday_median", "is_weekday_std_dev", "offset_median",
    "offset_rms", "offset_std_dev"]

  // ---------------------------------------------------------------- header

  /** `path.split(p)[1]`: the part after the last '/'. */
  function Basename(p: string): (r: string)
    ensures |r| <= |p| && r == p[|p| - |r|..]
    ensures forall i :: 0 <= i < |r| ==> r[i] != '/'
    ensures |r| < |p| ==> p[|p| - |r| - 1] == '/'
  {
    if |p| == 0 then ""
    else if p[|p| - 1] == '/' then ""
    else
      var q := p[..|p| - 1];
      var b := Basename(q);
      assert p[|p| - |b| - 1..] == q[|q| - |b|..] + [p[|p| - 1]];
      b + [p[|p| - 1]]
  }

  /** `s.split('_')[0]`: everything before the first '_'. */
  function BeforeUnderscore(s: string): (r: string)
    ensures r <= s
    ensures forall i :: 0 <= i < |r| ==> r[i] != '_'
    ensures |r| < |s| ==> s[|r|] == '_'
  {
    if |s| == 0 || s[0] == '_' then "" else [s[0]] + BeforeUnderscore(s[1..])
  }

  /** The attribute-name prefix of a set file: its basename up to the
      first '_'. */
  function SetPrefix(infile: string): string {
    BeforeUnderscore(Basename(infile))
  }

  /** One trailing newline removed, as iterating a file leaves it on. */
  function Chomp(line: string): (r: string)
    ensures |line| > 0 && line[|line| - 1] == '\n' ==> r == line[..|line| - 1]
    ensures (|line| == 0 || line[|line| - 1] != '\n') ==> r == line
  {
    if |line| > 0 && line[|line| - 1] == '\n' then line[..|line| - 1] else line
  }

  /** The declaration of one token, without its newline. */
  function Declaration(prefix: string, token: string): string {
    "@ATTRIBUTE '" + prefix + "_" + token + "' NUMERIC"
  }

  function AttributeLine(prefix: string, token: string): string {
    Declaration(prefix, token) + "\n"
  }

  /** `set_to_weka`: one numeric attribute per line of the set file. */
  function SetToWeka(infile: string, lines: seq<string>): string {
    Declarations(SetPrefix(infile), lines)
  }

  /** The attribute lines of the given lines, in order. */
  function Declarations(prefix: string, lines: seq<string>): string {
    if |lines| == 0 then ""
    else Declarations(prefix, lines[..|lines| - 1]) + AttributeLine(prefix, Chomp(lines[|lines| - 1]))
  }

  /** A line as file iteration yields it: no newline before its end. */
  predicate FileLine(line: string) {
    forall i :: 0 <= i < |line| - 1 ==> line[i] != '\n'
  }

  /** `s` does not contain `c`. */
  predicate Lacks(s: string, c: char) {
    forall i :: 0 <= i < |s| ==> s[i] != c
  }

  lemma LacksAppend(a: string, b: string, c: char)
    requires Lacks(a, c) && Lacks(b, c)
    ensures Lacks(a + b, c)
  {
  }

  /** A body followed by one terminator holds that terminator once. */
  lemma TerminatedOnce(body: string, c: char)
    requires Lacks(body, c)
    ensures CountChar(body + [c], c) == 1
  {
    NoneCount(body, c);
    CountCharAppend(body, [c], c);
  }

  lemma {:induction false} NoneCount(s: string, c: char)
    requires Lacks(s, c)
    ensures CountChar(s, c) == 0
  {
    if |s| > 0 {
      NoneCount(s[1..], c);
    }
  }

  /** A character the file name lacks, the prefix lacks too. */
  lemma SetPrefixLacks(infile: string, c: char)
    requires Lacks(infile, c)
    ensures Lacks(SetPrefix(infile), c)
  {
    var b := Basename(infile);
    assert Lacks(b, c) by {
      forall i | 0 <= i < |b| ensures b[i] != c {
        assert b[i] == infile[|infile| - |b| + i];
      }
    }
  }

  lemma DeclarationLacks(prefix: string, token: string)
    requires Lacks(prefix, '\n') && Lacks(token, '\n')
    ensures Lacks(Declaration(prefix, token), '\n')
  {
    LacksAppend("@ATTRIBUTE '", prefix, '\n');
    LacksAppend("@ATTRIBUTE '" + prefix, "_", '\n');
    LacksAppend("@ATTRIBUTE '" + prefix + "_", token, '\n');
    LacksAppend("@ATTRIBUTE '" + prefix + "_" + token, "' NUMERIC", '\n');
  }

  lemma AttributeLineOnce(prefix: string, token: string)
    requires Lacks(prefix, '\n') && Lacks(token, '\n')
    ensures CountChar(AttributeLine(prefix, token), '\n') == 1
  {
    DeclarationLacks(prefix, token);
    TerminatedOnce(Declaration(prefix, token), '\n');
  }

  lemma ChompLacksNewline(line: string)
    requires FileLine(line)
    ensures Lacks(Chomp(line), '\n')
  {
  }

  /** The declarations of a set file have one line per input line. */
  lemma {:induction false} SetToWekaLines(infile: string, lines: seq<string>)
    requires Lacks(infile, '\n')
    requires forall k :: 0 <= k < |lines| ==> FileLine(lines[k])
    ensures CountChar(SetToWeka(infile, lines), '\n') == |lines|
  {
    if |lines| > 0 {
      SetToWekaLines(infile, lines[..|lines| - 1]);
      var prefix := SetPrefix(infile);
      var token := Chomp(lines[|lines| - 1]);
      SetPrefixLacks(infile, '\n');
      ChompLacksNewline(lines[|lines| - 1]);
      AttributeLineOnce(prefix, token);
      CountCharAppend(SetToWeka(infile, lines[..|lines| - 1]), AttributeLine(prefix, token), '\n');
    }
  }

  /** Read back line by line, the declarations of a set file are, in order,
      one per input line, each naming the file's prefix and the line without
      its newline. */
  lemma SetToWekaRead(infile: string, lines: seq<string>)
    requires Lacks(infile, '\n')
    requires forall k :: 0 <= k < |lines| ==> FileLine(lines[k])
    ensures var ls := ReadLines(SetToWeka(infile, lines));
      && |ls| == |lines|
      && forall k :: 0 <= k < |lines| ==> ls[k] == Declaration(SetPrefix(infile), Chomp(lines[k]))
  {
    SetPrefixLacks(infile, '\n');
    DeclarationsRead(SetPrefix(infile), lines);
  }

  lemma {:induction false} DeclarationsRead(prefix: string, lines: seq<string>)
    requires Lacks(prefix, '\n')
    requires forall k :: 0 <= k < |lines| ==> FileLine(lines[k])
    ensures var ls := ReadLines(Declarations(prefix, lines));
      && |ls| == |lines|
      && forall k :: 0 <= k < |lines| ==> ls[k] == Declaration(prefix, Chomp(lines[k]))
  {
    if |lines| > 0 {
      var init := lines[..|lines| - 1];
      var token := Chomp(lines[|lines| - 1]);
      var before, dcl := Declarations(prefix, init), Declaration(prefix, token);
      DeclarationsStep(prefix, lines);
      DeclarationsRead(prefix, init);
      ChompLacksNewline(lines[|lines| - 1]);
      DeclarationLacks(prefix, token);
      ReadAppend(before, dcl, '\n');
      var ls, lsb := ReadLines(Declarations(prefix, lines)), ReadLines(before);
      assert ls == lsb + [dcl];
      forall k | 0 <= k < |lines|
        ensures ls[k] == Declaration(prefix, Chomp(lines[k]))
      {
        if k < |lines| - 1 {
          assert lines[k] == init[k];
          assert ls[k] == lsb[k];
        } else {
          assert ls[k] == dcl;
        }
      }
    }
  }

  lemma DeclarationsStep(prefix: string, lines: seq<string>)
    requires |lines| > 0
    ensures var before := Declarations(prefix, lines[..|lines| - 1]);
      && Declarations(prefix, lines) == before + Declaration(prefix, Chomp(lines[|lines| - 1])) + ['\n']
      && Terminated(before, '\n')
  {
    var init := lines[..|lines| - 1];
    Associative(Declarations(prefix, init), Declaration(prefix, Chomp(lines[|lines| - 1])), ['\n']);
    if |init| > 0 {
      var dcl := Declaration(prefix, Chomp(init[|init| - 1]));
      Associative(Declarations(prefix, init[..|init| - 1]), dcl, ['\n']);
      EndsWith(Declarations(prefix, init[..|init| - 1]) + dcl, '\n');
    }
  }

  lemma Associative(a: string, b: string, c: string)
    ensures a + (b + c) == a + b + c
  {
  }

  lemma EndsWith(a: string, c: char)
    ensures Terminated(a + [c], c)
  {
  }

  /** The prefix is a leading part of the file's basename containing neither
      '/' nor '_', cut at the first '_'. */
  lemma SetPrefixShape(infile: string)
    ensures var b := Basename(infile); var p := SetPrefix(infile);
      && p <= b
      && (forall i :: 0 <= i < |p| ==> p[i] != '_' && p[i] != '/')
      && (|p| < |b| ==> b[|p|] == '_')
  {
  }

  /** The declaration of one statistic, without its newline. */
  function ValueDeclaration(name: string): string {
    "@ATTRIBUTE value_" + name + " NUMERIC"
  }

  function ValueLine(name: string): string {
    ValueDeclaration(name) + "\n"
  }

  /** The declarations of the summary statistics, one per name in order. */
  function ValueAttributes(names: seq<string>): string {
    if |names| == 0 then "" else ValueLine(names[0]) + ValueAttributes(names[1..])
  }

  /** `nonvector_to_weka`. */
  function NonvectorToWeka(): string {
    ValueAttributes(Values)
  }

  /** The `k`-th declaration sits between those of the earlier and the
      later names. */
  lemma {:induction false} ValueAttributesSplit(names: seq<string>, k: nat)
    requires k < |names|
    ensures ValueAttributes(names) == ValueAttributes(names[..k]) + ValueLine(names[k]) + ValueAttributes(names[k + 1..])
  {
    var pre, post := names[..k], names[k + 1..];
    assert names == pre + ([names[k]] + post);
    ValueAttributesConcat(pre, [names[k]] + post);
    var line, last := ValueLine(names[k]), ValueAttributes(post);
    assert ValueAttributes([names[k]] + post) == line + last by {
      assert ([names[k]] + post)[1..] == post;
    }
    assert ValueAttributes(pre) + (line + last) == ValueAttributes(pre) + line + last;
  }

  lemma {:induction false} ValueAttributesConcat(a: seq<string>, b: seq<string>)
    ensures ValueAttributes(a + b) == ValueAttributes(a) + ValueAttributes(b)
    decreases |a|
  {
    if |a| == 0 {
      assert a + b == b;
    } else {
      var first, x, y := ValueLine(a[0]), ValueAttributes(a[1..]), ValueAttributes(b);
      assert first + (x + y) == (first + x) + y;
      assert ValueAttributes(a) == first + x;
      assert ValueAttributes(a + b) == first + ValueAttributes(a[1..] + b) by {
        assert (a + b)[0] == a[0] && (a + b)[1..] == a[1..] + b;
      }
      ValueAttributesConcat(a[1..], b);
    }
  }

  /** The statistic declarations take one line each. */
  lemma {:induction false} ValueAttributesLines(names: seq<string>)
    requires forall k :: 0 <= k < |names| ==> Lacks(names[k], '\n')
    ensures CountChar(ValueAttributes(names), '\n') == |names|
  {
    if |names| > 0 {
      ValueAttributesLines(names[1..]);
      ValueDeclarationLacks(names[0]);
      TerminatedOnce(ValueDeclaration(names[0]), '\n');
      CountCharAppend(ValueLine(names[0]), ValueAttributes(names[1..]), '\n');
    }
  }

  lemma ValueDeclarationLacks(name: string)
    requires Lacks(name, '\n')
    ensures Lacks(ValueDeclaration(name), '\n')
  {
    LacksAppend("@ATTRIBUTE value_", name, '\n');
    LacksAppend("@ATTRIBUTE value_" + name, " NUMERIC", '\n');
  }

  /** Read back line by line, the statistic declarations are, in order, one
      per name. */
  lemma {:induction false} ValueAttributesRead(names: seq<string>)
    requires forall k :: 0 <= k < |names| ==> Lacks(names[k], '\n')
    ensures var ls := ReadLines(ValueAttributes(names));
      && |ls| == |names|
      && forall k :: 0 <= k < |names| ==> ls[k] == ValueDeclaration(names[k])
  {
    if |names| > 0 {
      var v := ValueDeclaration(names[0]);
      ValueAttributesRead(names[1..]);
      ValueDeclarationLacks(names[0]);
      ReadFromField(v, '\n', ValueAttributes(names[1..]), "");
      assert ValueAttributes(names) == v + ['\n'] + ValueAttributes(names[1..]);
      assert "" + v == v;
      var ls := ReadLines(ValueAttributes(names));
      forall k | 0 <= k < |names|
        ensures ls[k] == ValueDeclaration(names[k])
      {
        if k > 0 { assert names[k] == names[1..][k - 1]; }
      }
    }
  }

  lemma ValuesLackNewline()
    ensures forall k :: 0 <= k < |Values| ==> Lacks(Values[k], '\n')
  {
    forall k | 0 <= k < |Values|
      ensures Lacks(Values[k], '\n')
    {
      assert '\n' !in Values[k];
    }
  }

  /** `nonvector_to_weka` declares the statistics, one line each, in the
      order of `VALUES`. */
  lemma NonvectorToWekaRead()
    ensures var ls := ReadLines(NonvectorToWeka());
      && |ls| == |Values|
      && forall k :: 0 <= k < |Values| ==> ls[k] == ValueDeclaration(Values[k])
  {
    ValuesLackNewline();
    ValueAttributesRead(Values);
  }

  /** `nonvector_to_weka` takes one line per statistic. */
  lemma NonvectorToWekaLines()
    ensures CountChar(NonvectorToWeka(), '\n') == |Values|
  {
    ValuesLackNewline();
    ValueAttributesLines(Values);
  }

  // ---------------------------------------------------------------- data

  function Flag(b: bool): string {
    if b then "1," else "0,"
  }

  /** `process_set`: field `x` of `len(ref_set)` is "1" iff `x` is listed in
      the vector. */
  function ProcessSet(vect: seq<int>, refLen: nat): (s: string)
    ensures |s| == 2 * refLen
    ensures forall x :: 0 <= x < refLen ==> s[2 * x + 1] == ',' && (s[2 * x] == '1' <==> x in vect)
    ensures forall i :: 0 <= i < |s| ==> s[i] in {'0', '1', ','}
  {
    if refLen == 0 then ""
    else
      var s := ProcessSet(vect, refLen - 1) + Flag(refLen - 1 in vect);
      assert forall x :: 0 <= x < refLen - 1 ==> s[2 * x] == ProcessSet(vect, refLen - 1)[2 * x];
      s
  }

  lemma FlagField(b: bool)
    ensures CountChar(Flag(b), ',') == 1
  {
    var f := Flag(b);
    assert f == [f[0]] + "," && f[0] != ',';
    TerminatedOnce([f[0]], ',');
  }

  /** Reading the fields back: the indices whose field is "1". */
  function ReadSet(s: string): set<int> {
    set x | 0 <= x < |s| / 2 && s[2 * x] == '1'
  }

  /** The row encodes exactly the listed indices below the reference
      length; others are dropped. */
  lemma ReadProcessSet(vect: seq<int>, refLen: nat)
    ensures ReadSet(ProcessSet(vect, refLen)) == set x | x in vect && 0 <= x < refLen
  {
    var s := ProcessSet(vect, refLen);
    assert |s| / 2 == refLen;
  }

  /** The fields `process_set` writes, one per reference index: "1" for a
      listed index and "0" otherwise. */
  function Flags(vect: seq<int>, refLen: nat): seq<string> {
    seq(refLen, x => if x in vect then "1" else "0")
  }

  /** Split on commas, the set's text reads back as its flags, in index
      order. */
  lemma {:induction false} ProcessSetRead(vect: seq<int>, refLen: nat)
    ensures ReadFields(ProcessSet(vect, refLen)) == Flags(vect, refLen)
    ensures Terminated(ProcessSet(vect, refLen), ',')
  {
    if refLen > 0 {
      var n := refLen - 1;
      var c := if n in vect then "1" else "0";
      ProcessSetRead(vect, n);
      ProcessSetStep(vect, n);
      ReadAppend(ProcessSet(vect, n), c, ',');
      FlagsStep(vect, n);
    }
  }

  lemma ProcessSetStep(vect: seq<int>, n: nat)
    ensures ProcessSet(vect, n + 1) == ProcessSet(vect, n) + (if n in vect then "1" else "0") + [',']
  {
  }

  lemma FlagsStep(vect: seq<int>, n: nat)
    ensures Flags(vect, n + 1) == Flags(vect, n) + [if n in vect then "1" else "0"]
  {
  }

  lemma {:induction false} ProcessSetFields(vect: seq<int>, refLen: nat)
    ensures CountChar(ProcessSet(vect, refLen), ',') == refLen
  {
    if refLen > 0 {
      ProcessSetFields(vect, refLen - 1);
      FlagField(refLen - 1 in vect);
      CountCharAppend(ProcessSet(vect, refLen - 1), Flag(refLen - 1 in vect), ',');
    }
  }

  /** `process_master_vector`: the fields of each vector kind in turn; a kind
      missing from the master file counts as empty. */
  function MasterVector(d: map<string, seq<int>>, refLen: string -> nat, kinds: seq<string>): string {
    if |kinds| == 0 then ""
    else
      var l := if kinds[0] in d then d[kinds[0]] else [];
      ProcessSet(l, refLen(kinds[0])) + MasterVector(d, refLen, kinds[1..])
  }

  function TotalFields(refLen: string -> nat, kinds: seq<string>): nat {
    if |kinds| == 0 then 0 else refLen(kinds[0]) + TotalFields(refLen, kinds[1..])
  }

  lemma {:induction false} MasterVectorFields(d: map<string, seq<int>>, refLen: string -> nat, kinds: seq<string>)
    ensures CountChar(MasterVector(d, refLen, kinds), ',') == TotalFields(refLen, kinds)
  {
    if |kinds| > 0 {
      var l := if kinds[0] in d then d[kinds[0]] else [];
      ProcessSetFields(l, refLen(kinds[0]));
      MasterVectorFields(d, refLen, kinds[1..]);
      CountCharAppend(ProcessSet(l, refLen(kinds[0])), MasterVector(d, refLen, kinds[1..]), ',');
    }
  }

  /** The vector fields of a master file: the flags of each kind in turn, a
      missing kind counting as empty. */
  function VectorFlags(d: map<string, seq<int>>, refLen: string -> nat, kinds: seq<string>): seq<string> {
    if |kinds| == 0 then []
    else Flags(if kinds[0] in d then d[kinds[0]] else [], refLen(kinds[0])) + VectorFlags(d, refLen, kinds[1..])
  }

  /** Split on commas, the vector part reads back as the flags of every kind
      in turn: no kind's fields run into the next. */
  lemma {:induction false} MasterVectorRead(d: map<string, seq<int>>, refLen: string -> nat, kinds: seq<string>)
    ensures ReadFields(MasterVector(d, refLen, kinds)) == VectorFlags(d, refLen, kinds)
    ensures Terminated(MasterVector(d, refLen, kinds), ',')
  {
    if |kinds| > 0 {
      var l := if kinds[0] in d then d[kinds[0]] else [];
      var first := ProcessSet(l, refLen(kinds[0]));
      var rest := MasterVector(d, refLen, kinds[1..]);
      ProcessSetRead(l, refLen(kinds[0]));
      MasterVectorRead(d, refLen, kinds[1..]);
      ReadTerminated(first, ',', rest);
    }
  }

  /** `str.replace('-1', '?')`: a left-to-right scan replacing
      non-overlapping occurrences. */
  function ReplaceMinusOne(s: string): (r: string)
    ensures |s| > 0 ==> |r| > 0 && (r[0] == s[0] || r[0] == '?')
    ensures forall i :: 0 <= i < |r| - 1 ==> !(r[i] == '-' && r[i + 1] == '1')
    ensures CountChar(r, ',') == CountChar(s, ',')
  {
    ReplaceShape(s);
    Replace(s)
  }

  /** The scan itself. */
  function Replace(s: string): string {
    if |s| == 0 then ""
    else if |s| >= 2 && s[0] == '-' && s[1] == '1' then "?" + Replace(s[2..])
    else [s[0]] + Replace(s[1..])
  }

  lemma {:induction false} ReplaceShape(s: string)
    ensures var r := Replace(s);
      && (|s| > 0 ==> |r| > 0 && (r[0] == s[0] || r[0] == '?'))
      && (forall i :: 0 <= i < |r| - 1 ==> !(r[i] == '-' && r[i + 1] == '1'))
      && CountChar(r, ',') == CountChar(s, ',')
    decreases |s|
  {
    if |s| >= 2 && s[0] == '-' && s[1] == '1' {
      ReplaceShape(s[2..]);
      assert CountChar(s, ',') == CountChar(s[2..], ',') by {
        assert s[1..][1..] == s[2..];
      }
    } else if |s| > 0 {
      ReplaceShape(s[1..]);
      var r := Replace(s);
      assert r[1..] == Replace(s[1..]);
    }
  }

  /** Appending a character other than '1' cannot create a new match. */
  lemma {:induction false} ReplaceMinusOneAppend(a: string, c: char)
    requires c != '1'
    ensures ReplaceMinusOne(a + [c]) == ReplaceMinusOne(a) + [c]
  {
    if |a| == 0 {
    } else if |a| >= 2 && a[0] == '-' && a[1] == '1' {
      assert (a + [c])[2..] == a[2..] + [c];
      ReplaceMinusOneAppend(a[2..], c);
    } else {
      assert (a + [c])[1..] == a[1..] + [c];
      ReplaceMinusOneAppend(a[1..], c);
    }
  }

  /** A string without "-1" is left unchanged, so replacing twice is
      replacing once. */
  lemma {:induction false} ReplaceMinusOneIdempotent(s: string)
    ensures ReplaceMinusOne(ReplaceMinusOne(s)) == ReplaceMinusOne(s)
  {
    NoMinusOneFixed(ReplaceMinusOne(s));
  }

  lemma {:induction false} NoMinusOneFixed(s: string)
    requires forall i :: 0 <= i < |s| - 1 ==> !(s[i] == '-' && s[i + 1] == '1')
    ensures ReplaceMinusOne(s) == s
  {
    if |s| > 0 {
      NoMinusOneFixed(s[1..]);
    }
  }

  /** The replacement scans each comma-terminated part on its own: a match
      never spans a comma. */
  lemma {:induction false} ReplaceConcat(a: string, t: string)
    requires |a| > 0 && a[|a| - 1] == ','
    ensures Replace(a + t) == Replace(a) + Replace(t)
    decreases |a|, 1
  {
    if |a| >= 2 && a[0] == '-' && a[1] == '1' {
      ReplaceConcatMatch(a, t);
    } else if |a| == 1 {
      assert (a + t)[1..] == t;
      assert Replace(a + t) == [a[0]] + Replace(t);
      assert Replace(a) == [a[0]] + "";
    } else {
      ReplaceConcatOther(a, t);
    }
  }

  lemma {:induction false} ReplaceConcatMatch(a: string, t: string)
    requires |a| > 2 && a[0] == '-' && a[1] == '1' && a[|a| - 1] == ','
    ensures Replace(a + t) == Replace(a) + Replace(t)
    decreases |a|, 0
  {
    var x, y := Replace(a[2..]), Replace(t);
    assert Replace(a + t) == "?" + Replace(a[2..] + t) by {
      assert (a + t)[2..] == a[2..] + t;
    }
    ReplaceConcat(a[2..], t);
    assert "?" + (x + y) == ("?" + x) + y;
  }

  lemma {:induction false} ReplaceConcatOther(a: string, t: string)
    requires |a| > 1 && !(a[0] == '-' && a[1] == '1') && a[|a| - 1] == ','
    ensures Replace(a + t) == Replace(a) + Replace(t)
    decreases |a|, 0
  {
    var x, y := Replace(a[1..]), Replace(t);
    assert Replace(a + t) == [a[0]] + Replace(a[1..] + t) by {
      assert (a + t)[1..] == a[1..] + t;
    }
    ReplaceConcat(a[1..], t);
    assert [a[0]] + (x + y) == ([a[0]] + x) + y;
  }

  /** The replacement adds no character other than '?'. */
  lemma {:induction false} ReplaceMinusOneLacks(s: string, c: char)
    requires Lacks(s, c) && c != '?'
    ensures Lacks(ReplaceMinusOne(s), c)
    decreases |s|
  {
    if |s| >= 2 && s[0] == '-' && s[1] == '1' {
      ReplaceMinusOneLacks(s[2..], c);
    } else if |s| > 0 {
      ReplaceMinusOneLacks(s[1..], c);
    }
  }

  /** One "value," field per statistic, "?" when the statistic is absent;
      `d` holds each present statistic as `format` renders it. */
  function ValueFields(d: map<string, string>, names: seq<string>): (s: string)
    ensures |names| > 0 ==> |s| > 0 && s[|s| - 1] == ','
  {
    if |names| == 0 then ""
    else
      var name := names[|names| - 1];
      ValueFields(d, names[..|names| - 1]) + (if name in d then d[name] else "?") + ","
  }

  /** `process_master_value`. */
  function ProcessMasterValue(d: map<string, string>): string {
    ReplaceMinusOne(ValueFields(d, Values))
  }

  /** Every listed statistic's rendering is free of commas. */
  predicate CommaFree(d: map<string, string>) {
    forall k :: k in d ==> forall i :: 0 <= i < |d[k]| ==> d[k][i] != ','
  }

  lemma {:induction false} ValueFieldsCount(d: map<string, string>, names: seq<string>)
    requires CommaFree(d)
    ensures CountChar(ValueFields(d, names), ',') == |names|
  {
    if |names| > 0 {
      var name := names[|names| - 1];
      var v := if name in d then d[name] else "?";
      ValueFieldsCount(d, names[..|names| - 1]);
      assert CountChar(v, ',') == 0 by {
        if name in d {
          CommaFreeCount(v);
        }
      }
      CountCharAppend(ValueFields(d, names[..|names| - 1]), v, ',');
      CountCharAppend(ValueFields(d, names[..|names| - 1]) + v, ",", ',');
    }
  }

  lemma CommaFreeCount(s: string)
    requires forall i :: 0 <= i < |s| ==> s[i] != ','
    ensures CountChar(s, ',') == 0
  {
  }

  /** Reads text back as a reader splitting on `sep` would, with `cur` the
      piece read so far; a last piece without its separator is kept. */
  function ReadFrom(s: string, sep: char, cur: string): seq<string>
    decreases |s|
  {
    if |s| == 0 then (if |cur| == 0 then [] else [cur])
    else if s[0] == sep then [cur] + ReadFrom(s[1..], sep, "")
    else ReadFrom(s[1..], sep, cur + [s[0]])
  }

  /** The comma-separated fields of a data row. */
  function ReadFields(s: string): seq<string> {
    ReadFrom(s, ',', "")
  }

  /** The lines of a header part. */
  function ReadLines(s: string): seq<string> {
    ReadFrom(s, '\n', "")
  }

  /** Whole pieces only: empty, or ending with the separator. */
  predicate Terminated(s: string, sep: char) {
    |s| == 0 || s[|s| - 1] == sep
  }

  /** A run without the separator, and the separator, close the current
      piece. */
  lemma {:induction false} ReadFromField(v: string, sep: char, t: string, cur: string)
    requires Lacks(v, sep)
    ensures ReadFrom(v + [sep] + t, sep, cur) == [cur + v] + ReadFrom(t, sep, "")
    decreases |v|
  {
    if |v| == 0 {
      assert v + [sep] + t == [sep] + t;
      assert (v + [sep] + t)[1..] == t;
      assert cur + v == cur;
    } else {
      assert (v + [sep] + t)[0] == v[0];
      assert (v + [sep] + t)[1..] == v[1..] + [sep] + t;
      ReadFromField(v[1..], sep, t, cur + [v[0]]);
      assert cur + [v[0]] + v[1..] == cur + v;
    }
  }

  /** Whole pieces read from the start of a piece, followed by anything, read
      back as those pieces followed by what the rest reads as. */
  lemma {:induction false} ReadFromConcat(a: string, sep: char, t: string, cur: string)
    requires |a| > 0 && a[|a| - 1] == sep
    ensures ReadFrom(a + t, sep, cur) == ReadFrom(a, sep, cur) + ReadFrom(t, sep, "")
    decreases |a|
  {
    assert (a + t)[0] == a[0];
    assert (a + t)[1..] == a[1..] + t;
    if |a| == 1 {
      assert a[1..] + t == t;
    } else if a[0] == sep {
      ReadFromConcat(a[1..], sep, t, "");
    } else {
      ReadFromConcat(a[1..], sep, t, cur + [a[0]]);
    }
  }

  /** Whole pieces followed by anything read back as the two parts in turn. */
  lemma ReadTerminated(a: string, sep: char, t: string)
    requires Terminated(a, sep)
    ensures ReadFrom(a + t, sep, "") == ReadFrom(a, sep, "") + ReadFrom(t, sep, "")
  {
    if |a| == 0 {
      assert a + t == t;
    } else {
      ReadFromConcat(a, sep, t, "");
    }
  }

  /** A single piece with its separator reads back as that piece. */
  lemma ReadSingle(v: string, sep: char)
    requires Lacks(v, sep)
    ensures ReadFrom(v + [sep], sep, "") == [v]
  {
    ReadFromField(v, sep, "", "");
    assert v + [sep] + "" == v + [sep];
    assert "" + v == v;
  }

  /** Appending one piece and its separator appends exactly that piece to
      what is read back. */
  lemma ReadAppend(a: string, v: string, sep: char)
    requires Terminated(a, sep) && Lacks(v, sep)
    ensures ReadFrom(a + v + [sep], sep, "") == ReadFrom(a, sep, "") + [v]
  {
    ReadSingle(v, sep);
    assert a + v + [sep] == a + (v + [sep]);
    ReadTerminated(a, sep, v + [sep]);
  }

  /** Reading the statistics fields back gives, position by position, each
      listed statistic's rendering, or "?" when it is absent: no field is
      lost, merged or shifted while the renderings are comma-free. */
  lemma {:induction false} ValueFieldsRead(d: map<string, string>, names: seq<string>)
    requires CommaFree(d)
    ensures var fs := ReadFields(ValueFields(d, names));
            && |fs| == |names|
            && forall k :: 0 <= k < |names| ==> fs[k] == if names[k] in d then d[names[k]] else "?"
  {
    if |names| > 0 {
      var init := names[..|names| - 1];
      var name := names[|names| - 1];
      var v := if name in d then d[name] else "?";
      ValueFieldsRead(d, init);
      assert forall i :: 0 <= i < |v| ==> v[i] != ',';
      ReadAppend(ValueFields(d, init), v, ',');
      var fs := ReadFields(ValueFields(d, names));
      assert fs == ReadFields(ValueFields(d, init)) + [v];
      forall k | 0 <= k < |names|
        ensures fs[k] == if names[k] in d then d[names[k]] else "?"
      {
        if k < |names| - 1 { assert names[k] == init[k]; }
      }
    }
  }

  /** Each statistic's rendering with "-1" replaced. */
  function Replaced(d: map<string, string>): map<string, string> {
    map k | k in d :: ReplaceMinusOne(d[k])
  }

  /** "?" holds no "-1". */
  lemma ReplaceMinusOneUnknown()
    ensures ReplaceMinusOne("?") == "?"
  {
    NoMinusOneFixed("?");
  }

  /** A field's rendering after the replacement, as `Replaced` holds it. */
  lemma ReplacedField(d: map<string, string>, name: string)
    ensures (if name in Replaced(d) then Replaced(d)[name] else "?") == ReplaceMinusOne(if name in d then d[name] else "?")
  {
    ReplaceMinusOneUnknown();
  }

  /** Replacing in whole fields and one more field is replacing in each. */
  lemma ReplaceFieldAppend(before: string, v: string)
    requires Terminated(before, ',')
    ensures ReplaceMinusOne(before + v + [',']) == ReplaceMinusOne(before) + ReplaceMinusOne(v) + [',']
  {
    ReplaceMinusOneAppend(v, ',');
    assert before + v + [','] == before + (v + [',']);
    if |before| == 0 {
      assert before + (v + [',']) == v + [','];
    } else {
      ReplaceConcat(before, v + [',']);
    }
  }

  /** Replacing over the whole statistics part is replacing in each
      rendering. */
  lemma {:induction false} ReplaceValueFields(d: map<string, string>, names: seq<string>)
    ensures ReplaceMinusOne(ValueFields(d, names)) == ValueFields(Replaced(d), names)
  {
    if |names| > 0 {
      var init := names[..|names| - 1];
      var name := names[|names| - 1];
      var v := if name in d then d[name] else "?";
      var before := ValueFields(d, init);
      ReplaceValueFields(d, init);
      ReplacedField(d, name);
      ReplaceFieldAppend(before, v);
    }
  }

  /** The statistics fields as read back: each listed statistic's rendering,
      or "?" when it is absent, with "-1" replaced. */
  function Statistics(d: map<string, string>, names: seq<string>): seq<string> {
    seq(|names|, k requires 0 <= k < |names| => ReplaceMinusOne(if names[k] in d then d[names[k]] else "?"))
  }

  lemma ReplacedCommaFree(d: map<string, string>)
    requires CommaFree(d)
    ensures CommaFree(Replaced(d))
  {
    forall k | k in Replaced(d)
      ensures Lacks(Replaced(d)[k], ',')
    {
      ReplaceMinusOneLacks(d[k], ',');
    }
  }

  lemma ReplacedFieldsRead(d: map<string, string>, names: seq<string>)
    requires CommaFree(d)
    ensures ReadFields(ReplaceMinusOne(ValueFields(d, names))) == Statistics(d, names)
  {
    var e := Replaced(d);
    ReplaceValueFields(d, names);
    ReplacedCommaFree(d);
    ReplacedValueFieldsRead(d, e, names);
  }

  lemma ReplacedValueFieldsRead(d: map<string, string>, e: map<string, string>, names: seq<string>)
    requires e == Replaced(d) && CommaFree(e)
    ensures ReadFields(ValueFields(e, names)) == Statistics(d, names)
  {
    ValueFieldsRead(e, names);
    var fs := ReadFields(ValueFields(e, names));
    var st := Statistics(d, names);
    forall k | 0 <= k < |names|
      ensures fs[k] == st[k]
    {
      ReplacedField(d, names[k]);
    }
  }

  /** Split on commas, the statistics part of `process_master_value` reads
      back as one field per statistic, in the order of `VALUES`: the
      rendering, or "?" when absent, with "-1" replaced. */
  lemma ProcessMasterValueRead(d: map<string, string>)
    requires CommaFree(d)
    ensures ReadFields(ProcessMasterValue(d)) == Statistics(d, Values)
  {
    ReplacedFieldsRead(d, Values);
  }

  /** The statistics part holds no "-1", ends with a comma and, when the
      renderings are comma-free, has exactly one field per statistic. */
  lemma ProcessMasterValueShape(d: map<string, string>)
    ensures var s := ProcessMasterValue(d);
      && (forall i :: 0 <= i < |s| - 1 ==> !(s[i] == '-' && s[i + 1] == '1'))
      && |s| > 0 && s[|s| - 1] == ','
    ensures CommaFree(d) ==> CountChar(ProcessMasterValue(d), ',') == |Values|
  {
    var f := ValueFields(d, Values);
    assert f == f[..|f| - 1] + [','];
    ReplaceMinusOneAppend(f[..|f| - 1], ',');
    if CommaFree(d) {
      ValueFieldsCount(d, Values);
    }
  }

  /** The end of a data row: one trailing comma dropped, a newline added. */
  function Row(s: string): (r: string)
    ensures |r| > 0 && r[|r| - 1] == '\n'
    ensures |s| > 0 && s[|s| - 1] == ',' ==> r[..|r| - 1] + "," == s
    ensures !(|s| > 0 && s[|s| - 1] == ',') ==> r[..|r| - 1] == s
  {
    (if |s| > 0 && s[|s| - 1] == ',' then s[..|s| - 1] else s) + "\n"
  }

  lemma RowFields(s: string)
    requires |s| > 0 && s[|s| - 1] == ','
    ensures CountChar(Row(s), ',') == CountChar(s, ',') - 1
  {
    var t := s[..|s| - 1];
    assert s == t + ",";
    CountCharAppend(t, ",", ',');
    CountCharAppend(t, "\n", ',');
  }

  /** `process_entry`: no row when the value file is absent; otherwise the
      vector fields, then the statistic fields, as a row. */
  function ProcessEntry(vectors: map<string, seq<int>>, refLen: string -> nat, values: Option<map<string, string>>): (r: Option<string>)
    ensures r.None? <==> values.None?
  {
    match values
    case None => None
    case Some(d) => Some(Row(MasterVector(vectors, refLen, Vectors) + ProcessMasterValue(d)))
  }

  /** A data row has one field per vector slot and per statistic: its
      separators number one fewer than its fields, and it ends the line. */
  lemma ProcessEntryFields(vectors: map<string, seq<int>>, refLen: string -> nat, d: map<string, string>)
    requires CommaFree(d)
    ensures var r := ProcessEntry(vectors, refLen, Some(d));
      && r.Some? && |r.value| > 0 && r.value[|r.value| - 1] == '\n'
      && CountChar(r.value, ',') == TotalFields(refLen, Vectors) + |Values| - 1
  {
    var v := MasterVector(vectors, refLen, Vectors);
    var m := ProcessMasterValue(d);
    ProcessMasterValueShape(d);
    MasterVectorFields(vectors, refLen, Vectors);
    CountCharAppend(v, m, ',');
    RowFields(v + m);
  }

  /** Split on commas once its newline is turned back into the comma it
      replaced, a data row reads back as the flags of every vector kind in
      turn, then the statistics in the order of `VALUES`. */
  lemma ProcessEntryRead(vectors: map<string, seq<int>>, refLen: string -> nat, d: map<string, string>)
    requires CommaFree(d)
    ensures var r := ProcessEntry(vectors, refLen, Some(d));
      && r.Some? && |r.value| > 0
      && ReadFields(r.value[..|r.value| - 1] + ",") == VectorFlags(vectors, refLen, Vectors) + Statistics(d, Values)
  {
    var v := MasterVector(vectors, refLen, Vectors);
    var m := ProcessMasterValue(d);
    ProcessMasterValueShape(d);
    MasterVectorRead(vectors, refLen, Vectors);
    ProcessMasterValueRead(d);
    ReadTerminated(v, ',', m);
  }
}

=== FILE: twitterizer.dfy ===
/** The tweet filters of twitterizer.py: the per-tweet tests, `filter_tweet`
    with its in-place accumulation of the standard suite, and the id window
    computed by `Search.search.fil`. A tweet is the decoded JSON object with
    the keys the tests read. */
module Twitterizer {
  import opened Wrappers
  import opened Text
  import CharFilters

  /** The `entities` object; a missing key is `None`. */
  datatype Entities = Entities(hashtags: Option<seq<string>>, urls: Option<seq<string>>)

  /** A decoded tweet: the keys the tests look at, and how many others it has. */
  datatype Tweet = Tweet(text: Option<string>, entities: Option<Entities>, id: Option<int>, otherKeys: nat)

  /** Python truthiness of the tweet value: `None` and the empty dict are false. */
  predicate Truthy(t: Option<Tweet>) {
    t.Some? && (t.value.text.Some? || t.value.entities.Some? || t.value.id.Some? || t.value.otherKeys > 0)
  }

  /** The only exception the tests can raise: a missing key. */
  datatype KeyError = KeyError

  /** The tests a caller can pass: the suite's four, the url test, and the
      username test bound to a query. */
  datatype Test = Censor | Filter | Hash | HasText | Url | Unames(q: string)

  /** The standard suite, in the order `filter_tweet` appends it. */
  const Suite: seq<Test> := [Censor, Filter, Hash, HasText]

  // ---------------------------------------------------------------------
  // `_unames_test`: deleting `@[\w\d]+`

  /** A username token starts here: `@` followed by a word character. */
  predicate MentionAt(s: string, i: int) {
    0 <= i && i + 1 < |s| && s[i] == '@' && IsWordChar(s[i + 1])
  }

  /** `re.sub(r'@[\w\d]+', '', s)`: scanning left to right, each `@` followed
      by word characters is deleted together with the whole run. What is left
      holds no username token, and text without `@` is unchanged. */
  function RemoveMentions(s: string): (r: string)
    ensures |r| <= |s|
    ensures forall i :: 0 <= i < |r| ==> !MentionAt(r, i)
    ensures |s| > 0 && !IsWordChar(s[0]) && |r| > 0 ==> !IsWordChar(r[0])
    ensures (forall i :: 0 <= i < |s| ==> s[i] != '@') ==> r == s
    decreases |s|
  {
    if |s| == 0 then ""
    else if MentionAt(s, 0) then
      var k := 1 + WordRun(s[1..]);
      assert k < |s| ==> !IsWordChar(s[k]) by {
        if k < |s| { assert s[k] == s[1..][k - 1]; }
      }
      RemoveMentions(s[k..])
    else
      var rest := RemoveMentions(s[1..]);
      var r := [s[0]] + rest;
      assert forall i :: 1 <= i < |r| ==> r[i] == rest[i - 1];
      assert forall i :: 1 <= i < |r| ==> (MentionAt(r, i) <==> MentionAt(rest, i - 1));
      assert |s| > 1 ==> s[1..][0] == s[1];
      assert !MentionAt(r, 0);
      assert (forall i :: 0 <= i < |s| ==> s[i] != '@') ==> (forall i :: 0 <= i < |s[1..]| ==> s[1..][i] != '@');
      r
  }

  /** Removing usernames a second time changes nothing. */
  lemma {:induction false} RemoveMentionsIdempotent(s: string)
    ensures RemoveMentions(RemoveMentions(s)) == RemoveMentions(s)
  {
    NoMentionFixed(RemoveMentions(s));
  }

  /** Text without username tokens is left as it is. */
  lemma {:induction false} NoMentionFixed(s: string)
    requires forall i :: 0 <= i < |s| ==> !MentionAt(s, i)
    ensures RemoveMentions(s) == s
    decreases |s|
  {
    if |s| > 0 {
      assert !MentionAt(s, 0);
      forall i | 0 <= i < |s[1..]| ensures !MentionAt(s[1..], i) {
        assert !MentionAt(s, i + 1);
      }
      NoMentionFixed(s[1..]);
    }
  }

  // ---------------------------------------------------------------------
  // The tests

  /** One test on a truthy tweet: `_censor_test` and `_filter_test` are false
      without a text (the latter uses the class's own byte-wise `unifilter`,
      so it passes exactly the ASCII texts); `_hash_test` and `_url_test` are false when a key is
      missing; `_text_test` asks for the key; `_unames_test` reads the text
      without catching the KeyError. */
  function RunTest(t: Test, tw: Tweet): (r: Result<bool, KeyError>)
    ensures r.Err? <==> t.Unames? && tw.text.None?
    ensures t == Censor ==> r == Ok(tw.text.Some? && CharFilters.CurseOutLower(tw.text.value))
    ensures t == Filter ==> (r == Ok(true) <==> tw.text.Some? && CharFilters.IsAscii(tw.text.value)) && r.Ok?
    ensures t == Hash ==> (r == Ok(true) <==> tw.entities.Some? && tw.entities.value.hashtags.Some?
                                              && |tw.entities.value.hashtags.value| > 0)
    ensures t == Url ==> (r == Ok(true) <==> tw.entities.Some? && tw.entities.value.urls.Some?
                                             && |tw.entities.value.urls.value| > 0)
    ensures t.Unames? && tw.text.Some? ==> (r == Ok(true) <==> Occurs(t.q, RemoveMentions(tw.text.value)))
  {
    match t
    case Censor => Ok(tw.text.Some? && CharFilters.CurseOutLower(tw.text.value))
    case Filter => Ok(tw.text.Some? && CharFilters.UnifilterBytes(tw.text.value))
    case Hash =>
      Ok(tw.entities.Some? && tw.entities.value.hashtags.Some? && |tw.entities.value.hashtags.value| > 0)
    case HasText => Ok(tw.text.Some?)
    case Url => Ok(tw.entities.Some? && tw.entities.value.urls.Some? && |tw.entities.value.urls.value| > 0)
    case Unames(q) =>
      if tw.text.None? then Err(KeyError)
      else
        ContainsIsOccurs(RemoveMentions(tw.text.value), q);
        Ok(Contains(RemoveMentions(tw.text.value), q))
  }

  /** `all([test(tweet) for test in tests])`: the list is built first, so
      every test runs and any KeyError escapes; otherwise the conjunction. */
  function RunAll(tests: seq<Test>, tw: Tweet): (r: Result<bool, KeyError>)
    ensures r.Err? <==> exists i :: 0 <= i < |tests| && RunTest(tests[i], tw).Err?
    ensures r == Ok(true) <==> forall i :: 0 <= i < |tests| ==> RunTest(tests[i], tw) == Ok(true)
  {
    if |tests| == 0 then Ok(true)
    else
      var first := RunTest(tests[0], tw);
      var rest := RunAll(tests[1..], tw);
      assert forall i :: 1 <= i < |tests| ==> tests[i] == tests[1..][i - 1];
      if first.Err? then first
      else if rest.Err? then rest
      else Ok(first.value && rest.value)
  }

  /** Running every test of `a` and of `b`, as one list. */
  lemma {:induction false} RunAllAppend(a: seq<Test>, b: seq<Test>, tw: Tweet)
    ensures RunAll(a + b, tw).Err? <==> RunAll(a, tw).Err? || RunAll(b, tw).Err?
    ensures RunAll(a + b, tw) == Ok(true) <==> RunAll(a, tw) == Ok(true) && RunAll(b, tw) == Ok(true)
  {
    forall i | 0 <= i < |a + b| ensures (a + b)[i] == if i < |a| then a[i] else b[i - |a|] { }
    if RunAll(a, tw) == Ok(true) && RunAll(b, tw) == Ok(true) {
      assert forall i :: 0 <= i < |a + b| ==> RunTest((a + b)[i], tw) == Ok(true);
    }
    if RunAll(a + b, tw) == Ok(true) {
      forall i | 0 <= i < |a| ensures RunTest(a[i], tw) == Ok(true) { assert (a + b)[i] == a[i]; }
      forall i | 0 <= i < |b| ensures RunTest(b[i], tw) == Ok(true) { assert (a + b)[|a| + i] == b[i]; }
    }
    if RunAll(a, tw).Err? {
      var i :| 0 <= i < |a| && RunTest(a[i], tw).Err?;
      assert (a + b)[i] == a[i];
    }
    if RunAll(b, tw).Err? {
      var i :| 0 <= i < |b| && RunTest(b[i], tw).Err?;
      assert (a + b)[|a| + i] == b[i];
    }
  }

  /** `filter_tweet`: false for a falsy tweet; otherwise whether every test
      passes, the suite included when `suite` is set. With `suite` set and a
      non-empty `tests`, `tests += [...]` extends the caller's own list, which
      is returned as the second component; an empty `tests` is replaced by a
      fresh list and the caller's is left alone. */
  function FilterTweet(tw: Option<Tweet>, suite: bool, tests: seq<Test>): (r: (Result<bool, KeyError>, seq<Test>))
    ensures !Truthy(tw) ==> r == (Ok(false), tests)
    ensures Truthy(tw) ==> r.0 == RunAll(if suite then tests + Suite else tests, tw.value)
    ensures r.1 == if Truthy(tw) && suite && |tests| > 0 then tests + Suite else tests
  {
    if !Truthy(tw) then (Ok(false), tests)
    else
      var run := if suite then tests + Suite else tests;
      var callerList := if suite && |tests| > 0 then run else tests;
      (RunAll(run, tw.value), callerList)
  }

  /** What the accumulation does not change: a test list with the suite
      already appended any number of times gives the same verdict. */
  lemma {:induction false} SuiteRepeatHarmless(tests: seq<Test>, tw: Tweet)
    ensures RunAll(tests + Suite + Suite, tw) == RunAll(tests + Suite, tw)
  {
    RunAllAppend(tests + Suite, Suite, tw);
    RunAllAppend(tests, Suite, tw);
    assert forall i :: 0 <= i < |Suite| ==> !Suite[i].Unames?;
    assert !RunAll(Suite, tw).Err?;
    var x, y := RunAll(tests + Suite, tw), RunAll(tests + Suite + Suite, tw);
    if x.Err? {
      assert y.Err? && x.error == y.error == KeyError;
    } else if x.value {
      assert y == Ok(true);
    } else {
      assert y.Ok? && !y.value;
    }
  }

  /** Filtering a batch with one shared test list, as `search` does through
      `partial(filter_tweet, tests=tests)`: the kept tweets and the list. */
  function FilterBatch(tweets: seq<Option<Tweet>>, suite: bool, tests: seq<Test>)
    : (r: (Result<seq<Option<Tweet>>, KeyError>, seq<Test>))
    ensures r.0.Ok? ==> |r.0.value| <= |tweets|
    ensures r.0.Ok? ==> forall t :: t in r.0.value ==> t in tweets && Truthy(t)
    decreases |tweets|
  {
    if |tweets| == 0 then (Ok([]), tests)
    else
      var (verdict, tests1) := FilterTweet(tweets[0], suite, tests);
      if verdict.Err? then (Err(verdict.error), tests1)
      else
        var (rest, tests2) := FilterBatch(tweets[1..], suite, tests1);
        if rest.Err? then (rest, tests2)
        else (Ok((if verdict.value then [tweets[0]] else []) + rest.value), tests2)
  }

  /** The test list whose verdict `filter_tweet` gives on the first tweet. */
  function Run(suite: bool, tests: seq<Test>): seq<Test> {
    if suite then tests + Suite else tests
  }

  /** Which tweets a batch keeps: the truthy ones that pass the first tweet's
      test list, even though a shared non-empty list keeps growing, since a
      repeated suite changes no verdict. The batch fails exactly when some
      truthy tweet raises. */
  lemma {:induction false} FilterBatchKeeps(tweets: seq<Option<Tweet>>, suite: bool, tests: seq<Test>)
    ensures var r := FilterBatch(tweets, suite, tests);
            r.0.Err? <==> exists i :: 0 <= i < |tweets| && Truthy(tweets[i]) && RunAll(Run(suite, tests), tweets[i].value).Err?
    ensures var r := FilterBatch(tweets, suite, tests);
            r.0.Ok? ==> forall t :: t in r.0.value <==> t in tweets && Truthy(t) && RunAll(Run(suite, tests), t.value) == Ok(true)
    decreases |tweets|
  {
    if |tweets| > 0 {
      var run := Run(suite, tests);
      var (verdict, tests1) := FilterTweet(tweets[0], suite, tests);
      var tail := tweets[1..];
      FilterBatchKeeps(tail, suite, tests1);
      forall tw: Tweet
        ensures RunAll(Run(suite, tests1), tw) == RunAll(run, tw)
      {
        if Truthy(tweets[0]) && suite && |tests| > 0 {
          SuiteRepeatHarmless(tests, tw);
        }
      }
      assert forall i :: 1 <= i < |tweets| ==> tweets[i] == tail[i - 1];
      assert forall t :: t in tweets <==> t == tweets[0] || t in tail;
    }
  }

  /** Number of truthy tweets. */
  function CountTruthy(tweets: seq<Option<Tweet>>): nat {
    if |tweets| == 0 then 0 else (if Truthy(tweets[0]) then 1 else 0) + CountTruthy(tweets[1..])
  }

  /** The shared list gains the four suite tests once per truthy tweet, and
      the verdicts are those of the original list plus one suite. */
  lemma {:induction false} FilterBatchAccumulates(tweets: seq<Option<Tweet>>, tests: seq<Test>)
    requires |tests| > 0
    ensures var r := FilterBatch(tweets, true, tests);
            r.0.Ok? ==> |r.1| == |tests| + |Suite| * CountTruthy(tweets)
    decreases |tweets|
  {
    if |tweets| > 0 {
      var (verdict, tests1) := FilterTweet(tweets[0], true, tests);
      if verdict.Ok? {
        FilterBatchAccumulates(tweets[1..], tests1);
      }
    }
  }

  // ---------------------------------------------------------------------
  // `fil`: the id window for the next page

  /** Why `fil` fails: a tweet without `id_str`, an empty batch (`min` of
      an empty list raises ValueError), or a tweet without `text` under the
      username test, whose KeyError `filter_tweet` does not catch. */
  datatype FilError = MissingId | EmptyBatch | MissingText

  /** `max_id = min(ids) - 1` and `since_id = max(ids)`. */
  function IdWindow(ids: seq<int>): (r: Result<(int, int), FilError>)
    ensures |ids| == 0 <==> r.Err?
    ensures r.Ok? ==> forall i :: 0 <= i < |ids| ==> r.value.0 < ids[i] <= r.value.1
    ensures r.Ok? ==> (exists i :: 0 <= i < |ids| && ids[i] == r.value.0 + 1)
                      && (exists j :: 0 <= j < |ids| && ids[j] == r.value.1)
  {
    if |ids| == 0 then Err(EmptyBatch)
    else if |ids| == 1 then Ok((ids[0] - 1, ids[0]))
    else
      var w := IdWindow(ids[1..]).value;
      assert forall i :: 1 <= i < |ids| ==> ids[i] == ids[1..][i - 1];
      Ok((Min(ids[0] - 1, w.0), Max(ids[0], w.1)))
  }

  function Min(a: int, b: int): int { if a <= b then a else b }
  function Max(a: int, b: int): int { if a >= b then a else b }

  /** The ids of a batch, or the KeyError of the first tweet without one. */
  function Ids(tweets: seq<Tweet>): (r: Result<seq<int>, FilError>)
    ensures r.Ok? ==> |r.value| == |tweets| && forall i :: 0 <= i < |tweets| ==> tweets[i].id == Some(r.value[i])
    ensures r.Err? <==> exists i :: 0 <= i < |tweets| && tweets[i].id.None?
    ensures r.Err? ==> r.error == MissingId
  {
    if |tweets| == 0 then Ok([])
    else
      var rest := Ids(tweets[1..]);
      assert forall i :: 1 <= i < |tweets| ==> tweets[i] == tweets[1..][i - 1];
      if tweets[0].id.None? then Err(MissingId)
      else if rest.Err? then rest
      else Ok([tweets[0].id.value] + rest.value)
  }

  /** The batch as the filter sees it: every tweet present. */
  function Present(tweets: seq<Tweet>): (batch: seq<Option<Tweet>>)
    ensures |batch| == |tweets|
    ensures forall t :: t in batch <==> exists i :: 0 <= i < |tweets| && t == Some(tweets[i])
  {
    var batch := seq(|tweets|, i requires 0 <= i < |tweets| => Some(tweets[i]));
    forall t | t in batch
      ensures exists i :: 0 <= i < |tweets| && t == Some(tweets[i])
    {
      var i :| 0 <= i < |batch| && batch[i] == t;
      assert t == Some(tweets[i]);
    }
    forall i | 0 <= i < |tweets|
      ensures Some(tweets[i]) in batch
    {
      assert batch[i] == Some(tweets[i]);
    }
    batch
  }

  /** `FilterBatchKeeps` restated for a batch of present tweets. */
  lemma PresentKeeps(tweets: seq<Tweet>, suite: bool, tests: seq<Test>)
    ensures var r := FilterBatch(Present(tweets), suite, tests).0;
            r.Err? <==> exists i :: 0 <= i < |tweets| && Truthy(Some(tweets[i])) && RunAll(Run(suite, tests), tweets[i]).Err?
    ensures var r := FilterBatch(Present(tweets), suite, tests).0;
            r.Ok? ==> forall t :: t in r.value <==>
                        exists i :: 0 <= i < |tweets| && t == Some(tweets[i]) && Truthy(t)
                                    && RunAll(Run(suite, tests), tweets[i]) == Ok(true)
  {
    var batch := Present(tweets);
    FilterBatchKeeps(batch, suite, tests);
    assert forall i :: 0 <= i < |tweets| ==> Some(tweets[i]) in batch;
  }

  /** Every tweet's id lies in the window its batch's ids give. */
  lemma IdsInWindow(tweets: seq<Tweet>)
    requires Ids(tweets).Ok? && IdWindow(Ids(tweets).value).Ok?
    ensures var w := IdWindow(Ids(tweets).value).value;
            forall i :: 0 <= i < |tweets| ==> tweets[i].id.Some? && w.0 < tweets[i].id.value <= w.1
  {
    var ids := Ids(tweets).value;
    assert forall i :: 0 <= i < |tweets| ==> tweets[i].id.value == ids[i];
  }

  /** `fil`: the id window of a batch from the Search API, which holds only
      tweets (never `None`), then the filtered batch. The ids are read before
      any tweet is filtered, so a missing id is reported first. */
  function Fil(tweets: seq<Tweet>, suite: bool, tests: seq<Test>)
    : (r: Result<(seq<Option<Tweet>>, int, int), FilError>)
    ensures (exists i :: 0 <= i < |tweets| && tweets[i].id.None?) ==> r == Err(MissingId)
    ensures |tweets| == 0 ==> r == Err(EmptyBatch)
    ensures r == Err(MissingText) <==>
              && Ids(tweets).Ok? && |tweets| > 0
              && exists i :: 0 <= i < |tweets| && Truthy(Some(tweets[i])) && RunAll(Run(suite, tests), tweets[i]).Err?
    ensures r.Ok? ==> Ids(tweets).Ok? && (r.value.1, r.value.2) == IdWindow(Ids(tweets).value).value
    ensures r.Ok? ==> forall i :: 0 <= i < |tweets| ==>
                        tweets[i].id.Some? && r.value.1 < tweets[i].id.value <= r.value.2
    ensures r.Ok? ==> forall t :: t in r.value.0 <==>
                        exists i :: 0 <= i < |tweets| && t == Some(tweets[i]) && Truthy(t)
                                    && RunAll(Run(suite, tests), tweets[i]) == Ok(true)
  {
    match Ids(tweets)
    case Err(e) => Err(e)
    case Ok(ids) =>
      match IdWindow(ids)
      case Err(e) => Err(e)
      case Ok((maxId, sinceId)) =>
        IdsInWindow(tweets);
        PresentKeeps(tweets, suite, tests);
        match FilterBatch(Present(tweets), suite, tests).0
        case Err(_) => Err(MissingText)
        case Ok(kept) => Ok((kept, maxId, sinceId))
  }
}

=== FILE: unicode.dfy ===
/** The character-acceptance test `unicheck` (identical in tools.py,
    twitterizer.py and tools/filter.py) and the UTF-8 codec that the
    `unifilter` variants run it over. */
module Unicode {
  import opened Wrappers

  /** One byte of an encoded string. */
  type Byte = x: int | 0 <= x < 256

  /** The Unicode blocks above 11263 that `unicheck` lists after the range
      test: two emoji blocks, transport symbols and the replacement character. */
  predicate InEmojiBlocks(val: int) {
    (126876 <= val <= 127321) || (127744 <= val <= 128591) ||
    (128640 <= val <= 128895) || val == 65533
  }

  /** `unicheck` as written: its fifth test reads `val >= 9312 and val >= 11263`,
      which accepts every value from 11263 upwards and makes the remaining
      tests unreachable. */
  function UniCheckAsWritten(val: int): (ok: bool)
    ensures ok <==> (val <= 128 || (8192 <= val <= 8303) || (8352 <= val <= 8399)
                     || (8448 <= val <= 9215) || val >= 11263)
  {
    if val <= 128 then true
    else if 8192 <= val <= 8303 then true
    else if 8352 <= val <= 8399 then true
    else if 8448 <= val <= 9215 then true
    else if val >= 9312 && val >= 11263 then true
    else if 126876 <= val <= 127321 then true
    else if 127744 <= val <= 128591 then true
    else if 128640 <= val <= 128895 then true
    else if val == 65533 then true
    else false
  }

  /** `unicheck` with the fifth test read as the range `9312 <= val <= 11263`
      (enclosed alphanumerics up to the miscellaneous symbols and arrows). */
  function UniCheck(val: int): (ok: bool)
    ensures ok ==> val <= 128 || val == 65533 || 8192 <= val <= 128895
    ensures 9312 <= val <= 11263 ==> ok
    ensures InEmojiBlocks(val) ==> ok
    ensures 11263 < val && !InEmojiBlocks(val) ==> !ok
  {
    if val <= 128 then true
    else if 8192 <= val <= 8303 then true
    else if 8352 <= val <= 8399 then true
    else if 8448 <= val <= 9215 then true
    else if 9312 <= val <= 11263 then true
    else if 126876 <= val <= 127321 then true
    else if 127744 <= val <= 128591 then true
    else if 128640 <= val <= 128895 then true
    else if val == 65533 then true
    else false
  }

  /** The two readings differ exactly on the enclosed-alphanumerics range the
      typo drops and on the values above 11263 outside the listed blocks that
      it lets through. */
  lemma UniCheckReadingsDiffer(val: int)
    ensures UniCheckAsWritten(val) != UniCheck(val) <==>
              (9312 <= val < 11263) || (11263 < val && !InEmojiBlocks(val))
  {
  }

  /** Concrete witnesses: CIRCLED DIGIT ONE (9312) is refused and code point
      70000, in none of the listed blocks, is accepted. */
  lemma UniCheckAsWrittenCounterexamples()
    ensures !UniCheckAsWritten(9312) && UniCheck(9312)
    ensures UniCheckAsWritten(70000) && !UniCheck(70000)
  {
  }

  // ---------------------------------------------------------------------
  // UTF-8 (RFC 3629)

  predicate IsContinuation(b: Byte) {
    0x80 <= b < 0xC0
  }

  /** The UTF-8 encoding of one scalar value. */
  function EncodeChar(c: char): (bs: seq<Byte>)
    ensures 1 <= |bs| <= 4
    ensures |bs| == 1 <==> (c as int) < 0x80
    ensures (c as int) < 0x80 ==> bs == [c as int]
    ensures (c as int) >= 0x80 ==> bs[0] >= 0xC2
    ensures forall i :: 1 <= i < |bs| ==> IsContinuation(bs[i])
  {
    var v := c as int;
    if v < 0x80 then [v]
    else if v < 0x800 then [0xC0 + v / 64, 0x80 + v % 64]
    else if v < 0x10000 then [0xE0 + v / 4096, 0x80 + (v / 64) % 64, 0x80 + v % 64]
    else [0xF0 + v / 262144, 0x80 + (v / 4096) % 64, 0x80 + (v / 64) % 64, 0x80 + v % 64]
  }

  /** `s.encode('utf8')`. */
  function Encode(s: string): seq<Byte> {
    if |s| == 0 then [] else EncodeChar(s[0]) + Encode(s[1..])
  }

  /** Decodes the character at the head of `bs`, with its length in bytes;
      overlong forms, surrogates and values above U+10FFFF are refused. */
  function DecodeChar(bs: seq<Byte>): (r: Option<(char, nat)>)
    requires |bs| > 0
    ensures r.Some? ==> 1 <= r.value.1 <= |bs| && EncodeChar(r.value.0) == bs[..r.value.1]
  {
    var b0 := bs[0];
    if b0 < 0x80 then
      Some((b0 as char, 1))
    else if 0xC2 <= b0 <= 0xDF && |bs| >= 2 && IsContinuation(bs[1]) then
      assert bs[..2] == [bs[0], bs[1]];
      Some((DecodeTwoBytes(b0, bs[1]), 2))
    else if 0xE0 <= b0 <= 0xEF && |bs| >= 3 && IsContinuation(bs[1]) && IsContinuation(bs[2]) then
      match DecodeThreeBytes(b0, bs[1], bs[2])
      case None => None
      case Some(c) =>
        assert bs[..3] == [bs[0], bs[1], bs[2]];
        Some((c, 3))
    else if 0xF0 <= b0 <= 0xF4 && |bs| >= 4 && IsContinuation(bs[1]) && IsContinuation(bs[2])
            && IsContinuation(bs[3]) then
      match DecodeFourBytes(b0, bs[1], bs[2], bs[3])
      case None => None
      case Some(c) =>
        assert bs[..4] == [bs[0], bs[1], bs[2], bs[3]];
        Some((c, 4))
    else
      None
  }

  /** A two-byte sequence; its lead byte rules out overlong forms. */
  function DecodeTwoBytes(b0: Byte, b1: Byte): (c: char)
    requires 0xC2 <= b0 <= 0xDF && IsContinuation(b1)
    ensures EncodeChar(c) == [b0, b1]
  {
    var v := (b0 - 0xC0) * 64 + (b1 - 0x80);
    assert v / 64 == b0 - 0xC0 && v % 64 == b1 - 0x80;
    v as char
  }

  /** A three-byte sequence, refused when overlong or a surrogate. */
  function DecodeThreeBytes(b0: Byte, b1: Byte, b2: Byte): (r: Option<char>)
    requires 0xE0 <= b0 <= 0xEF && IsContinuation(b1) && IsContinuation(b2)
    ensures r.Some? ==> EncodeChar(r.value) == [b0, b1, b2]
  {
    var v := (b0 - 0xE0) * 4096 + (b1 - 0x80) * 64 + (b2 - 0x80);
    if v < 0x800 || (0xD800 <= v < 0xE000) then None
    else
      DivMod3(b0 - 0xE0, b1 - 0x80, b2 - 0x80);
      Some(v as char)
  }

  /** A four-byte sequence, refused when overlong or above U+10FFFF. */
  function DecodeFourBytes(b0: Byte, b1: Byte, b2: Byte, b3: Byte): (r: Option<char>)
    requires 0xF0 <= b0 <= 0xF4 && IsContinuation(b1) && IsContinuation(b2) && IsContinuation(b3)
    ensures r.Some? ==> EncodeChar(r.value) == [b0, b1, b2, b3]
  {
    var v := (b0 - 0xF0) * 262144 + (b1 - 0x80) * 4096 + (b2 - 0x80) * 64 + (b3 - 0x80);
    if v < 0x10000 || v > 0x10FFFF then None
    else
      DivMod4(b0 - 0xF0, b1 - 0x80, b2 - 0x80, b3 - 0x80);
      Some(v as char)
  }

  lemma DivMod3(a: int, b: int, c: int)
    requires 0 <= a < 16 && 0 <= b < 64 && 0 <= c < 64
    ensures var v := a * 4096 + b * 64 + c;
            v / 4096 == a && (v / 64) % 64 == b && v % 64 == c
  {
    var v := a * 4096 + b * 64 + c;
    assert v == (a * 64 + b) * 64 + c;
    assert v / 64 == a * 64 + b;
  }

  lemma DivMod4(a: int, b: int, c: int, d: int)
    requires 0 <= a < 8 && 0 <= b < 64 && 0 <= c < 64 && 0 <= d < 64
    ensures var v := a * 262144 + b * 4096 + c * 64 + d;
            v / 262144 == a && (v / 4096) % 64 == b && (v / 64) % 64 == c && v % 64 == d
  {
    var v := a * 262144 + b * 4096 + c * 64 + d;
    assert v == ((a * 64 + b) * 64 + c) * 64 + d;
    assert v / 64 == (a * 64 + b) * 64 + c;
    assert v / 4096 == a * 64 + b;
  }

  /** `bs.decode('utf-8')`: `None` stands for the UnicodeDecodeError. */
  function Decode(bs: seq<Byte>): (r: Option<string>)
    ensures r.Some? ==> Encode(r.value) == bs
    decreases |bs|
  {
    if |bs| == 0 then Some("")
    else
      match DecodeChar(bs)
      case None => None
      case Some((c, n)) =>
        match Decode(bs[n..])
        case None => None
        case Some(rest) =>
          assert bs == bs[..n] + bs[n..];
          Some([c] + rest)
  }

  /** Decoding undoes encoding, for every string. */
  lemma {:induction false} DecodeEncode(s: string)
    ensures Decode(Encode(s)) == Some(s)
  {
    if |s| > 0 {
      var c := s[0];
      var e := EncodeChar(c);
      var bs := Encode(s);
      assert bs == e + Encode(s[1..]);
      DecodeCharEncode(c, Encode(s[1..]));
      assert bs[|e|..] == Encode(s[1..]);
      DecodeEncode(s[1..]);
      assert [c] + s[1..] == s;
    }
  }

  lemma DecodeCharEncode(c: char, tail: seq<Byte>)
    ensures DecodeChar(EncodeChar(c) + tail) == Some((c, |EncodeChar(c)|))
  {
    var v := c as int;
    if v < 0x80 {
    } else if v < 0x800 {
      DecodeTwo(c, tail);
    } else if v < 0x10000 {
      DecodeThree(c, tail);
    } else {
      DecodeFour(c, tail);
    }
  }

  lemma DecodeTwo(c: char, tail: seq<Byte>)
    requires 0x80 <= c as int < 0x800
    ensures DecodeChar(EncodeChar(c) + tail) == Some((c, 2))
  {
    var v := c as int;
    var bs := EncodeChar(c) + tail;
    var hi, lo := v / 64, v % 64;
    assert v == hi * 64 + lo;
    assert bs[0] as int == 0xC0 + hi && bs[1] as int == 0x80 + lo;
  }

  lemma DecodeThree(c: char, tail: seq<Byte>)
    requires 0x800 <= c as int < 0x10000
    ensures DecodeChar(EncodeChar(c) + tail) == Some((c, 3))
  {
    var v := c as int;
    var bs := EncodeChar(c) + tail;
    var a, b, d := v / 4096, (v / 64) % 64, v % 64;
    assert v / 64 == a * 64 + b;
    assert v == (a * 64 + b) * 64 + d;
    assert bs[0] as int == 0xE0 + a && bs[1] as int == 0x80 + b && bs[2] as int == 0x80 + d;
    assert !(0xD800 <= v < 0xE000);
  }

  lemma DecodeFour(c: char, tail: seq<Byte>)
    requires 0x10000 <= c as int
    ensures DecodeChar(EncodeChar(c) + tail) == Some((c, 4))
  {
    var v := c as int;
    assert v <= 0x10FFFF;
    var bs := EncodeChar(c) + tail;
    var a, b, d, e := v / 262144, (v / 4096) % 64, (v / 64) % 64, v % 64;
    assert v / 4096 == a * 64 + b;
    assert v / 64 == (a * 64 + b) * 64 + d;
    assert v == ((a * 64 + b) * 64 + d) * 64 + e;
    assert bs[0] as int == 0xF0 + a && bs[1] as int == 0x80 + b;
    assert bs[2] as int == 0x80 + d && bs[3] as int == 0x80 + e;
  }
}

=== FILE: vectorizer.dfy ===
/** The presence-vector encoding of vectorizer.py: `to_vector` turns a list
    of items into the set of slot indices of a reference tuple, and
    `vector_map` merges two 0/1 vectors. */
module Vectorizer {
  import opened Wrappers
  import opened CharFilters

  /** The position of the first occurrence of `x` in `tup`, as
      `tup.index(x)` returns it. */
  function FirstIndex<T(==,!new)>(tup: seq<T>, x: T): (r: nat)
    requires x in tup
    ensures r < |tup| && tup[r] == x
    ensures forall k :: 0 <= k < r ==> tup[k] != x
  {
    if tup[0] == x then 0 else 1 + FirstIndex(tup[1..], x)
  }

  /** The slot an item sets: its first position in the tuple, or the
      out-of-vocabulary index `len(tup) + 1` when `tup.index` raises. */
  function Slot<T(==,!new)>(tup: seq<T>, x: T): nat {
    if x in tup then FirstIndex(tup, x) else |tup| + 1
  }

  /** `to_vector`: the set of slots the items of `lst` set. The source
      returns `list(vector_list)`, whose order is the set's iteration order;
      the model keeps the set. */
  function ToVector<T(==,!new)>(lst: seq<T>, tup: seq<T>): (r: set<nat>)
    ensures forall i :: i in r ==> i < |tup| || i == |tup| + 1
    ensures forall i :: i in r && i < |tup| ==> tup[i] in lst && forall k :: 0 <= k < i ==> tup[k] != tup[i]
    ensures forall i :: 0 <= i < |tup| && tup[i] in lst && (forall k :: 0 <= k < i ==> tup[k] != tup[i]) ==> i in r
    ensures |tup| + 1 in r <==> exists x :: x in lst && x !in tup
    ensures |r| <= |lst|
  {
    if |lst| == 0 then {}
    else
      var last := lst[|lst| - 1];
      var r := ToVector(lst[..|lst| - 1], tup) + {Slot(tup, last)};
      assert forall x :: x in lst <==> x in lst[..|lst| - 1] || x == last;
      assert forall i :: 0 <= i < |tup| && tup[i] == last && (forall k :: 0 <= k < i ==> tup[k] != tup[i]) ==> i == Slot(tup, last);
      r
  }

  lemma {:induction false} BoundedCard(a: set<nat>, n: nat)
    requires forall i :: i in a ==> i < n
    ensures |a| <= n
  {
    if n == 0 {
      assert a == {} by {
        forall i | i in a ensures false { }
      }
    } else {
      BoundedCard(a - {n - 1}, n - 1);
    }
  }

  /** The encoding never holds more slots than the vector has, nor more
      than there are items. */
  lemma ToVectorSize<T(!new)>(lst: seq<T>, tup: seq<T>)
    ensures |ToVector(lst, tup)| <= |tup| + 1
    ensures |lst| == 0 ==> ToVector(lst, tup) == {}
  {
    var r := ToVector(lst, tup);
    BoundedCard(r - {|tup| + 1}, |tup|);
  }

  /** A value of an extracted record: a string or a list of values. */
  datatype Value = Str(s: string) | List(items: seq<Value>)

  /** What iterating one element yields: a list its items, a string its
      characters. */
  function Expand(v: Value): seq<Value> {
    match v
    case List(items) => items
    case Str(s) => Chars(s)
  }

  /** `chain.from_iterable`: the items of each list in turn; iterating a
      string yields its characters. Everything yielded comes from some
      element, and every item of every element is yielded. */
  function Chain(lst: seq<Value>): (r: seq<Value>)
    ensures forall x :: x in r <==> exists k :: 0 <= k < |lst| && x in Expand(lst[k])
  {
    FlattenMembers(lst);
    Flatten(lst)
  }

  function Flatten(lst: seq<Value>): seq<Value> {
    if |lst| == 0 then [] else Expand(lst[0]) + Flatten(lst[1..])
  }

  lemma {:induction false} FlattenMembers(lst: seq<Value>)
    ensures forall x :: x in Flatten(lst) <==> exists k :: 0 <= k < |lst| && x in Expand(lst[k])
    decreases |lst|
  {
    if |lst| > 0 {
      FlattenMembers(lst[1..]);
      assert forall k :: 1 <= k < |lst| ==> lst[k] == lst[1..][k - 1];
      forall x | exists k :: 0 <= k < |lst| && x in Expand(lst[k])
        ensures x in Flatten(lst)
      {
        var k :| 0 <= k < |lst| && x in Expand(lst[k]);
        if k > 0 { assert x in Expand(lst[1..][k - 1]); }
      }
    }
  }

  /** Chaining a concatenation chains the parts in order; with the one-element
      case this determines the result position by position. */
  lemma ChainAppend(a: seq<Value>, b: seq<Value>)
    ensures Chain(a + b) == Chain(a) + Chain(b)
    ensures Chain([]) == [] && forall v :: Chain([v]) == Expand(v)
  {
    FlattenConcat(a, b);
    forall v
      ensures Chain([v]) == Expand(v)
    {
      assert [v][1..] == [];
      assert Flatten([v]) == Expand(v) + [];
    }
  }

  lemma {:induction false} FlattenConcat(a: seq<Value>, b: seq<Value>)
    ensures Flatten(a + b) == Flatten(a) + Flatten(b)
    decreases |a|
  {
    if |a| == 0 {
      assert a + b == b;
    } else {
      assert (a + b)[0] == a[0];
      assert (a + b)[1..] == a[1..] + b;
      FlattenConcat(a[1..], b);
    }
  }

  function Chars(s: string): (r: seq<Value>)
    ensures |r| == |s| && forall k :: 0 <= k < |s| ==> r[k] == Str([s[k]])
  {
    if |s| == 0 then [] else [Str([s[0]])] + Chars(s[1..])
  }

  /** How the reference tuple compares with items. Its entries are the byte
      strings of the set file's lines, the items are the unicode strings of
      the decoded record, and Python 2 compares the two by decoding the byte
      string as ASCII: an ASCII entry equals the item with the same text, a
      non-ASCII one fails to decode and equals no item. An entry is `Some` of
      the one item it can equal, or `None`. */
  function Entries(tup: seq<string>): (r: seq<Option<Value>>)
    ensures |r| == |tup|
    ensures forall k :: 0 <= k < |tup| ==> r[k] == if IsAscii(tup[k]) then Some(Str(tup[k])) else None
  {
    if |tup| == 0 then []
    else [if IsAscii(tup[0]) then Some(Str(tup[0])) else None] + Entries(tup[1..])
  }

  /** The items as they meet the entries. */
  function Items(lst: seq<Value>): (r: seq<Option<Value>>)
    ensures |r| == |lst| && forall k :: 0 <= k < |lst| ==> r[k] == Some(lst[k])
    ensures None !in r
  {
    if |lst| == 0 then [] else [Some(lst[0])] + Items(lst[1..])
  }

  /** `extracted_to_vector` on the record's field map: a missing field is a
      KeyError, a list whose first element is a list is flattened one level
      first, and the items meet the tuple's entries as Python 2 compares
      them, so a non-ASCII entry's slot is never set. */
  function ExtractedToVector(fields: map<string, seq<Value>>, tup: seq<string>, val: string): (r: Option<set<nat>>)
    ensures r.None? <==> val !in fields
    ensures r.Some? && |fields[val]| > 0 && fields[val][0].List? ==> r.value == ToVector(Items(Chain(fields[val])), Entries(tup))
    ensures r.Some? && (|fields[val]| == 0 || fields[val][0].Str?) ==> r.value == ToVector(Items(fields[val]), Entries(tup))
    ensures r.Some? ==> forall i :: 0 <= i < |tup| && !IsAscii(tup[i]) ==> i !in r.value
  {
    if val !in fields then None
    else
      var lst := fields[val];
      var items := if |lst| > 0 && lst[0].List? then Chain(lst) else lst;
      Some(ToVector(Items(items), Entries(tup)))
  }

  /** A nested item of the selected field that is listed in the reference
      tuple as an ASCII entry sets that entry's slot. */
  lemma NestedItemCounted(fields: map<string, seq<Value>>, tup: seq<string>, val: string, k: nat, i: nat)
    requires val in fields && 0 < |fields[val]| && fields[val][0].List?
    requires k < |fields[val]| && fields[val][k].List?
    requires i < |tup| && IsAscii(tup[i]) && Str(tup[i]) in fields[val][k].items
    requires forall j :: 0 <= j < i ==> tup[j] != tup[i]
    ensures ExtractedToVector(fields, tup, val) == Some(ToVector(Items(Chain(fields[val])), Entries(tup)))
    ensures i in ExtractedToVector(fields, tup, val).value
  {
    var x := Str(tup[i]);
    ChainHas(fields[val], k, x);
    AsciiEntryCounted(Chain(fields[val]), tup, i);
  }

  lemma ChainHas(lst: seq<Value>, k: nat, x: Value)
    requires k < |lst| && x in Expand(lst[k])
    ensures x in Chain(lst)
  {
  }

  /** An ASCII entry, first of its text in the tuple, whose text is among
      the items sets its slot. */
  lemma AsciiEntryCounted(lst: seq<Value>, tup: seq<string>, i: nat)
    requires i < |tup| && IsAscii(tup[i]) && Str(tup[i]) in lst
    requires forall j :: 0 <= j < i ==> tup[j] != tup[i]
    ensures i in ToVector(Items(lst), Entries(tup))
  {
    var t := Entries(tup);
    var items := Items(lst);
    assert forall j :: 0 <= j < i ==> t[j] != t[i];
    var n :| 0 <= n < |lst| && lst[n] == Str(tup[i]);
    assert items[n] == t[i];
  }

  /** A string item with a non-ASCII character equals no entry, so it always
      sets the out-of-vocabulary slot `len(tup) + 1`. */
  lemma NonAsciiItemOutOfVocabulary(fields: map<string, seq<Value>>, tup: seq<string>, val: string, k: nat)
    requires val in fields && (|fields[val]| == 0 || fields[val][0].Str?)
    requires k < |fields[val]| && fields[val][k].Str? && !IsAscii(fields[val][k].s)
    ensures ExtractedToVector(fields, tup, val).Some?
    ensures |tup| + 1 in ExtractedToVector(fields, tup, val).value
  {
    NonAsciiItemMissing(fields[val], tup, k);
  }

  lemma NonAsciiItemMissing(lst: seq<Value>, tup: seq<string>, k: nat)
    requires k < |lst| && lst[k].Str? && !IsAscii(lst[k].s)
    ensures |tup| + 1 in ToVector(Items(lst), Entries(tup))
  {
    var t := Entries(tup);
    var x := Items(lst)[k];
    assert x !in t by {
      forall j | 0 <= j < |tup|
        ensures t[j] != x
      {
        if IsAscii(tup[j]) {
          assert tup[j] != lst[k].s;
        }
      }
    }
  }

  /** A 0/1 vector entry. */
  type Bit = b: int | 0 <= b <= 1

  function Or(a: Bit, b: Bit): Bit {
    if a == 1 || b == 1 then 1 else 0
  }

  function Zeros(n: nat): (r: seq<Bit>)
    ensures |r| == n && forall k :: 0 <= k < n ==> r[k] == 0
  {
    if n == 0 then [] else [0] + Zeros(n - 1)
  }

  /** The failure of `map(operator.or_, v1, v2)` on vectors of different
      lengths: `map` pads the shorter with None, and `or_` rejects it. */
  datatype MapError = TypeError

  /** `vector_map`: an empty operand is replaced by zeros of the other's
      length, then the vectors are combined slot by slot. */
  function VectorMap(v1: seq<Bit>, v2: seq<Bit>): (r: Result<seq<Bit>, MapError>)
    ensures r.Ok? <==> |v1| == 0 || |v2| == 0 || |v1| == |v2|
    ensures |v1| == 0 ==> r == Ok(v2)
    ensures |v2| == 0 ==> r == Ok(v1)
    ensures r.Ok? && |v1| == |v2| ==>
              |r.value| == |v1| && forall k :: 0 <= k < |v1| ==> (r.value[k] == 1 <==> v1[k] == 1 || v2[k] == 1)
  {
    var a := if |v1| == 0 then Zeros(|v2|) else v1;
    var b := if |v1| != 0 && |v2| == 0 then Zeros(|v1|) else v2;
    if |a| != |b| then Err(TypeError)
    else
      var r := seq(|a|, k requires 0 <= k < |a| => Or(a[k], b[k]));
      assert |v1| == 0 ==> r == v2;
      assert |v2| == 0 ==> r == v1;
      Ok(r)
  }

  /** Combining is symmetric. */
  lemma VectorMapCommutes(v1: seq<Bit>, v2: seq<Bit>)
    ensures VectorMap(v1, v2) == VectorMap(v2, v1)
  {
    var r1, r2 := VectorMap(v1, v2), VectorMap(v2, v1);
    if r1.Ok? && |v1| == |v2| {
      assert r1.value == r2.value;
    }
  }

  /** Combining a vector with itself gives it back. */
  lemma VectorMapIdempotent(v: seq<Bit>)
    ensures VectorMap(v, v) == Ok(v)
  {
    assert VectorMap(v, v).value == v;
  }

  /** Combining equal-length vectors is associative. */
  lemma VectorMapAssociates(u: seq<Bit>, v: seq<Bit>, w: seq<Bit>)
    requires |u| == |v| == |w|
    ensures VectorMap(u, v).Ok? && VectorMap(v, w).Ok?
    ensures VectorMap(VectorMap(u, v).value, w) == VectorMap(u, VectorMap(v, w).value)
  {
    var l, r := VectorMap(VectorMap(u, v).value, w), VectorMap(u, VectorMap(v, w).value);
    if |u| > 0 {
      assert l.value == r.value;
    }
  }
}

=== FILE: wrappers.dfy ===
/** Failure-carrying values used throughout the model: Python's `None` and
    raised exceptions become explicit data. */
module Wrappers {

  /** A value that may be absent (Python `None`, or a missing dictionary key). */
  datatype Option<+T> = None | Some(value: T) {

    /** The wrapped value, or `default` when absent (Python's `d.get(k, default)`). */
    function GetOr(default: T): T {
      match this
      case Some(v) => v
      case None => default
    }
  }

  /** Either a computed value or the exception the source raises instead. */
  datatype Result<+R, +E> = Ok(value: R) | Err(error: E) {

    predicate IsFailure() {
      Err?
    }

    function PropagateFailure<U>(): Result<U, E>
      requires Err?
    {
      Err(error)
    }

    function Extract(): R
      requires Ok?
    {
      value
    }
  }
}
